=== FILE: README.md ===
# Resume builder core, modelled in Dafny

The application is a browser-based resume editor. A user logs in, either starts from the
template picker or uploads a PDF whose text a language model turns into a resume, edits the resume in a form, watches a paginated A4
preview, and downloads it as a PDF. This project models the decision-making core of
that program:

- the two pagination engines. One serves the on-campus template. The other is the generic
  one in `components/`. Each takes the children of the off-screen preview's `<main>`, with
  their measured heights, and packs them into pages. A list section may be split at an item
  boundary (modules `Layout`, `OnCampusPagination`, `ComponentsPagination`,
  `PaginationScenarios`);
- the previews: which sections are shown and in which order, how descriptions become bullet
  lines or HTML, the skill tags, the contact rows, the palette lookup, and how the
  extracurricular blocks are grouped (`Preview`, `NittPreview`, `ModernPreview`,
  `CorporatePreview`). Shared string helpers live in `Text`;
- the form operations: field edits, adding and removing list entries, the AI enhancement
  round trip, the modern template's skills box and photo crop, and the corporate template's
  extracurricular button (`Resume`, `Editing`, `ModernForm`, `CorporateForm`);
- the builder page: which resume it opens, which form and preview it shows, image
  validation, the NITT logo shortcut, the download decisions, the file name, and zoom
  (`Builder`). The page knows three templates: on-campus, modern-creative and
  corporate-minimal;
- the upload page: how the PDF text is assembled, fence stripping, merging the parsed
  answer into the default resume, and the alerts (`Upload`);
- the app shell's view transitions and the template picker (`App`). The picker shows three
  cards, but the modern and corporate cards are marked "Coming Soon" and cannot be
  clicked. The on-campus card hands its click event to the app instead of a template
  name, so the builder never receives a named template from the picker (see Findings).

Heights are integers. A measurement is a parameter: the engines receive the blocks and
their heights, not a DOM. Every engine is defined twice, through a `Mode` parameter:
`AsWritten` follows the source line by line, and `Corrected` repairs the defects listed
under Findings. Everything else in the model uses the code as written.

## Model

| member | source | states |
|---|---|---|
| OnCampusPagination.Budgets | templates/OnCampusResume/PaginatedResume.tsx:57-66 | The first-page budget is smaller than the continuation budget by the 24 px of extra padding plus the header, the rule and `<main>`'s top padding. |
| OnCampusPagination.Recalculate | templates/OnCampusResume/PaginatedResume.tsx:36-158 | With no source document, or with the header, footer, `<main>` or header rule missing, the previous pages stay. Otherwise, when no list is empty, the pages show every block, heading and item exactly once and in document order. |
| OnCampusPagination.PaginateKeepsOrder | templates/OnCampusResume/PaginatedResume.tsx:73-158 | When no splittable list is empty, reading the pages in order gives every whole block, heading and item exactly once, in document order, in both modes. |
| OnCampusPagination.EmptyListLosesHeading | templates/OnCampusResume/PaginatedResume.tsx:104-149 | A splittable section with an empty list, too tall to fit, emits nothing: its heading is counted but never shown, and the next section lands on the same page. |
| OnCampusPagination.PaginateNoOrphans | templates/OnCampusResume/PaginatedResume.tsx:104-149 | With positive heights, in both modes, a heading-only fragment (a heading shown without any of its items) never shares a page with other content. No other hypothesis: sections with empty lists and malformed sections are covered. |
| OnCampusPagination.CorrectedKeepsBudget | templates/OnCampusResume/PaginatedResume.tsx:73-150 | With positive heights, no splittable section with an empty list and no malformed section, every page of the corrected engine stays within its budget: the first-page budget for page one, the continuation budget after it. The only exception is a page holding a single atom (a whole block, a heading or an item), which no page break could divide. |
| OnCampusPagination.AsWrittenFirstPageOverflows | templates/OnCampusResume/PaginatedResume.tsx:85-93 | As written, a first section too tall for page one switches to the continuation budget without flushing anything, so page one holds 990 px against a 900 px budget. The corrected engine starts a new page. |
| ComponentsPagination.Budgets | components/PaginatedResume.tsx:30-56 | The first-page budget is smaller than the continuation budget by the 24 px of extra padding plus the header, the rule and the top padding. |
| ComponentsPagination.Recalculate | components/PaginatedResume.tsx:30-133 | With a required element missing, the previous pages stay. Otherwise, when no block is malformed, the pages show every atom once, in order. |
| ComponentsPagination.PaginateKeepsOrder | components/PaginatedResume.tsx:63-133 | When no block is malformed, the pages show every whole block, heading and item exactly once, in document order, in both modes. |
| ComponentsPagination.CorrectedKeepsBudget | components/PaginatedResume.tsx:63-125 | With positive heights and no malformed section, every page of the corrected engine stays within its budget: the first-page budget for page one, the continuation budget after it. There are two exceptions, neither of which a page break could divide: a page holding a single atom, and a page holding a heading with its list's first item and nothing else. |
| ComponentsPagination.AsWrittenContinuationOverflows | components/PaginatedResume.tsx:107-123 | As written, on a page that continues a list, the split guard compares against the heading's height although no heading is on the page. Two items of 40 px and 990 px then share a page: 1030 px against a 1000 px budget. |
| ComponentsPagination.CorrectedContinuationSplits | components/PaginatedResume.tsx:107-123 | With the guard corrected, the same input puts each remaining item on its own page. |
| ComponentsPagination.AsWrittenFirstPageOverflows | components/PaginatedResume.tsx:74-82 | The same first-page slip as the on-campus engine: 990 px on page one against a 900 px budget as written, and two pages when corrected. |
| PaginationScenarios.ShortResumeIsOnePage | components/PaginatedResume.tsx:63-72 | A section that fits goes whole onto page one, in both engines. |
| PaginationScenarios.TallSectionsGetAPageEach | templates/OnCampusResume/PaginatedResume.tsx:85-93 | Two unsplittable sections that cannot share a page get one page each, in both engines. |
| PaginationScenarios.ListSplitsAtItemBoundary | templates/OnCampusResume/PaginatedResume.tsx:127-149 | A long list is cut between items. The first page carries the heading and the continuation carries the rest of the items without a heading. |
| PaginationScenarios.OnCampusKeepsHeadingWithItem | templates/OnCampusResume/PaginatedResume.tsx:104-114 | When the heading and the first item do not both fit, the on-campus engine moves the heading to the next page. |
| PaginationScenarios.ComponentsStrandsHeading | components/PaginatedResume.tsx:96-123 | On the same input, the generic engine leaves the heading at the bottom of the page and moves only the item. |
| PaginationScenarios.MalformedSection | components/PaginatedResume.tsx:84-86 | A splittable section without a heading or list is appended whole to the current page in the on-campus engine, and skipped in the generic one. |
| PaginationScenarios.ZeroHeightsOnePage | templates/OnCampusResume/PaginatedResume.tsx:77-81 | When every height is zero, everything fits on one page. |
| PaginationScenarios.FallbackPage | templates/OnCampusResume/PaginatedResume.tsx:152-158 | One example per engine of the fallback: a lone section with an empty list (on campus) and a lone malformed section (generic) each give a single page showing all of `<main>`. |
| PaginationScenarios.FallbackWhenNothingEmitted | templates/OnCampusResume/PaginatedResume.tsx:152-158 | For every input of either engine: when `<main>` has sections but the walk emits no page and leaves nothing on the page being filled, the result is one page showing all of `<main>`. |
| PaginationScenarios.OnCampusMalformedOverfills | templates/OnCampusResume/PaginatedResume.tsx:97-101 | With positive heights and no empty list, the corrected on-campus engine still puts a 100 px block and a 2000 px malformed section on one 2100 px first page against 900 px, because a malformed section is appended without a height check. |
| PaginationScenarios.OnCampusEmptyListsOverfill | templates/OnCampusResume/PaginatedResume.tsx:103-158 | With positive heights and nothing malformed, two tall sections with empty lists show nothing. The fallback page then holds both headings, 1900 px against 900 px. |
| PaginationScenarios.ComponentsMalformedOverfill | components/PaginatedResume.tsx:84-133 | With positive heights, two malformed 1000 px sections are both skipped. The fallback page then holds 2000 px against 900 px. |
| Text.TrimStart | templates/OnCampusResume/ResumePreview.tsx:174 | The result is a suffix of the input. The dropped prefix is all white space, and the result does not start with white space. |
| Text.TrimEnd | templates/OnCampusResume/ResumePreview.tsx:174 | The result is a prefix of the input. The dropped suffix is all white space, and the result does not end with white space. |
| Text.Trim | components/ResumeForm.tsx:51 | The result is no longer than the input, and a non-empty result neither starts nor ends with white space. |
| Text.TrimIsInfix | components/ResumeForm.tsx:51 | The trimmed text is an infix of the input, and everything before it and everything after it is white space. |
| Text.BlankIffAllWhitespace | components/ResumeForm.tsx:51 | `s.trim()` is empty exactly when every character of s is white space. |
| Text.TrimSpacePrefix | templates/ModernCreative/ResumePreview.tsx:122 | A leading space does not change the trimmed text. |
| Text.Split | templates/CorporateMinimal/ResumePreview.tsx:124 | `split` gives at least one piece, and no piece contains the separator. |
| Text.JoinSplit | templates/CorporateMinimal/ResumePreview.tsx:124 | Joining the pieces with the separator gives back the text. |
| Text.SplitJoin | templates/CorporateMinimal/ResumePreview.tsx:124 | Splitting a join of separator-free pieces gives back the pieces. |
| Text.SplitLength | templates/CorporateMinimal/ResumePreview.tsx:124 | There is one piece per separator, plus one. |
| Text.NonBlankMembers | templates/OnCampusResume/ResumePreview.tsx:131 | The filter keeps exactly the non-blank lines. Every kept line comes from the input, and every non-blank input line is kept. |
| Text.NonBlankLines | templates/OnCampusResume/ResumePreview.tsx:131 | Each line is non-blank and free of line breaks, and every non-blank line of the text is among them. |
| Text.ReplaceAllKeepsCharOut | templates/OnCampusResume/ResumePreview.tsx:37-43 | A global replace introduces no character that is absent from both the text and the replacement. |
| Text.ReplaceAllOfPatternFree | templates/OnCampusResume/ResumePreview.tsx:37-43 | A text that never starts the pattern is left alone. |
| Text.ReplaceAllAtPattern | templates/OnCampusResume/ResumePreview.tsx:37-43 | An occurrence at the front is replaced, and the replacement goes on after it. |
| Text.RenderHtml | templates/OnCampusResume/ResumePreview.tsx:37-43 | `renderHTML` yields "" exactly for "", and its output has no raw line break left. |
| Text.ReplaceAllAround | templates/OnCampusResume/ResumePreview.tsx:37-43 | A global replace whose pattern lacks a character c rewrites the text on either side of c independently. |
| Text.BoldToStrongAround | templates/OnCampusResume/ResumePreview.tsx:40 | The `<b>` and `</b>` rewrites act on each side of a line break separately. |
| Text.RenderJoin | templates/OnCampusResume/ResumePreview.tsx:37-43 | Lines without breaks, joined by line breaks, render as the same lines with `<b>`/`</b>` made `<strong>`/`</strong>`, joined by `<br />`. |
| Text.RenderHtmlAsLines | templates/OnCampusResume/ResumePreview.tsx:37-43 | For any non-empty text, `renderHTML` gives the text's lines, each with the bold rewrites, joined by `<br />`. |
| Text.RenderHtmlOfLine | templates/OnCampusResume/ResumePreview.tsx:37-43 | A text with no line break gets the bold rewrites only. |
| Text.SplitKeepsCharOut | templates/OnCampusResume/ResumePreview.tsx:131 | A character missing from a text is missing from every piece of its split. |
| Text.NonBlankAppend | templates/OnCampusResume/ResumePreview.tsx:131 | Filtering blank lines distributes over concatenation, so the kept lines keep their order and their repetitions. |
| Text.NonBlankLinesAfterLine | templates/OnCampusResume/ResumePreview.tsx:131 | The non-blank lines of a text are its first line, unless that line is blank, followed by the non-blank lines of the rest, in order. |
| Text.NonBlankLinesKeepCharOut | templates/OnCampusResume/ResumePreview.tsx:131 | A character missing from a text is missing from each of its non-blank lines. |
| Text.RenderHtmlOfPlainText | templates/OnCampusResume/ResumePreview.tsx:37-43 | Text without tags or line breaks renders as itself. |
| Text.RenderHtmlOfBold | templates/OnCampusResume/ResumePreview.tsx:37-43 | `<b>t</b>` renders as `<strong>t</strong>`. |
| Text.UnderscoreWhitespace | pages/ResumeBuilderPage.tsx:363-365 | Every white-space character becomes `_`, every other character is kept, and the length is unchanged. |
| Resume.SetPersonal | components/ResumeForm.tsx:38-44 | The named personal field takes the value, and every other field keeps its value. |
| Resume.SetField | components/ResumeForm.tsx:80-88 | The named field takes the value when the entry's interface has it. Otherwise nothing changes. Other fields and the kind are kept. |
| Resume.WithSection | components/ResumeForm.tsx:90-95 | Only section k changes. Personal details, the summary and the other sections are kept. |
| Resume.BlankEntry | components/ResumeForm.tsx:130 | A new entry has the fresh id, "" in every other field, and the section's own kind. |
| Editing.UpdateById | components/ResumeForm.tsx:80-88 | The length is kept. Entries with other ids are unchanged, and entries with the id change in that field alone. |
| Editing.RemoveById | components/ResumeForm.tsx:97-102 | An entry survives exactly when its id differs from the removed one. |
| Editing.RemoveAbsent | components/ResumeForm.tsx:97-102 | Removing an id nobody carries changes nothing. |
| Editing.RemoveShrinksIff | components/ResumeForm.tsx:97-102 | The list shrinks if and only if some entry carries the id. |
| Editing.RemoveAppend | components/ResumeForm.tsx:97-102 | Removal distributes over concatenation, so survivors keep their order. |
| Editing.RemoveIdempotent | components/ResumeForm.tsx:97-102 | Removing twice is removing once. |
| Editing.AddThenRemove | components/ResumeForm.tsx:90-102 | Adding an entry under a fresh id and then removing that id restores the list. |
| Editing.UpdateKeepsIds | components/ResumeForm.tsx:80-88 | Editing a field other than the id keeps every id in place. |
| Editing.ChangePersonal | components/ResumeForm.tsx:38-44 | The typed value lands in the named personal field. Nothing else changes. |
| Editing.ChangeEntry | components/ResumeForm.tsx:80-88 | The entries of section k with that id keep their kind. Field f takes the typed value when the entry's kind has that field, and every other field is kept. Entries with other ids, other sections, personal details, the summary and the typing of the sections are kept. |
| Editing.AddItem | components/ResumeForm.tsx:90-95 | The entry is appended at the end of section k. Nothing else changes, and the resume stays well typed. |
| Editing.AddBlank | components/ResumeForm.tsx:130 | An "Add" button appends one entry of the section's kind under the fresh id, with "" in every other field it has. The earlier entries of the section, the other sections, personal details and the summary are kept. The resume stays well typed. |
| Editing.RemoveItem | components/ResumeForm.tsx:97-102 | Section k keeps exactly its entries with other ids. Nothing else changes. |
| Editing.AddThenRemoveItem | components/ResumeForm.tsx:90-102 | Add followed by remove of a fresh id gives back the whole resume. |
| Editing.EnhanceBegin | components/ResumeForm.tsx:46-55 | A blank description raises the alert and sends no request. Otherwise the spinner is set on that id and the request goes out. |
| Editing.EnhanceFinish | components/ResumeForm.tsx:56-78 | The spinner is always cleared. On error the alert is shown and the data is kept. On success the entries with that id receive the trimmed answer as their description. |
| Editing.EnhanceWritesTrimmed | components/ResumeForm.tsx:63-70 | After a successful answer, the targeted entry's description is the trimmed answer. |
| Editing.EnhanceRoundTrip | components/ResumeForm.tsx:46-78 | A non-blank description always ends with the spinner cleared, whatever the answer. |
| ModernForm.ChangeSummary | templates/ModernCreative/ResumeForm.tsx:106-108 | The summary takes the typed value. Personal details and all sections are kept. |
| ModernForm.ChangeSkills | templates/ModernCreative/ResumeForm.tsx:111-118 | The skills list becomes exactly one entry with id `skill-set-1`, an empty category and the typed text. Nothing else changes. |
| ModernForm.SkillStrings | templates/ModernCreative/ResumeForm.tsx:365 | There is one string per entry, and it is the entry's skills. |
| ModernForm.SkillsBoxRoundTrip | templates/ModernCreative/ResumeForm.tsx:111-118 | Typing into the skills box and reading the box back gives what was typed. |
| ModernForm.SkillsBoxStable | templates/ModernCreative/ResumeForm.tsx:365 | Once edited, writing back what the box shows changes nothing. |
| ModernForm.SkillsBoxOfTwoGroups | templates/ModernCreative/ResumeForm.tsx:365 | Two skill groups show joined by ", ", and the first edit collapses them into one entry. |
| ModernForm.SaveCrop | templates/ModernCreative/ResumeForm.tsx:202-240 | With no finished crop, or no slot being edited, nothing happens. Otherwise the image goes into the photo or the logo field, whichever the slot names, and nothing else changes. |
| CorporateForm.EditableActivities | templates/CorporateMinimal/ResumeForm.tsx:365-372 | The panel edits exactly the activities titled `EXTRACURRICULAR ACTIVITIES`, in document order. |
| CorporateForm.CanAddIffNoneEditable | templates/CorporateMinimal/ResumeForm.tsx:373-375 | The add button is shown if and only if the panel has nothing to edit. |
| CorporateForm.PressAddExtracurricular | templates/CorporateMinimal/ResumeForm.tsx:373-375 | Pressing the button appends an empty extracurricular activity. Afterwards the button is gone, and other sections are kept. |
| CorporateForm.AddExtracurricularOnce | templates/CorporateMinimal/ResumeForm.tsx:373-375 | However often it is pressed, at most one such activity is added. |
| CorporateForm.EditableAppend | templates/CorporateMinimal/ResumeForm.tsx:365-372 | The panel's filter distributes over concatenation. |
| Preview.WithContent | templates/OnCampusResume/ResumePreview.tsx:174-178 | The activities shown are exactly those whose trimmed description is non-empty. |
| Preview.WithContentMembers | templates/OnCampusResume/ResumePreview.tsx:174-178 | An activity is shown exactly when it is one of the activities and its trimmed description is non-empty. |
| Preview.WithContentAppend | templates/OnCampusResume/ResumePreview.tsx:174-178 | The filter distributes over concatenation, so the shown activities keep their document order. |
| Preview.AnyWithContentIff | templates/OnCampusResume/ResumePreview.tsx:174 | The section guard `some(trim() !== '')` holds exactly when some activity is shown. |
| Preview.Keep | templates/OnCampusResume/ResumePreview.tsx:67-191 | Conditional rendering keeps only shown items, each from its own position. |
| Preview.KeepIff | templates/OnCampusResume/ResumePreview.tsx:67-191 | With distinct titles, a title is present exactly when its guard holds. |
| Preview.KeepOrder | templates/OnCampusResume/ResumePreview.tsx:67-191 | Shown items keep their relative order. |
| Preview.ProjectBody | templates/OnCampusResume/ResumePreview.tsx:129-137 | A description with a line break becomes its non-blank lines in order, bullet k being line k with `<b>`/`</b>` made `<strong>`/`</strong>`. Otherwise it becomes a paragraph: the description with the same rewrites, empty exactly when the description is. No raw line break is left either way. |
| Preview.ProjectBodyOfPlainText | templates/OnCampusResume/ResumePreview.tsx:129-137 | A description without tags is shown as written: its non-blank lines when it has a line break, itself as a paragraph otherwise. |
| Preview.ProjectBodyDropsBlankLine | templates/OnCampusResume/ResumePreview.tsx:129-133 | `a\n\nb` gives the two bullets a and b. The blank line disappears. |
| Preview.WellShapedFeedsEngines | templates/OnCampusResume/ResumePreview.tsx:19-20 | Sections whose body is one list element measure into blocks the engines accept: none malformed and no list empty. |
| Preview.LostWhenSplit | components/PaginatedResume.tsx:84-86 | The number of body children the engine never reads is zero exactly when the section is not splittable or has at most one body child. |
| NittPreview.ActivitiesBody | components/ResumePreview.tsx:157-171 | The on-campus preview wraps all shown activities in one list. The generic preview puts one child per shown activity directly under the section. |
| NittPreview.Flags | templates/OnCampusResume/ResumePreview.tsx:67-191 | There are seven guards, one per section, in canonical order. |
| NittPreview.AllSectionsTitles | templates/OnCampusResume/ResumePreview.tsx:67-191 | Section k carries the k-th canonical title. |
| NittPreview.SectionShownIff | templates/OnCampusResume/ResumePreview.tsx:67-191 | Each of the seven sections is rendered exactly when its guard holds. |
| NittPreview.SectionsInOrder | components/ResumePreview.tsx:51-172 | Two shown sections appear in canonical order. |
| NittPreview.WrappedSectionsWellShaped | templates/OnCampusResume/ResumePreview.tsx:174-190 | In the on-campus preview, every section's body is a single list, so the engine drops nothing. |
| NittPreview.OnCampusPages | templates/OnCampusResume/ResumePreview.tsx:67-191 | The on-campus preview fed to its engine yields pages that show everything in order. With positive heights, a heading-only fragment never shares a page with other content. |
| NittPreview.GenericCorrectedPages | components/ResumePreview.tsx:51-172 | The generic preview with wrapped activities, fed to the corrected engine, shows everything in order. With positive heights, every page also keeps to its budget, with the same exceptions as `ComponentsPagination.CorrectedKeepsBudget`. |
| NittPreview.GenericActivitiesAsWritten | components/ResumePreview.tsx:157-171 | As written, with two or more shown activities, the extracurricular section has more body children than the engine reads. |
| NittPreview.GenericDropsSecondActivity | components/ResumePreview.tsx:157-171 | A concrete split of that section shows the first activity and never the second. |
| NittPreview.ActivityLines | templates/OnCampusResume/ResumePreview.tsx:182-183 | A string is a bullet of an activity exactly when it is a non-blank line of the activity's description. No bullet has a line break. |
| NittPreview.ActivityLinesAfterLine | templates/OnCampusResume/ResumePreview.tsx:182-183 | The bullets follow the order of the description: its first line, unless blank, then the bullets of the rest. |
| NittPreview.OneLineActivity | templates/OnCampusResume/ResumePreview.tsx:182-183 | A one-line description with content gives exactly that line. |
| ModernPreview.PaletteFor | templates/ModernCreative/ResumePreview.tsx:15-34 | The palette is always one of the six. A known theme colour gets its own palette. |
| ModernPreview.UnknownThemeIsSlate | templates/ModernCreative/ResumePreview.tsx:34 | An unknown colour falls back to the slate palette. |
| ModernPreview.PalettesDistinct | templates/ModernCreative/ResumePreview.tsx:15-22 | Distinct theme colours get distinct palettes. |
| ModernPreview.ContactRowsIff | templates/ModernCreative/ResumePreview.tsx:64-93 | A contact row (e-mail, phone, birth date, LinkedIn, GitHub) is shown exactly when its field is non-empty, and it shows that field. |
| ModernPreview.Tags | templates/ModernCreative/ResumePreview.tsx:121-128 | Every tag is a trimmed, non-empty piece between commas. |
| ModernPreview.TagsOfJoin | templates/ModernCreative/ResumePreview.tsx:121-128 | Tags joined with ", " come back as the same tags. |
| ModernPreview.TagsOfEmpty | templates/ModernCreative/ResumePreview.tsx:121-128 | An empty skills text gives no tags: its single empty piece is dropped. |
| ModernPreview.TagsOfTag | templates/ModernCreative/ResumePreview.tsx:121-128 | A text that is already a single tag gives exactly that tag. |
| ModernPreview.TagsNormalForm | templates/ModernCreative/ResumePreview.tsx:121-128 | Re-joining the tags of any text and splitting again gives the same tags. |
| ModernPreview.TagsAfterSkillsEdit | templates/ModernCreative/ResumeForm.tsx:111-118 | Typing tags joined by ", " into the skills box shows exactly those tags in the sidebar. |
| ModernPreview.SkillTags | templates/ModernCreative/ResumePreview.tsx:117-128 | Every sidebar tag is trimmed and non-empty. |
| ModernPreview.SidebarShownIff | templates/ModernCreative/ResumePreview.tsx:98-135 | Each sidebar section is shown exactly when its guard holds. |
| ModernPreview.MainShownIff | templates/ModernCreative/ResumePreview.tsx:159-239 | Each main-column section is shown exactly when its guard holds. |
| ModernPreview.ActivityCards | templates/ModernCreative/ResumePreview.tsx:239-250 | Card k is the title and the `renderHTML` description of the k-th activity with content. Its body is non-empty and has no raw line break. |
| ModernPreview.ActivityCardsOfShown | templates/ModernCreative/ResumePreview.tsx:239-250 | Card k is built from the k-th activity whose description is not blank. |
| CorporatePreview.ContactLine | templates/CorporateMinimal/ResumePreview.tsx:59-63 | The bar appears exactly when both e-mail and phone are non-empty. Every text piece is one of the two fields and non-empty. |
| CorporatePreview.BarBetweenFields | templates/CorporateMinimal/ResumePreview.tsx:59-63 | The bar never opens or closes the line. The line is empty exactly when both fields are. |
| CorporatePreview.CourseRowsRoundTrip | templates/CorporateMinimal/ResumePreview.tsx:124-126 | There is one row per line break plus one, and the rows joined by line breaks give the subjects back. |
| CorporatePreview.CourseRowsOfLines | templates/CorporateMinimal/ResumePreview.tsx:124-126 | Rows typed one per line come back as typed, empty ones included. |
| CorporatePreview.ExtraLines | templates/CorporateMinimal/ResumePreview.tsx:253-255 | Bullet k is the k-th non-blank line of the description with `<b>`/`</b>` made `<strong>`/`</strong>`. No `<br />` is inserted, and no bullet has a line break. |
| CorporatePreview.ExtraLinesOfPlainText | templates/CorporateMinimal/ResumePreview.tsx:253-255 | A description without tags gives its non-blank lines as they are. |
| CorporatePreview.ExtraActivities | templates/CorporateMinimal/ResumePreview.tsx:245-249 | Every activity with a block has a title that includes "EXTRA" and a non-empty description, and there are no more of them than activities. |
| CorporatePreview.ExtraActivitiesMembers | templates/CorporateMinimal/ResumePreview.tsx:245-249 | An activity gets a block exactly when it is one of the activities, its title includes "EXTRA" and its description is not empty. |
| CorporatePreview.ExtraSections | templates/CorporateMinimal/ResumePreview.tsx:244-270 | Block k holds the bullets of the k-th activity with a block, and there are no other blocks. No bullet has a line break. |
| CorporatePreview.ExtraSectionsOfActivities | templates/CorporateMinimal/ResumePreview.tsx:244-270 | Block k holds the bullet lines of the k-th activity that gets a block. |
| CorporatePreview.ExtraSectionsAppend | templates/CorporateMinimal/ResumePreview.tsx:244-270 | The blocks follow document order: they distribute over concatenation. |
| CorporatePreview.EditorActivitySection | templates/CorporateMinimal/ResumePreview.tsx:248-249 | An activity created by the form's button and filled in gets its own block. A description of only white space gets a block with a heading and no bullet. |
| CorporatePreview.RightColumn | templates/CorporateMinimal/ResumePreview.tsx:157-270 | The right column holds the shown list sections plus one extracurricular block per qualifying activity. |
| CorporatePreview.LeftShownIff | templates/CorporateMinimal/ResumePreview.tsx:74-135 | Education, links, coursework and skills are each shown exactly when non-empty. |
| CorporatePreview.RightShownIff | templates/CorporateMinimal/ResumePreview.tsx:157-241 | Internships, projects, achievements and positions are each shown exactly when non-empty. |
| Builder.InitialData | pages/ResumeBuilderPage.tsx:47-54 | An uploaded resume is opened as is. Otherwise the modern and corporate templates open their own defaults, and anything else opens the on-campus default. |
| Builder.ShownTemplate | pages/ResumeBuilderPage.tsx:412-433 | The on-campus and modern-creative forms and previews are shown for their own names. The corporate-minimal pair is shown for its name and for any value that names no template. |
| Builder.FreshBuilderCoherent | pages/ResumeBuilderPage.tsx:47-54 | A fresh builder shows the form of the template whose default it opened exactly when the template is named, or when the on-campus and corporate defaults coincide. |
| Builder.ValidateImages | pages/ResumeBuilderPage.tsx:102-124 | The full decision table: on-campus asks for the photo and logo, photo, or logo depending on which URLs are placeholders. Modern-creative asks only for the photo. Every other template is never blocked. |
| Builder.ValidationReadsOnlyImages | pages/ResumeBuilderPage.tsx:104-106 | Editing any personal field other than photo or logo does not change the verdict. |
| Builder.FreshResumeAsksForImages | data/initialData.ts:6-160 | The shipped defaults block on-campus for both images and modern-creative for the photo. Corporate-minimal is never blocked. |
| Builder.SetNittLogo | pages/ResumeBuilderPage.tsx:88-95 | The logo becomes `/images/NITTLogo.png`, and everything else is kept. |
| Builder.NittLogoSettlesLogo | pages/ResumeBuilderPage.tsx:88-124 | After the shortcut, on-campus validation never asks for the logo. |
| Builder.FileName | pages/ResumeBuilderPage.tsx:363-365 | The file name is the name with each white-space character made `_`, followed by `_Resume.pdf`. It contains no white space. |
| Builder.FileNameOfPlainName | pages/ResumeBuilderPage.tsx:363-365 | A name without white space is kept verbatim. |
| Builder.Download | pages/ResumeBuilderPage.tsx:137-156 | Blocked exactly when validation fails, the container is missing, or there are no pages, each with its own message. Saved under FileName exactly when not blocked and the export succeeds. A failure shows the error's message, or "An error occurred while generating the PDF." when that is empty. |
| Builder.BlockedBeforeExport | pages/ResumeBuilderPage.tsx:137-156 | A blocked download never depends on what the export would do. |
| Builder.ApplyZoom | pages/ResumeBuilderPage.tsx:380-388 | A typed number is clamped to 20..500 %. A value that does not parse leaves the zoom unchanged. |
| Builder.ApplyZoomIdempotent | pages/ResumeBuilderPage.tsx:380-388 | Applying a clamped value again changes nothing. |
| Builder.ZoomAfter | pages/ResumeBuilderPage.tsx:462-474 | "-" steps down by 10 but not below 20, "+" steps up by 10, and "Reset" gives 100. |
| Builder.ZoomNeverBelowFloor | pages/ResumeBuilderPage.tsx:380-474 | No sequence of zoom actions goes below 20 %. |
| Builder.ZoomInPassesBoxBound | pages/ResumeBuilderPage.tsx:474 | "+" has no ceiling: from 500 % it reaches 510 %, which typing the same value would clamp back to 500 %. |
| Upload.FullTextAppend | pages/UploadResumePage.tsx:56-62 | Each page adds its items joined by spaces, followed by a line break. |
| Upload.AssembleText | pages/UploadResumePage.tsx:56-62 | The loop builds exactly the full text of all pages. |
| Upload.FullTextAsJoin | pages/UploadResumePage.tsx:56-62 | The full text is the page texts joined by line breaks, with a trailing break. |
| Upload.LinesOfFullText | pages/UploadResumePage.tsx:56-62 | When no item has a line break, the lines of the full text are the page texts, followed by one empty line. |
| Upload.StripFencesOfPlain | pages/UploadResumePage.tsx:85 | An answer without backticks is only trimmed. |
| Upload.StripFencesOfFenced | pages/UploadResumePage.tsx:85 | A fenced JSON answer gives back exactly its body. |
| Upload.MergePersonal | pages/UploadResumePage.tsx:93-97 | Every parsed personal field overrides the default. Photo and logo override it only when they are present and non-empty. |
| Upload.Merge | pages/UploadResumePage.tsx:89-98 | The summary and each section come from the parsed answer when present and from the default otherwise. |
| Upload.MergeOfNothing | pages/UploadResumePage.tsx:89-98 | An empty answer gives back the default resume. |
| Upload.MergeOfComplete | pages/UploadResumePage.tsx:89-98 | A complete answer with non-empty images gives back exactly the resume it describes. |
| Upload.UploadWithoutPhotoAsksForIt | pages/UploadResumePage.tsx:95 | When the answer carries no photo, the placeholder stays and the builder will ask for a photo. |
| Upload.HandleFile | pages/UploadResumePage.tsx:44-108 | A non-PDF raises the PDF alert. A resume is produced exactly when extraction, the answer and parsing all succeed, and then it is the merge. Every other failure raises the failure alert. Processing always ends. |
| Upload.NotPdfNeverProcessed | pages/UploadResumePage.tsx:45-48 | For a non-PDF, the outcome does not depend on any later step. |
| App.Step | App.tsx:15-67 | Each page's buttons move to the pages App.tsx wires. An upload opens the builder on-campus with that resume. Whatever value the picker hands over is stored as the template and opens the builder. "Create new" forgets any uploaded resume. |
| App.RunConsistent | App.tsx:26-57 | From any consistent state, and so from the login page, an uploaded resume is only shown on-campus, and the template picker is reached only without one. |
| App.BuilderOpensWith | App.tsx:62-67 | Whenever the builder opens, it opens the uploaded resume on-campus or the chosen template's default. |
| App.IntoBuilder | App.tsx:39-57 | The builder is reached only by an upload or a template choice. |
| App.CreateThenSelect | App.tsx:26-57 | "Create new" then any value from the picker opens the builder with that value as the template and no uploaded resume. |
| App.AsWrittenPickerMismatch | pages/TemplateSelectionPage.tsx:39-41 | As written, the picker hands over a value naming no template. The builder then opens the on-campus default in the corporate-minimal form and preview, and no image check ever blocks the download. |
| App.CorrectedPickerCoherent | App.tsx:50-60 | With `on-campus` handed over, the builder opens the on-campus default in the on-campus form and preview, and the download is allowed exactly when neither image is a placeholder. |
| App.UploadPath | App.tsx:16-45 | Get started, upload, complete opens the builder on-campus with the uploaded resume. |

## Left out

- DOM measurement, `getComputedStyle`, iframes, fonts and the timers that schedule a
  recalculation: the engines take the measured heights as input, as integers.
- HTML string assembly in the engines: a page is a list of fragments (whole block, list
  slice with or without heading), not markup.
- PDF export (html2canvas, jsPDF): `Builder.Download` receives whether a container exists,
  the page count and the export's outcome as parameters.
- The Gemini calls, pdf.js and `JSON.parse`: their results are parameters of
  `Editing.EnhanceFinish` and `Upload.HandleFile`. A parsed value of the wrong JSON type is
  not modelled: a parsed field is present with a string or list value, or absent.
- Image upload, `FileReader` and the crop geometry: `ModernForm.SaveCrop` receives the
  cropped image as a string.
- The 6-second timer that hides a download error, the colour picker, the logo modal's
  open/close flag, and the pages that only render (login, FAQ, start option).
- Text.IsWhitespace: the white-space set is the eight common characters (space, tab,
  line feed, carriage return, vertical tab, form feed, no-break space, BOM). JavaScript's
  `\s` and `trim` also accept the other Unicode space separators.
- ModernPreview.PaletteFor: JavaScript's object lookup would also find prototype keys such
  as `constructor`. The model looks up only the six colours.
- ModernPreview.SkillTags: an entry of another kind contributes "" (no tag). The source
  would read an undefined field there, which its types exclude.
- Builder.ApplyZoom: zoom is an integer percent, not a float factor. `parseFloat`'s
  acceptance of a number prefix is folded into the `Option<int>` parameter.
- OnCampusPagination.PaginateKeepsOrder: assumes every splittable list is non-empty. An
  empty one loses its heading, shown by `EmptyListLosesHeading`.
- ComponentsPagination.PaginateKeepsOrder: assumes no malformed block. The generic engine
  skips a malformed block's items, and `MalformedSection` shows what it does instead.
- OnCampusPagination.CorrectedKeepsBudget: assumes positive heights, no malformed section
  and no splittable section with an empty list. The engine appends a malformed section
  without a height check (`PaginationScenarios.OnCampusMalformedOverfills`), and headings
  of empty lists are never shown, which can leave only the fallback page of all of
  `<main>` (`PaginationScenarios.OnCampusEmptyListsOverfill`). Even with these
  assumptions, a page that holds a single atom may still exceed its budget, because no
  page break could divide it.
- ComponentsPagination.CorrectedKeepsBudget: assumes positive heights and no malformed
  section. The engine skips a malformed section that does not fit; when it skips
  everything, the fallback page holds all of `<main>`
  (`PaginationScenarios.ComponentsMalformedOverfill`). Even with these assumptions, a
  page may still exceed its budget when it holds a single atom, or a heading with its
  list's first item and nothing else, because no page break could divide either.
- NittPreview.GenericCorrectedPages: the budget half assumes positive heights.
- NittPreview.OnCampusPages: the no-orphan half assumes positive heights.
- OnCampusPagination.Budgets, ComponentsPagination.Budgets: only the difference between
  the two budgets is stated. Each budget's value is the page height less the paddings,
  the footer and (on campus) the 5 px cushion, as the functions compute it.
- The education grade details of the modern preview and the purely visual parts of every
  preview (classes, icons, colours other than the palette choice).

## Findings

| source | as written | input that shows it | evidently intended | confidence | as-written member | corrected member |
|---|---|---|---|---|---|---|
| templates/OnCampusResume/PaginatedResume.tsx:85-93 | A non-splittable section that does not fit sets `isFirstPage = false` even when nothing has been flushed, so page one (which carries the header) is then filled against the larger continuation budget. | first budget 900, continuation 1000, sections of 950 px and 40 px: one page of 990 px | clear `isFirstPage` only when a page was actually pushed, so page one keeps the first-page budget | not executed | OnCampusPagination.AsWrittenFirstPageOverflows | OnCampusPagination.CorrectedKeepsBudget |
| components/PaginatedResume.tsx:74-82 | The same slip in the generic engine. | the same input: one page of 990 px against 900 | as above | not executed | ComponentsPagination.AsWrittenFirstPageOverflows | ComponentsPagination.CorrectedKeepsBudget |
| components/PaginatedResume.tsx:107-123 | The split guard `currentHeight > sectionHeaderHeight` also applies on a continuation page, where the heading is absent. An item that does not fit is then appended whenever the page so far is no taller than the heading. | budgets 950/1000, one list with a 50 px heading and items 900, 40, 990: the second page holds 1030 px | split whenever the page already holds something, which is what a continuation page holds | not executed | ComponentsPagination.AsWrittenContinuationOverflows | ComponentsPagination.CorrectedContinuationSplits |
| pages/TemplateSelectionPage.tsx:39-41 | The active card passes `onSelect` itself as the click handler, so the app stores the click event as the template. The modern and corporate cards (lines 60-86) are "Coming Soon" and have no handler. | a click on the on-campus card: the builder opens the on-campus default in the corporate-minimal form and preview, and downloads without the image check | hand `"on-campus"` to `onSelect` | not executed | App.AsWrittenPickerMismatch | App.CorrectedPickerCoherent |
| components/ResumePreview.tsx:157-171 | The extracurricular section puts one child per activity directly under the section. The engine reads only `children[0]` (heading) and `children[1]` (list), so when the section is split, activities after the first are never placed on any page. | two activities with content, the section too tall for the page | wrap the activities in one list element, as the on-campus preview does | not executed | NittPreview.GenericDropsSecondActivity | NittPreview.GenericCorrectedPages |

=== FILE: app.dfy ===
/** The app shell (App.tsx): which page is shown, the resume handed to the builder, and
    the template it is opened with. Each page hands back the events its buttons raise. */
module App {
  import opened Wrappers
  import opened Resume
  import Builder

  datatype View = Login | StartOption | Templates | UploadView | BuilderView | Faq

  datatype AppState = AppState(view: View, builderData: Option<ResumeData>, template: Builder.Template)

  /** The page shown first: the login page, no resume, the on-campus template. */
  const Init: AppState := AppState(Login, None, Builder.OnCampus)

  /** What the shown page can report. `Select` carries whatever the template picker hands
      over, which need not name a template. */
  datatype Event =
    | GetStarted | Help | FaqBack
    | CreateNew | StartUpload | StartBack
    | UploadComplete(data: ResumeData) | UploadBack
    | Select(t: Builder.Template) | TemplatesBack
    | BuilderBack

  /** Whether the page shown in view v has a control raising e. App checks the views
      one after another and renders the builder when none matches, which leaves only the
      builder view. */
  predicate Offers(v: View, e: Event) {
    match v
    case Login => e == GetStarted || e == Help
    case Faq => e == FaqBack
    case StartOption => e == CreateNew || e == StartUpload || e == StartBack
    case UploadView => e.UploadComplete? || e == UploadBack
    case Templates => e.Select? || e == TemplatesBack
    case BuilderView => e == BuilderBack
  }

  /** One event. An event the shown page does not offer cannot happen and changes nothing. */
  function Step(s: AppState, e: Event): (r: AppState)
    ensures !Offers(s.view, e) ==> r == s
    ensures Offers(s.view, e) && e == GetStarted ==> r == s.(view := StartOption)
    ensures Offers(s.view, e) && e == Help ==> r == s.(view := Faq)
    ensures Offers(s.view, e) && (e == FaqBack || e == StartBack) ==> r == s.(view := Login)
    ensures Offers(s.view, e) && e == CreateNew ==> r == AppState(Templates, None, s.template)
    ensures Offers(s.view, e) && e == StartUpload ==> r == s.(view := UploadView)
    ensures Offers(s.view, e) && e.UploadComplete? ==> r == AppState(BuilderView, Some(e.data), Builder.OnCampus)
    ensures Offers(s.view, e) && (e == UploadBack || e == TemplatesBack || e == BuilderBack) ==> r == s.(view := StartOption)
    ensures Offers(s.view, e) && e.Select? ==> r == s.(view := BuilderView, template := e.t)
  {
    if !Offers(s.view, e) then s
    else
      match e
      case GetStarted => s.(view := StartOption)
      case Help => s.(view := Faq)
      case FaqBack => s.(view := Login)
      case CreateNew => s.(view := Templates, builderData := None)
      case StartUpload => s.(view := UploadView)
      case StartBack => s.(view := Login)
      case UploadComplete(d) => s.(view := BuilderView, builderData := Some(d), template := Builder.OnCampus)
      case UploadBack => s.(view := StartOption)
      case Select(t) => s.(view := BuilderView, template := t)
      case TemplatesBack => s.(view := StartOption)
      case BuilderBack => s.(view := StartOption)
  }

  function Run(s: AppState, es: seq<Event>): AppState
    decreases |es|
  {
    if es == [] then s else Run(Step(s, es[0]), es[1..])
  }

  /** What the app keeps true: an uploaded resume is only ever opened with the on-campus
      template, and the template picker is only reached with no uploaded resume, so a
      chosen template always starts from its own default. */
  predicate Consistent(s: AppState) {
    (s.builderData.Some? ==> s.template == Builder.OnCampus)
    && (s.view == Templates ==> s.builderData.None?)
  }

  lemma StepConsistent(s: AppState, e: Event)
    requires Consistent(s)
    ensures Consistent(Step(s, e))
  {
  }

  /** Every state the app reaches from its first page is consistent. */
  lemma {:induction false} RunConsistent(s: AppState, es: seq<Event>)
    requires Consistent(s)
    ensures Consistent(Run(s, es))
    decreases |es|
  {
    if es != [] {
      StepConsistent(s, es[0]);
      RunConsistent(Step(s, es[0]), es[1..]);
    }
  }

  /** Whenever the builder is shown, it opens either an uploaded resume in the on-campus
      template or the default resume of the template in force. */
  lemma BuilderOpensWith(es: seq<Event>, defs: Builder.Defaults)
    ensures var s := Run(Init, es);
      var d := Builder.InitialData(s.builderData, s.template, defs);
      (s.builderData.Some? ==> d == s.builderData.value && s.template == Builder.OnCampus)
      && (s.builderData.None? ==> d == (if s.template == Builder.ModernCreative then defs.modernCreative
                                        else if s.template == Builder.CorporateMinimal then defs.corporateMinimal
                                        else defs.onCampus))
  {
    RunConsistent(Init, es);
  }

  /** The view changes to the builder only through an upload or a template choice. */
  lemma IntoBuilder(s: AppState, e: Event)
    requires s.view != BuilderView && Step(s, e).view == BuilderView
    ensures e.UploadComplete? || e.Select?
  {
  }

  /** Creating a new resume and picking a template opens the builder on that template with
      no uploaded resume, whatever happened before. */
  lemma CreateThenSelect(s: AppState, t: Builder.Template)
    requires s.view == StartOption
    ensures Run(s, [CreateNew, Select(t)]) == AppState(BuilderView, None, t)
  {
    var s1 := Step(s, CreateNew);
    assert s1 == AppState(Templates, None, s.template);
    assert [CreateNew, Select(t)][1..] == [Select(t)];
    assert [Select(t)][1..] == [];
    assert Run(s1, [Select(t)]) == Run(Step(s1, Select(t)), []);
  }

  // ---------------------------------------------------------------- the template picker

  /** What the template picker hands over. Only the on-campus card is clickable (the other
      two are marked "Coming Soon"), and it passes its click event to the handler in
      place of a template name, so the app stores a value naming no template. */
  const PickedAsWritten: Builder.Template := Builder.OtherValue

  /** What the clickable on-campus card evidently means to hand over. */
  const PickedIntended: Builder.Template := Builder.OnCampus

  /** As written, creating a resume through the picker opens the on-campus default in the
      corporate-minimal form and preview, and no image check ever blocks its download,
      whatever the images are. */
  lemma AsWrittenPickerMismatch(s: AppState, defs: Builder.Defaults, p: PersonalDetails)
    requires s.view == StartOption
    ensures var r := Run(s, [CreateNew, Select(PickedAsWritten)]);
      r.view == BuilderView
      && Builder.InitialData(r.builderData, r.template, defs) == defs.onCampus
      && Builder.ShownTemplate(r.template) == Builder.CorporateMinimal
      && Builder.ValidateImages(r.template, p) == None
  {
    CreateThenSelect(s, PickedAsWritten);
  }

  /** With the intended value the builder opens the on-campus default in the on-campus
      form and preview, and the download waits for both images. */
  lemma CorrectedPickerCoherent(s: AppState, defs: Builder.Defaults, p: PersonalDetails)
    requires s.view == StartOption
    ensures var r := Run(s, [CreateNew, Select(PickedIntended)]);
      r.view == BuilderView
      && Builder.InitialData(r.builderData, r.template, defs) == defs.onCampus
      && Builder.ShownTemplate(r.template) == Builder.OnCampus
      && (Builder.ValidateImages(r.template, p) == None <==>
        !Builder.IsPlaceholder(p.photo) && !Builder.IsPlaceholder(p.logo))
  {
    CreateThenSelect(s, PickedIntended);
  }

  /** The path through the upload page: get started, upload, complete. */
  lemma UploadPath(d: ResumeData)
    ensures Run(Init, [GetStarted, StartUpload, UploadComplete(d)]) == AppState(BuilderView, Some(d), Builder.OnCampus)
  {
    var es := [GetStarted, StartUpload, UploadComplete(d)];
    assert es[1..] == [StartUpload, UploadComplete(d)];
    assert es[1..][1..] == [UploadComplete(d)];
    assert es[1..][1..][1..] == [];
    var s1 := Step(Init, GetStarted);
    var s2 := Step(s1, StartUpload);
    assert Run(s2, es[1..][1..]) == Run(Step(s2, UploadComplete(d)), []);
    assert Run(s1, es[1..]) == Run(s2, es[1..][1..]);
  }
}

=== FILE: builder.dfy ===
/** The decisions of the builder page (pages/ResumeBuilderPage.tsx): which resume it opens
    with, whether a download may start, the name of the saved file, the zoom level, and
    the institute-logo shortcut. */
module Builder {
  import opened Wrappers
  import opened Resume
  import Text
  import Editing

  /** The template the builder is opened with. The page compares it against the three
      names; the app shell can hand it any other value (see App), which matches none. */
  datatype Template = OnCampus | ModernCreative | CorporateMinimal | OtherValue

  /** The three default resumes of data/initialData.ts. */
  datatype Defaults = Defaults(onCampus: ResumeData, modernCreative: ResumeData, corporateMinimal: ResumeData)

  /** The image fields of the defaults as data/initialData.ts ships them: on-campus has a
      placeholder photo and logo, modern-creative a placeholder photo and no logo, and
      corporate-minimal neither. */
  predicate DefaultsAsShipped(defs: Defaults) {
    defs.onCampus.personal.photo == OnCampusPhotoUrl
    && defs.onCampus.personal.logo == OnCampusLogoUrl
    && defs.modernCreative.personal.photo == ModernPhotoUrl
    && defs.modernCreative.personal.logo == ""
    && defs.corporateMinimal.personal.photo == ""
    && defs.corporateMinimal.personal.logo == ""
  }

  /** The resume the builder starts from: the one handed in, else the default of the
      chosen template (on-campus for any value that names no other template). */
  function InitialData(initial: Option<ResumeData>, t: Template, defs: Defaults): (r: ResumeData)
    ensures initial.Some? ==> r == initial.value
    ensures initial.None? && t == ModernCreative ==> r == defs.modernCreative
    ensures initial.None? && t == CorporateMinimal ==> r == defs.corporateMinimal
    ensures initial.None? && (t == OnCampus || t == OtherValue) ==> r == defs.onCampus
  {
    match initial
    case Some(d) => d
    case None =>
      if t == ModernCreative then defs.modernCreative
      else if t == CorporateMinimal then defs.corporateMinimal
      else defs.onCampus
  }

  /** The template whose form and preview the page renders. The page tests for on-campus,
      then for modern-creative, and renders the corporate-minimal pair for anything else. */
  function ShownTemplate(t: Template): (r: Template)
    ensures r != OtherValue
    ensures r == t <==> t != OtherValue
    ensures r == CorporateMinimal <==> t == CorporateMinimal || t == OtherValue
  {
    match t
    case OnCampus => OnCampus
    case ModernCreative => ModernCreative
    case CorporateMinimal | OtherValue => CorporateMinimal
  }

  /** The default resume that belongs to a named template. */
  function DefaultOf(t: Template, defs: Defaults): ResumeData
    requires t != OtherValue
  {
    match t
    case OnCampus => defs.onCampus
    case ModernCreative => defs.modernCreative
    case CorporateMinimal => defs.corporateMinimal
  }

  /** A fresh builder shows the form and preview of the very template whose default it
      opened exactly when the template is named, or when the on-campus and corporate
      defaults happen to coincide. */
  lemma FreshBuilderCoherent(t: Template, defs: Defaults)
    ensures InitialData(None, t, defs) == DefaultOf(ShownTemplate(t), defs) <==>
      t != OtherValue || defs.onCampus == defs.corporateMinimal
  {
  }

  // ---------------------------------------------------------------- image checks

  const PlaceholderHost: string := "via.placeholder.com"

  /** The stock pictures of the defaults: https://via.placeholder.com/130x140.png?text=,
      https://via.placeholder.com/144x144.png?text= and https://via.placeholder.com/150. */
  const OnCampusPhotoUrl: string := "https://" + PlaceholderHost + "/130x140.png?text="
  const OnCampusLogoUrl: string := "https://" + PlaceholderHost + "/144x144.png?text="
  const ModernPhotoUrl: string := "https://" + PlaceholderHost + "/150"

  /** An image still showing the stock picture. */
  predicate IsPlaceholder(url: string) {
    Text.Contains(url, PlaceholderHost)
  }

  const PhotoAndLogoMissing: string := "Please upload a profile photo and the institute logo before downloading."
  const PhotoMissing: string := "Please upload a profile photo before downloading."
  const LogoMissing: string := "Please upload the institute logo before downloading."

  /** The message that stops a download, or None when the images are in order. The
      on-campus template needs a photo and a logo, modern-creative a photo, any other
      template nothing. */
  function ValidateImages(t: Template, p: PersonalDetails): (r: Option<string>)
    ensures r.None? <==>
      (t == OnCampus ==> !IsPlaceholder(p.photo) && !IsPlaceholder(p.logo))
      && (t == ModernCreative ==> !IsPlaceholder(p.photo))
    ensures r == Some(PhotoAndLogoMissing) <==> t == OnCampus && IsPlaceholder(p.photo) && IsPlaceholder(p.logo)
    ensures r == Some(PhotoMissing) <==>
      (t == OnCampus && IsPlaceholder(p.photo) && !IsPlaceholder(p.logo))
      || (t == ModernCreative && IsPlaceholder(p.photo))
    ensures r == Some(LogoMissing) <==> t == OnCampus && !IsPlaceholder(p.photo) && IsPlaceholder(p.logo)
  {
    var photo := IsPlaceholder(p.photo);
    var logo := IsPlaceholder(p.logo);
    if t == OnCampus then
      if photo && logo then Some(PhotoAndLogoMissing)
      else if photo then Some(PhotoMissing)
      else if logo then Some(LogoMissing)
      else None
    else if t == ModernCreative then
      if photo then Some(PhotoMissing) else None
    else None
  }

  /** The check reads the photo and the logo only: editing any other header field leaves
      its verdict as it was. */
  lemma ValidationReadsOnlyImages(t: Template, p: PersonalDetails, f: PersonalField, v: string)
    requires f != PhotoField && f != LogoField
    ensures ValidateImages(t, SetPersonal(p, f, v)) == ValidateImages(t, p)
  {
    assert GetPersonal(SetPersonal(p, f, v), PhotoField) == p.photo;
    assert GetPersonal(SetPersonal(p, f, v), LogoField) == p.logo;
  }

  /** A text lacking the first character of a pattern does not contain it. */
  lemma NotContainsWithoutFirst(s: string, pat: string)
    requires |pat| > 0 && pat[0] !in s
    ensures !Text.Contains(s, pat)
  {
  }

  lemma ShippedImagesArePlaceholders(url: string)
    requires url == OnCampusPhotoUrl || url == OnCampusLogoUrl || url == ModernPhotoUrl
    ensures IsPlaceholder(url)
  {
    if url == OnCampusPhotoUrl {
      Text.ContainsInfix("https://", PlaceholderHost, "/130x140.png?text=");
    } else if url == OnCampusLogoUrl {
      Text.ContainsInfix("https://", PlaceholderHost, "/144x144.png?text=");
    } else {
      Text.ContainsInfix("https://", PlaceholderHost, "/150");
    }
  }

  lemma EmptyIsNoPlaceholder()
    ensures !IsPlaceholder("")
  {
  }

  /** A resume started from a template's default cannot be downloaded before its images
      are replaced: on-campus asks for both, modern-creative for the photo; the
      corporate-minimal default passes. */
  lemma FreshResumeAsksForImages(defs: Defaults)
    requires DefaultsAsShipped(defs)
    ensures ValidateImages(OnCampus, InitialData(None, OnCampus, defs).personal) == Some(PhotoAndLogoMissing)
    ensures ValidateImages(ModernCreative, InitialData(None, ModernCreative, defs).personal) == Some(PhotoMissing)
    ensures ValidateImages(CorporateMinimal, InitialData(None, CorporateMinimal, defs).personal) == None
  {
    ShippedImagesArePlaceholders(defs.onCampus.personal.photo);
    ShippedImagesArePlaceholders(defs.onCampus.personal.logo);
    ShippedImagesArePlaceholders(defs.modernCreative.personal.photo);
    EmptyIsNoPlaceholder();
  }

  // ---------------------------------------------------------------- institute logo

  const NittLogoUrl: string := "/images/NITTLogo.png"

  /** The institute-logo shortcut: the logo becomes the bundled picture and nothing else
      changes. */
  function SetNittLogo(d: ResumeData): (r: ResumeData)
    ensures r.personal.logo == NittLogoUrl
    ensures forall g :: g != LogoField ==> GetPersonal(r.personal, g) == GetPersonal(d.personal, g)
    ensures r.summary == d.summary && forall k :: Section(r, k) == Section(d, k)
  {
    Editing.ChangePersonal(d, LogoField, NittLogoUrl)
  }

  /** After the shortcut the logo check passes: an on-campus download waits at most for
      the photo. */
  lemma NittLogoSettlesLogo(d: ResumeData)
    ensures ValidateImages(OnCampus, SetNittLogo(d).personal)
         == (if IsPlaceholder(d.personal.photo) then Some(PhotoMissing) else None)
  {
    NotContainsWithoutFirst(NittLogoUrl, PlaceholderHost);
    assert GetPersonal(SetNittLogo(d).personal, PhotoField) == d.personal.photo;
  }

  // ---------------------------------------------------------------- download

  /** The name of the saved file: the name with each white-space character replaced by
      '_', then "_Resume.pdf". */
  function FileName(name: string): (r: string)
    ensures |r| == |name| + |FileSuffix|
    ensures r[|name|..] == FileSuffix
    ensures forall k :: 0 <= k < |r| ==> !Text.IsWhitespace(r[k])
    ensures forall k :: 0 <= k < |name| && !Text.IsWhitespace(name[k]) ==> r[k] == name[k]
    ensures forall k :: 0 <= k < |name| && Text.IsWhitespace(name[k]) ==> r[k] == '_'
  {
    var r := Text.UnderscoreWhitespace(name) + FileSuffix;
    assert forall k :: |name| <= k < |r| ==> r[k] == FileSuffix[k - |name|];
    r
  }

  const FileSuffix: string := "_Resume.pdf"

  /** A name without white space is kept as it is. */
  lemma FileNameOfPlainName(name: string)
    requires forall k :: 0 <= k < |name| ==> !Text.IsWhitespace(name[k])
    ensures FileName(name) == name + FileSuffix
  {
    assert FileName(name)[..|name|] == name;
    assert FileName(name) == FileName(name)[..|name|] + FileName(name)[|name|..];
  }

  /** Two names that differ only in which white-space character stands at a place give
      the same file name. */
  lemma FileNameIgnoresWhitespaceKind(a: string, b: string)
    requires |a| == |b|
    requires forall k :: 0 <= k < |a| ==> (Text.IsWhitespace(a[k]) <==> Text.IsWhitespace(b[k]))
    requires forall k :: 0 <= k < |a| && !Text.IsWhitespace(a[k]) ==> a[k] == b[k]
    ensures FileName(a) == FileName(b)
  {
    assert Text.UnderscoreWhitespace(a) == Text.UnderscoreWhitespace(b);
  }

  const NoContainerMessage: string := "Could not generate PDF. Please try again."
  const NoPagesMessage: string := "There is no content to download as a PDF."
  const ExportFailedMessage: string := "An error occurred while generating the PDF."

  /** What the PDF library did with the pages: saved them, or threw with a message
      (possibly empty). */
  datatype ExportOutcome = Exported | Threw(message: string)

  /** A download ends in a message without any PDF work, in a saved file, or in the
      message of a failed export. */
  datatype DownloadResult = Blocked(message: string) | Saved(fileName: string) | Failed(message: string)

  /** `handleDownloadPdf`: `pages` is the number of page elements in the rendered resume,
      None when the resume element is missing. */
  function Download(t: Template, d: ResumeData, pages: Option<nat>, outcome: ExportOutcome): (r: DownloadResult)
    ensures r.Blocked? <==> ValidateImages(t, d.personal).Some? || pages.None? || pages == Some(0)
    ensures ValidateImages(t, d.personal).Some? ==> r == Blocked(ValidateImages(t, d.personal).value)
    ensures ValidateImages(t, d.personal).None? && pages.None? ==> r == Blocked(NoContainerMessage)
    ensures ValidateImages(t, d.personal).None? && pages == Some(0) ==> r == Blocked(NoPagesMessage)
    ensures r.Saved? <==> !r.Blocked? && outcome.Exported?
    ensures r.Saved? ==> r.fileName == FileName(d.personal.name)
    ensures r.Failed? ==> outcome.Threw? && r.message != ""
    ensures r.Failed? ==> r.message == (if outcome.message != "" then outcome.message else ExportFailedMessage)
  {
    match ValidateImages(t, d.personal)
    case Some(m) => Blocked(m)
    case None =>
      if pages.None? then Blocked(NoContainerMessage)
      else if pages.value == 0 then Blocked(NoPagesMessage)
      else
        match outcome
        case Exported => Saved(FileName(d.personal.name))
        case Threw(m) => Failed(if m != "" then m else ExportFailedMessage)
  }

  /** A stopped download never reaches the PDF library: its outcome does not depend on
      what an export would have done. */
  lemma BlockedBeforeExport(t: Template, d: ResumeData, pages: Option<nat>, e1: ExportOutcome, e2: ExportOutcome)
    requires Download(t, d, pages, e1).Blocked?
    ensures Download(t, d, pages, e2) == Download(t, d, pages, e1)
  {
  }

  // ---------------------------------------------------------------- zoom

  /** Zoom levels are kept in whole percent: the page stores a factor (1 = 100 %). */
  const MinZoom: int := 20
  const MaxZoom: int := 500
  const ZoomStep: int := 10
  const DefaultZoom: int := 100

  /** `applyZoom`: a number typed into the zoom box is clamped to [20, 500]; anything else
      leaves the zoom as it was (and the box shows it again). */
  function ApplyZoom(typed: Option<int>, zoom: int): (r: int)
    ensures typed.Some? ==> MinZoom <= r <= MaxZoom
    ensures typed.Some? && MinZoom <= typed.value <= MaxZoom ==> r == typed.value
    ensures typed.Some? && typed.value < MinZoom ==> r == MinZoom
    ensures typed.Some? && typed.value > MaxZoom ==> r == MaxZoom
    ensures typed.None? ==> r == zoom
  {
    match typed
    case None => zoom
    case Some(v) => if v < MinZoom then MinZoom else if v > MaxZoom then MaxZoom else v
  }

  /** Typing back the zoom the box shows changes nothing. */
  lemma ApplyZoomIdempotent(v: int, zoom: int, other: int)
    ensures ApplyZoom(Some(ApplyZoom(Some(v), zoom)), other) == ApplyZoom(Some(v), zoom)
  {
  }

  /** The zoom buttons and the zoom box. The "+" button has no upper bound. */
  datatype ZoomAction = ZoomOut | ZoomIn | ResetZoom | Typed(value: Option<int>)

  function ZoomAfter(zoom: int, a: ZoomAction): (r: int)
    ensures a == ZoomOut ==> r == (if zoom - ZoomStep < MinZoom then MinZoom else zoom - ZoomStep)
    ensures a == ZoomIn ==> r == zoom + ZoomStep
    ensures a == ResetZoom ==> r == DefaultZoom
  {
    match a
    case ZoomOut => if zoom - ZoomStep < MinZoom then MinZoom else zoom - ZoomStep
    case ZoomIn => zoom + ZoomStep
    case ResetZoom => DefaultZoom
    case Typed(v) => ApplyZoom(v, zoom)
  }

  function ZoomAfterAll(zoom: int, acts: seq<ZoomAction>): int
    decreases |acts|
  {
    if acts == [] then zoom else ZoomAfterAll(ZoomAfter(zoom, acts[0]), acts[1..])
  }

  /** Starting from the page's 100 %, no sequence of button presses and typed values takes
      the zoom below 20 %. */
  lemma {:induction false} ZoomNeverBelowFloor(zoom: int, acts: seq<ZoomAction>)
    requires zoom >= MinZoom
    ensures ZoomAfterAll(zoom, acts) >= MinZoom
    decreases |acts|
  {
    if acts != [] {
      ZoomNeverBelowFloor(ZoomAfter(zoom, acts[0]), acts[1..]);
    }
  }

  /** The "+" button passes the bound the zoom box enforces; typing that zoom back clamps it. */
  lemma ZoomInPassesBoxBound()
    ensures ZoomAfterAll(MaxZoom, [ZoomIn]) == MaxZoom + ZoomStep
    ensures ZoomAfterAll(MaxZoom, [ZoomIn, Typed(Some(MaxZoom + ZoomStep))]) == MaxZoom
  {
    assert [ZoomIn][1..] == [];
    assert [ZoomIn, Typed(Some(MaxZoom + ZoomStep))][1..] == [Typed(Some(MaxZoom + ZoomStep))];
    assert [Typed(Some(MaxZoom + ZoomStep))][1..] == [];
    assert ZoomAfterAll(MaxZoom + ZoomStep, [Typed(Some(MaxZoom + ZoomStep))]) == ZoomAfterAll(MaxZoom, []);
  }
}

=== FILE: components_pagination.dfy ===
/** The pagination engine of the generic template (components/PaginatedResume.tsx). It
    follows the same greedy walk as the on-campus engine, with four differences: no
    cushion is subtracted from the budgets and the padding constants differ; a section
    marked splittable that lacks its heading or list is dropped when it does not fit;
    before splitting it only checks that the heading fits, not heading and first item;
    and it refuses to split a list while the height on the page does not exceed the
    heading's height. */
module ComponentsPagination {
  import opened Wrappers
  import opened Layout

  /** pt-16 plus pb-4 on the first page, pt-10 plus pb-4 on the others. */
  const FirstPagePaddingY: int := 64 + 16
  const NextPagePaddingY: int := 40 + 16

  /** The rule below `<main>` counts 0 when it is not rendered. */
  function FooterSectionHeight(c: Chrome): int {
    (match c.footerHr case None => 0 case Some(h) => h) + c.footer
  }

  /** The two budgets derived from the measured chrome. */
  function Budgets(c: Chrome): (b: Budget)
    ensures b.next - b.first == 24 + c.header + c.mainHr + c.mainPaddingTop
  {
    Budget(PageHeightPx - FirstPagePaddingY - (c.header + c.mainHr) - FooterSectionHeight(c) - c.mainPaddingTop,
           PageHeightPx - NextPagePaddingY - FooterSectionHeight(c))
  }

  /** The height the page must exceed before a list may be split there. As written it is
      the heading's height even on a continuation page, which carries no heading, so
      there a first item can be joined by a second one that does not fit. */
  function SplitFloor(mode: Mode, hh: int, wh: bool): int {
    match mode
    case AsWritten => hh
    case Corrected => if wh then hh else 0
  }

  /** Whether the inner loop closes the page before item j: the item does not fit and
      the page holds more than the split floor. */
  predicate SplitsBefore(b: Budget, mode: Mode, hh: int, ih: int, wh: bool, s: State) {
    s.curH + ih > Avail(b, s.isFirst) && s.curH > SplitFloor(mode, hh, wh)
  }

  /** The inner loop over the items of splittable block i; items lo..j are pending in a
      Part fragment (with the heading when wh). */
  function Items(bs: seq<Block>, b: Budget, mode: Mode, i: nat, j: nat, wh: bool, lo: nat, s: State): State
    requires i < |bs| && bs[i].Splittable? && lo <= j <= |bs[i].itemHeights|
    decreases |bs[i].itemHeights| - j
  {
    var items := bs[i].itemHeights;
    if j == |items| then
      State(s.pages, s.cur + [Part(i, wh, lo, j)], s.curH, s.isFirst)
    else if SplitsBefore(b, mode, bs[i].headingHeight, items[j], wh, s) then
      Items(bs, b, mode, i, j + 1, false, j, State(s.pages + [s.cur + [Part(i, wh, lo, j)]], [], items[j], false))
    else
      Items(bs, b, mode, i, j + 1, wh, lo, s.(curH := s.curH + items[j]))
  }

  /** The heading guard of a splittable section that does not fit whole: when not even
      its heading fits, the page being filled is closed (if it holds anything) and a new
      one is started; either way the heading's height is then counted. */
  function Opening(b: Budget, mode: Mode, hh: int, s: State): State {
    if s.curH + hh > Avail(b, s.isFirst) then
      State(if s.cur != [] then s.pages + [s.cur] else s.pages, [], hh, AfterMove(mode, s.isFirst, s.cur != []))
    else s.(curH := s.curH + hh)
  }

  /** One turn of the outer loop, for block i. */
  function Place(bs: seq<Block>, b: Budget, mode: Mode, i: nat, s: State): State
    requires i < |bs|
  {
    if s.curH + bs[i].height <= Avail(b, s.isFirst) then
      State(s.pages, s.cur + [Whole(i)], s.curH + bs[i].height, s.isFirst)
    else match bs[i]
      case Unsplittable(h) =>
        State(if s.cur != [] then s.pages + [s.cur] else s.pages, [Whole(i)], h,
              AfterMove(mode, s.isFirst, s.cur != []))
      case Malformed(_) => s
      case Splittable(_, hh, _) => Items(bs, b, mode, i, 0, true, 0, Opening(b, mode, hh, s))
  }

  function Run(bs: seq<Block>, b: Budget, mode: Mode, i: nat, s: State): State
    requires i <= |bs|
    decreases |bs| - i
  {
    if i == |bs| then s else Run(bs, b, mode, i + 1, Place(bs, b, mode, i, s))
  }

  lemma RunStep(bs: seq<Block>, b: Budget, mode: Mode, i: nat, s: State)
    requires i < |bs|
    ensures Run(bs, b, mode, i, s) == Run(bs, b, mode, i + 1, Place(bs, b, mode, i, s))
  {
  }

  lemma RunDone(bs: seq<Block>, b: Budget, mode: Mode, s: State)
    ensures Run(bs, b, mode, |bs|, s) == s
  {
  }

  /** Any property that one turn of the outer loop keeps holds of the state the whole
      loop ends in. */
  lemma {:induction false} RunKeeps(bs: seq<Block>, b: Budget, mode: Mode, i: nat, s: State, inv: (nat, State) -> bool)
    requires i <= |bs| && inv(i, s)
    requires forall k: nat, t: State :: i <= k < |bs| && inv(k, t) ==> inv(k + 1, Place(bs, b, mode, k, t))
    ensures inv(|bs|, Run(bs, b, mode, i, s))
    decreases |bs| - i
  {
    if i < |bs| {
      RunStep(bs, b, mode, i, s);
      RunKeeps(bs, b, mode, i + 1, Place(bs, b, mode, i, s), inv);
    }
  }

  /** `calculatePages` on measured blocks. */
  function Paginate(bs: seq<Block>, b: Budget, mode: Mode): seq<Page> {
    Finish(bs, Run(bs, b, mode, 0, Start))
  }

  /** A recalculation: with no rendered preview, or one missing its header, footer, main
      or the rule after the header, the previous pages stay (the rule after `<main>` may
      be missing); otherwise the pages are recomputed, and then every section, heading
      and item appears exactly once and in document order. */
  function Recalculate(prev: seq<Page>, src: Option<SourceDoc>, mode: Mode): (r: seq<Page>)
    ensures src.None? ==> r == prev
    ensures src.Some? && !(src.value.hasHeader && src.value.hasFooter && src.value.hasMain && src.value.hasMainHr) ==> r == prev
    ensures src.Some? && src.value.hasHeader && src.value.hasFooter && src.value.hasMain && src.value.hasMainHr
            && NoMalformed(src.value.blocks) ==>
              Flatten(src.value.blocks, r) == Expected(src.value.blocks, |src.value.blocks|)
  {
    match src
    case None => prev
    case Some(d) =>
      if !(d.hasHeader && d.hasFooter && d.hasMain && d.hasMainHr) then prev
      else
        var r := Paginate(d.blocks, Budgets(d.chrome), mode);
        assert NoMalformed(d.blocks) ==> Flatten(d.blocks, r) == Expected(d.blocks, |d.blocks|) by {
          if NoMalformed(d.blocks) {
            PaginateKeepsOrder(d.blocks, Budgets(d.chrome), mode);
          }
        }
        r
  }

  // ---------------------------------------------------------------- order

  lemma ItemsOrder(bs: seq<Block>, b: Budget, mode: Mode, i: nat, j: nat, wh: bool, lo: nat, s: State, E: seq<Atom>)
    requires i < |bs| && bs[i].Splittable? && lo <= j <= |bs[i].itemHeights|
    requires Placed(bs, s) + FragAtoms(bs, Part(i, wh, lo, j)) == E + ([HeadingAtom(i)] + ItemAtoms(i, 0, j))
    ensures Placed(bs, Items(bs, b, mode, i, j, wh, lo, s)) == E + ([HeadingAtom(i)] + ItemAtoms(i, 0, |bs[i].itemHeights|))
  {
    var k, w, l, t := j, wh, lo, s;
    while k < |bs[i].itemHeights|
      invariant 0 <= l <= k <= |bs[i].itemHeights|
      invariant Items(bs, b, mode, i, j, wh, lo, s) == Items(bs, b, mode, i, k, w, l, t)
      invariant Placed(bs, t) + FragAtoms(bs, Part(i, w, l, k)) == E + ([HeadingAtom(i)] + ItemAtoms(i, 0, k))
      decreases |bs[i].itemHeights| - k
    {
      k, w, l, t := ItemsOrderStep(bs, b, mode, i, k, w, l, t, E);
    }
    assert Items(bs, b, mode, i, k, w, l, t) == State(t.pages, t.cur + [Part(i, w, l, k)], t.curH, t.isFirst);
    PlacedAdd(bs, t, Part(i, w, l, k), t.curH, t.isFirst);
  }

  /** One turn of the inner loop keeps the order invariant. */
  lemma ItemsOrderStep(bs: seq<Block>, b: Budget, mode: Mode, i: nat, j: nat, wh: bool, lo: nat, s: State, E: seq<Atom>)
      returns (j': nat, wh': bool, lo': nat, s': State)
    requires i < |bs| && bs[i].Splittable? && lo <= j < |bs[i].itemHeights|
    requires Placed(bs, s) + FragAtoms(bs, Part(i, wh, lo, j)) == E + ([HeadingAtom(i)] + ItemAtoms(i, 0, j))
    ensures j' == j + 1 && lo' <= j'
    ensures Items(bs, b, mode, i, j, wh, lo, s) == Items(bs, b, mode, i, j', wh', lo', s')
    ensures Placed(bs, s') + FragAtoms(bs, Part(i, wh', lo', j')) == E + ([HeadingAtom(i)] + ItemAtoms(i, 0, j'))
  {
    var items := bs[i].itemHeights;
    if SplitsBefore(b, mode, bs[i].headingHeight, items[j], wh, s) {
      j', wh', lo', s' := j + 1, false, j, State(s.pages + [s.cur + [Part(i, wh, lo, j)]], [], items[j], false);
      assert Items(bs, b, mode, i, j, wh, lo, s) == Items(bs, b, mode, i, j', wh', lo', s');
      PlacedPushWith(bs, s, Part(i, wh, lo, j), items[j], false);
      ItemsSplitStep(bs, i, j, wh, lo, Placed(bs, s), E);
    } else {
      j', wh', lo', s' := j + 1, wh, lo, s.(curH := s.curH + items[j]);
      assert Items(bs, b, mode, i, j, wh, lo, s) == Items(bs, b, mode, i, j', wh', lo', s');
      assert Placed(bs, s') == Placed(bs, s);
      ItemsGrowStep(bs, i, j, wh, lo, Placed(bs, s), E);
    }
  }

  lemma PlaceOrder(bs: seq<Block>, b: Budget, mode: Mode, i: nat, s: State)
    requires i < |bs| && NoMalformed(bs)
    requires Placed(bs, s) == Expected(bs, i)
    ensures Placed(bs, Place(bs, b, mode, i, s)) == Expected(bs, i + 1)
  {
    var avail := Avail(b, s.isFirst);
    assert Expected(bs, i + 1) == Expected(bs, i) + BlockAtoms(bs, i);
    if s.curH + bs[i].height <= avail {
      PlacedAdd(bs, s, Whole(i), s.curH + bs[i].height, s.isFirst);
    } else if bs[i].Unsplittable? {
      var first' := AfterMove(mode, s.isFirst, s.cur != []);
      if s.cur != [] {
        PlacedPushStart(bs, s, Whole(i), bs[i].height, first');
      } else {
        PlacedAdd(bs, s, Whole(i), bs[i].height, first');
        assert s.cur + [Whole(i)] == [Whole(i)];
      }
    } else {
      assert bs[i].Splittable?;
      PlaceSplittableOrder(bs, b, mode, i, s);
    }
  }

  lemma PlaceSplittableOrder(bs: seq<Block>, b: Budget, mode: Mode, i: nat, s: State)
    requires i < |bs| && bs[i].Splittable?
    requires s.curH + bs[i].height > Avail(b, s.isFirst)
    requires Placed(bs, s) == Expected(bs, i)
    ensures Placed(bs, Place(bs, b, mode, i, s)) == Expected(bs, i + 1)
  {
    var s1 := Opening(b, mode, bs[i].headingHeight, s);
    assert Place(bs, b, mode, i, s) == Items(bs, b, mode, i, 0, true, 0, s1);
    OpeningPlaced(bs, b, mode, bs[i].headingHeight, s);
    assert FragAtoms(bs, Part(i, true, 0, 0)) == [HeadingAtom(i)];
    ItemsOrder(bs, b, mode, i, 0, true, 0, s1, Expected(bs, i));
    assert Expected(bs, i + 1) == Expected(bs, i) + BlockAtoms(bs, i);
  }

  /** The heading guard lays out nothing. */
  lemma OpeningPlaced(bs: seq<Block>, b: Budget, mode: Mode, hh: int, s: State)
    ensures Placed(bs, Opening(b, mode, hh, s)) == Placed(bs, s)
  {
    if s.curH + hh > Avail(b, s.isFirst) && s.cur != [] {
      PlacedPush(bs, s, hh, AfterMove(mode, s.isFirst, true));
    }
  }

  lemma RunOrder(bs: seq<Block>, b: Budget, mode: Mode, i: nat, s: State)
    requires i <= |bs| && NoMalformed(bs)
    requires Placed(bs, s) == Expected(bs, i)
    ensures Placed(bs, Run(bs, b, mode, i, s)) == Expected(bs, |bs|)
  {
    forall k: nat, t: State | i <= k < |bs| && Placed(bs, t) == Expected(bs, k)
      ensures Placed(bs, Place(bs, b, mode, k, t)) == Expected(bs, k + 1)
    {
      PlaceOrder(bs, b, mode, k, t);
    }
    RunKeeps(bs, b, mode, i, s, (k: nat, t: State) => k <= |bs| && Placed(bs, t) == Expected(bs, k));
  }

  /** Whatever the budgets, and in both readings, the pages show every section, heading
      and list item exactly once and in document order, provided no section is marked
      splittable without a heading and a list (such a section is dropped when it does
      not fit). Sections with an empty list keep their heading. */
  lemma PaginateKeepsOrder(bs: seq<Block>, b: Budget, mode: Mode)
    requires NoMalformed(bs)
    ensures Flatten(bs, Paginate(bs, b, mode)) == Expected(bs, |bs|)
  {
    assert Placed(bs, Start) == [];
    RunOrder(bs, b, mode, 0, Start);
    FinishPlaced(bs, Run(bs, b, mode, 0, Start));
  }

  // ---------------------------------------------------------------- budget

  lemma ItemsBudget(bs: seq<Block>, b: Budget, i: nat, j: nat, wh: bool, lo: nat, s: State)
    requires i < |bs| && bs[i].Splittable? && lo <= j <= |bs[i].itemHeights| && PositiveHeights(bs)
    requires wh ==> lo == 0
    requires !wh ==> lo < j
    requires BudgetInv(bs, b, true, s, s.cur + [Part(i, wh, lo, j)])
    ensures BudgetInv(bs, b, true, Items(bs, b, Corrected, i, j, wh, lo, s), Items(bs, b, Corrected, i, j, wh, lo, s).cur)
  {
    var k, w, l, t := j, wh, lo, s;
    while k < |bs[i].itemHeights|
      invariant 0 <= l <= k <= |bs[i].itemHeights| && (w ==> l == 0) && (!w ==> l < k)
      invariant Items(bs, b, Corrected, i, j, wh, lo, s) == Items(bs, b, Corrected, i, k, w, l, t)
      invariant BudgetInv(bs, b, true, t, t.cur + [Part(i, w, l, k)])
      decreases |bs[i].itemHeights| - k
    {
      k, w, l, t := ItemsBudgetStep(bs, b, i, k, w, l, t);
    }
    assert Items(bs, b, Corrected, i, k, w, l, t) == State(t.pages, t.cur + [Part(i, w, l, k)], t.curH, t.isFirst);
  }

  /** One turn of the inner loop keeps the budget invariant. */
  lemma ItemsBudgetStep(bs: seq<Block>, b: Budget, i: nat, j: nat, wh: bool, lo: nat, s: State)
      returns (j': nat, wh': bool, lo': nat, s': State)
    requires i < |bs| && bs[i].Splittable? && lo <= j < |bs[i].itemHeights| && PositiveHeights(bs)
    requires wh ==> lo == 0
    requires !wh ==> lo < j
    requires BudgetInv(bs, b, true, s, s.cur + [Part(i, wh, lo, j)])
    ensures j' == j + 1 && lo' <= j' && (wh' ==> lo' == 0) && (!wh' ==> lo' < j')
    ensures Items(bs, b, Corrected, i, j, wh, lo, s) == Items(bs, b, Corrected, i, j', wh', lo', s')
    ensures BudgetInv(bs, b, true, s', s'.cur + [Part(i, wh', lo', j')])
  {
    var items := bs[i].itemHeights;
    if SplitsBefore(b, Corrected, bs[i].headingHeight, items[j], wh, s) {
      j', wh', lo', s' := j + 1, false, j, State(s.pages + [s.cur + [Part(i, wh, lo, j)]], [], items[j], false);
      SplitBudgetStep(bs, b, i, j, wh, lo, s);
    } else {
      j', wh', lo', s' := j + 1, wh, lo, s.(curH := s.curH + items[j]);
      GrowBudgetStep(bs, b, i, j, wh, lo, s);
    }
  }

  /** Closing the page before item j keeps the invariant, item j alone pending. */
  lemma SplitBudgetStep(bs: seq<Block>, b: Budget, i: nat, j: nat, wh: bool, lo: nat, s: State)
    requires i < |bs| && bs[i].Splittable? && lo <= j < |bs[i].itemHeights| && PositiveHeights(bs)
    requires BudgetInv(bs, b, true, s, s.cur + [Part(i, wh, lo, j)])
    ensures var s' := State(s.pages + [s.cur + [Part(i, wh, lo, j)]], [], bs[i].itemHeights[j], false);
      BudgetInv(bs, b, true, s', s'.cur + [Part(i, false, j, j + 1)])
  {
    var items := bs[i].itemHeights;
    var v := s.cur + [Part(i, wh, lo, j)];
    var f := Part(i, false, j, j + 1);
    PushKeepsBudget(bs, b, true, s, v);
    SingleFragment(bs, f);
    assert [] + [f] == [f];
    assert FragAtoms(bs, f) == [ItemAtom(i, j)];
    assert SumRange(items, j, j + 1) == SumRange(items, j, j) + items[j];
  }

  /** Item j joining the pending part keeps the invariant. */
  lemma GrowBudgetStep(bs: seq<Block>, b: Budget, i: nat, j: nat, wh: bool, lo: nat, s: State)
    requires i < |bs| && bs[i].Splittable? && lo <= j < |bs[i].itemHeights| && PositiveHeights(bs)
    requires wh ==> lo == 0
    requires !wh ==> lo < j
    requires BudgetInv(bs, b, true, s, s.cur + [Part(i, wh, lo, j)])
    requires !SplitsBefore(b, Corrected, bs[i].headingHeight, bs[i].itemHeights[j], wh, s)
    ensures var s' := s.(curH := s.curH + bs[i].itemHeights[j]);
      BudgetInv(bs, b, true, s', s'.cur + [Part(i, wh, lo, j + 1)])
  {
    var items := bs[i].itemHeights;
    PageHeightAppend(bs, s.cur, Part(i, wh, lo, j));
    PageHeightAppend(bs, s.cur, Part(i, wh, lo, j + 1));
    PartGrows(bs, i, wh, lo, j);
    SumRangePositive(items, lo, j);
    if s.curH + items[j] > Avail(b, s.isFirst) {
      HeadingWithFirstItem(bs, b, i, j, wh, lo, s);
    }
  }

  /** The one way the corrected engine lets a list overrun without splitting: the page
      holds nothing but this section's heading, so the first item joins it. */
  lemma HeadingWithFirstItem(bs: seq<Block>, b: Budget, i: nat, j: nat, wh: bool, lo: nat, s: State)
    requires i < |bs| && bs[i].Splittable? && lo <= j < |bs[i].itemHeights| && PositiveHeights(bs)
    requires wh ==> lo == 0
    requires !wh ==> lo < j
    requires BudgetInv(bs, b, true, s, s.cur + [Part(i, wh, lo, j)])
    requires s.curH <= SplitFloor(Corrected, bs[i].headingHeight, wh)
    ensures s.cur == [] && wh && j == 0
    ensures PageAtoms(bs, s.cur + [Part(i, wh, lo, j + 1)]) == [HeadingAtom(i), ItemAtom(i, 0)]
  {
    var items := bs[i].itemHeights;
    PageHeightAppend(bs, s.cur, Part(i, wh, lo, j));
    SumRangePositive(items, lo, j);
    SumRangePositive(items, 0, j);
    assert s.cur == [];
    assert [] + [Part(i, wh, lo, j + 1)] == [Part(i, wh, lo, j + 1)];
    SingleFragment(bs, Part(i, wh, lo, j + 1));
    assert ItemAtoms(i, 0, 1) == [ItemAtom(i, 0)];
  }

  lemma PlaceBudget(bs: seq<Block>, b: Budget, i: nat, s: State)
    requires i < |bs| && NoMalformed(bs) && PositiveHeights(bs)
    requires BudgetInv(bs, b, true, s, s.cur)
    ensures BudgetInv(bs, b, true, Place(bs, b, Corrected, i, s), Place(bs, b, Corrected, i, s).cur)
  {
    var avail := Avail(b, s.isFirst);
    if s.curH + bs[i].height <= avail {
      PageHeightAppend(bs, s.cur, Whole(i));
    } else if bs[i].Unsplittable? {
      SingleFragment(bs, Whole(i));
      if s.cur != [] {
        PushKeepsBudget(bs, b, true, s, s.cur);
      }
    } else {
      assert bs[i].Splittable?;
      PlaceSplittableBudget(bs, b, i, s);
    }
  }

  lemma PlaceSplittableBudget(bs: seq<Block>, b: Budget, i: nat, s: State)
    requires i < |bs| && PositiveHeights(bs) && bs[i].Splittable?
    requires s.curH + bs[i].height > Avail(b, s.isFirst)
    requires BudgetInv(bs, b, true, s, s.cur)
    ensures BudgetInv(bs, b, true, Place(bs, b, Corrected, i, s), Place(bs, b, Corrected, i, s).cur)
  {
    var s1 := Opening(b, Corrected, bs[i].headingHeight, s);
    assert Place(bs, b, Corrected, i, s) == Items(bs, b, Corrected, i, 0, true, 0, s1);
    OpeningBudget(bs, b, i, s);
    ItemsBudget(bs, b, i, 0, true, 0, s1);
  }

  /** After the heading guard the pending heading-only part keeps the invariant: either
      it joins a page it fits on, or it starts a page of its own. */
  lemma OpeningBudget(bs: seq<Block>, b: Budget, i: nat, s: State)
    requires i < |bs| && PositiveHeights(bs) && bs[i].Splittable?
    requires BudgetInv(bs, b, true, s, s.cur)
    ensures var s1 := Opening(b, Corrected, bs[i].headingHeight, s);
      BudgetInv(bs, b, true, s1, s1.cur + [Part(i, true, 0, 0)])
  {
    var hh := bs[i].headingHeight;
    var f := Part(i, true, 0, 0);
    SingleFragment(bs, f);
    assert FragAtoms(bs, f) == [HeadingAtom(i)];
    if s.curH + hh > Avail(b, s.isFirst) {
      if s.cur != [] {
        PushKeepsBudget(bs, b, true, s, s.cur);
      }
      assert [] + [f] == [f];
    } else {
      PageHeightAppend(bs, s.cur, f);
    }
  }

  lemma RunBudget(bs: seq<Block>, b: Budget, i: nat, s: State)
    requires i <= |bs| && NoMalformed(bs) && PositiveHeights(bs)
    requires BudgetInv(bs, b, true, s, s.cur)
    ensures BudgetInv(bs, b, true, Run(bs, b, Corrected, i, s), Run(bs, b, Corrected, i, s).cur)
  {
    forall k: nat, t: State | i <= k < |bs| && BudgetInv(bs, b, true, t, t.cur)
      ensures BudgetInv(bs, b, true, Place(bs, b, Corrected, k, t), Place(bs, b, Corrected, k, t).cur)
    {
      PlaceBudget(bs, b, k, t);
    }
    RunKeeps(bs, b, Corrected, i, s, (k: nat, t: State) => BudgetInv(bs, b, true, t, t.cur));
  }

  /** In the corrected reading, every page keeps to the budget of its position, except a
      page holding a single section, heading or item too tall for any page, or a page
      holding just a heading and the first item of its list. */
  lemma CorrectedKeepsBudget(bs: seq<Block>, b: Budget)
    requires NoMalformed(bs) && PositiveHeights(bs)
    ensures AllKeepBudget(bs, Paginate(bs, b, Corrected), b, true)
  {
    assert BudgetInv(bs, b, true, Start, Start.cur);
    RunBudget(bs, b, 0, Start);
    assert Placed(bs, Start) == [];
    RunOrder(bs, b, Corrected, 0, Start);
    FinishKeepsBudget(bs, b, true, Run(bs, b, Corrected, 0, Start));
  }

  /** As written, a continuation page holding one item of height 40 is not split before
      an item of height 990, because 40 does not exceed the heading's 50: the page then
      holds 1030 px where 1000 are available. */
  lemma AsWrittenContinuationOverflows()
    ensures var bs := [Splittable(2000, 50, [900, 40, 990])];
      var ps := Paginate(bs, Budget(950, 1000), AsWritten);
      ps == [[Part(0, true, 0, 1)], [Part(0, false, 1, 3)]]
      && PageHeight(bs, ps[1]) == 1030 && !AllKeepBudget(bs, ps, Budget(950, 1000), true)
  {
    var bs := [Splittable(2000, 50, [900, 40, 990])];
    var b := Budget(950, 1000);
    var items := [900, 40, 990];
    var w0 := State([], [], 50, true);
    var w1 := State([], [], 950, true);
    var w2 := State([[Part(0, true, 0, 1)]], [], 40, false);
    var w3 := State([[Part(0, true, 0, 1)]], [], 1030, false);
    assert [] + [Part(0, true, 0, 1)] == [Part(0, true, 0, 1)];
    assert [] + [Part(0, false, 1, 3)] == [Part(0, false, 1, 3)];
    RunStep(bs, b, AsWritten, 0, Start);
    assert Place(bs, b, AsWritten, 0, Start) == Items(bs, b, AsWritten, 0, 0, true, 0, w0);
    assert Items(bs, b, AsWritten, 0, 0, true, 0, w0) == Items(bs, b, AsWritten, 0, 1, true, 0, w1);
    assert Items(bs, b, AsWritten, 0, 1, true, 0, w1) == Items(bs, b, AsWritten, 0, 2, false, 1, w2);
    assert Items(bs, b, AsWritten, 0, 2, false, 1, w2) == Items(bs, b, AsWritten, 0, 3, false, 1, w3);
    assert Run(bs, b, AsWritten, 0, Start) == State([[Part(0, true, 0, 1)]], [Part(0, false, 1, 3)], 1030, false);
    var ps := [[Part(0, true, 0, 1)], [Part(0, false, 1, 3)]];
    SingleFragment(bs, Part(0, false, 1, 3));
    assert SumRange(items, 1, 3) == 1030;
    assert ItemAtoms(0, 1, 3) == [ItemAtom(0, 1), ItemAtom(0, 2)];
    assert !KeepsBudget(bs, ps[1], BudgetAt(b, 1), true);
  }

  /** The corrected reading closes that continuation page after its one item. */
  lemma CorrectedContinuationSplits()
    ensures var bs := [Splittable(2000, 50, [900, 40, 990])];
      var ps := Paginate(bs, Budget(950, 1000), Corrected);
      ps == [[Part(0, true, 0, 1)], [Part(0, false, 1, 2)], [Part(0, false, 2, 3)]]
  {
    var bs := [Splittable(2000, 50, [900, 40, 990])];
    var b := Budget(950, 1000);
    var w0 := State([], [], 50, true);
    var w1 := State([], [], 950, true);
    var w2 := State([[Part(0, true, 0, 1)]], [], 40, false);
    var c3 := State([[Part(0, true, 0, 1)], [Part(0, false, 1, 2)]], [], 990, false);
    assert [] + [Part(0, true, 0, 1)] == [Part(0, true, 0, 1)];
    assert [] + [Part(0, false, 1, 2)] == [Part(0, false, 1, 2)];
    assert [] + [Part(0, false, 2, 3)] == [Part(0, false, 2, 3)];
    RunStep(bs, b, Corrected, 0, Start);
    assert Place(bs, b, Corrected, 0, Start) == Items(bs, b, Corrected, 0, 0, true, 0, w0);
    assert Items(bs, b, Corrected, 0, 0, true, 0, w0) == Items(bs, b, Corrected, 0, 1, true, 0, w1);
    assert Items(bs, b, Corrected, 0, 1, true, 0, w1) == Items(bs, b, Corrected, 0, 2, false, 1, w2);
    assert Items(bs, b, Corrected, 0, 2, false, 1, w2) == Items(bs, b, Corrected, 0, 3, false, 2, c3);
    assert Run(bs, b, Corrected, 0, Start) == c3.(cur := [Part(0, false, 2, 3)]);
  }

  /** The same first-page slip as the on-campus engine: a section moved to a fresh first
      page is measured against the later pages' budget, so a second one joins it. */
  lemma AsWrittenFirstPageOverflows()
    ensures var bs := [Unsplittable(950), Unsplittable(40)];
      var ps := Paginate(bs, Budget(900, 1000), AsWritten);
      ps == [[Whole(0), Whole(1)]] && PageHeight(bs, ps[0]) == 990 && !AllKeepBudget(bs, ps, Budget(900, 1000), true)
    ensures Paginate([Unsplittable(950), Unsplittable(40)], Budget(900, 1000), Corrected) == [[Whole(0)], [Whole(1)]]
  {
    var bs := [Unsplittable(950), Unsplittable(40)];
    var b := Budget(900, 1000);
    var w1 := Place(bs, b, AsWritten, 0, Start);
    assert w1 == State([], [Whole(0)], 950, false);
    assert Place(bs, b, AsWritten, 1, w1) == State([], [Whole(0), Whole(1)], 990, false);
    assert Run(bs, b, AsWritten, 0, Start) == State([], [Whole(0), Whole(1)], 990, false);
    var ps := [[Whole(0), Whole(1)]];
    PageHeightAppend(bs, [Whole(0)], Whole(1));
    SingleFragment(bs, Whole(0));
    assert [Whole(0)] + [Whole(1)] == ps[0];
    PageAtomsAppend(bs, [Whole(0)], Whole(1));
    assert !KeepsBudget(bs, ps[0], BudgetAt(b, 0), true);
    var c1 := Place(bs, b, Corrected, 0, Start);
    assert c1 == State([], [Whole(0)], 950, true);
    assert Place(bs, b, Corrected, 1, c1) == State([[Whole(0)]], [Whole(1)], 40, false);
    assert Run(bs, b, Corrected, 0, Start) == State([[Whole(0)]], [Whole(1)], 40, false);
  }
}

=== FILE: corporate_form.dfy ===
/** The CorporateMinimal editor's extracurricular panel: it edits only the activity whose
    title is exactly "EXTRACURRICULAR ACTIVITIES", and offers to create that activity
    only while none exists. */
module CorporateForm {
  import opened Resume
  import Editing

  const ExtracurricularTitle: string := "EXTRACURRICULAR ACTIVITIES"

  predicate IsExtracurricular(e: Entry) {
    e.Activity? && e.title == ExtracurricularTitle
  }

  /** The activities the panel shows a description box for, in document order. */
  function EditableActivities(xs: seq<Entry>): (r: seq<Entry>)
    ensures |r| <= |xs|
    ensures forall e :: e in r <==> e in xs && IsExtracurricular(e)
  {
    if xs == [] then []
    else (if IsExtracurricular(xs[0]) then [xs[0]] else []) + EditableActivities(xs[1..])
  }

  /** Whether the "+ Add Extracurricular Section" button is shown. */
  predicate CanAddExtracurricular(d: ResumeData) {
    !exists i :: 0 <= i < |d.activities| && IsExtracurricular(d.activities[i])
  }

  /** The button is shown exactly when the panel has nothing to edit. */
  lemma CanAddIffNoneEditable(d: ResumeData)
    ensures CanAddExtracurricular(d) <==> EditableActivities(d.activities) == []
  {
    if !CanAddExtracurricular(d) {
      var i :| 0 <= i < |d.activities| && IsExtracurricular(d.activities[i]);
      assert d.activities[i] in EditableActivities(d.activities);
    }
    if EditableActivities(d.activities) != [] {
      var e := EditableActivities(d.activities)[0];
      assert e in d.activities;
    }
  }

  /** Pressing the button when it is shown: an empty extracurricular activity is appended
      under a fresh id. When the button is hidden there is nothing to press. */
  function PressAddExtracurricular(d: ResumeData, id: string): (r: ResumeData)
    ensures CanAddExtracurricular(d) ==>
      r.activities == d.activities + [Activity(id, ExtracurricularTitle, "")]
    ensures !CanAddExtracurricular(d) ==> r == d
    ensures !CanAddExtracurricular(r)
    ensures forall k :: k != ActivitiesKey ==> Section(r, k) == Section(d, k)
  {
    if CanAddExtracurricular(d) then
      var r := Editing.AddItem(d, ActivitiesKey, Activity(id, ExtracurricularTitle, ""));
      assert IsExtracurricular(r.activities[|d.activities|]);
      r
    else d
  }

  /** Starting from a document without one, however often the button is pressed the
      panel ends up editing exactly one activity. */
  lemma AddExtracurricularOnce(d: ResumeData, id1: string, id2: string)
    requires CanAddExtracurricular(d)
    ensures var r := PressAddExtracurricular(PressAddExtracurricular(d, id1), id2);
      EditableActivities(r.activities) == [Activity(id1, ExtracurricularTitle, "")]
  {
    var r := PressAddExtracurricular(d, id1);
    CanAddIffNoneEditable(d);
    EditableAppend(d.activities, [Activity(id1, ExtracurricularTitle, "")]);
    assert [Activity(id1, ExtracurricularTitle, "")][1..] == [];
  }

  lemma {:induction false} EditableAppend(xs: seq<Entry>, ys: seq<Entry>)
    ensures EditableActivities(xs + ys) == EditableActivities(xs) + EditableActivities(ys)
  {
    if xs == [] {
      assert xs + ys == ys;
    } else {
      assert (xs + ys)[1..] == xs[1..] + ys;
      EditableAppend(xs[1..], ys);
    }
  }
}

=== FILE: corporate_preview.dfy ===
/** The CorporateMinimal preview (templates/CorporateMinimal/ResumePreview.tsx): the
    contact line under the name, the rows of a coursework entry, the extracurricular
    sections, and which sections of the two columns are shown. */
module CorporatePreview {
  import opened Resume
  import opened Preview
  import Text
  import CorporateForm

  // ---------------------------------------------------------------- contact line

  /** A piece of the contact line: a field's text, or the '|' between two fields. */
  datatype ContactPiece = FieldText(s: string) | Bar

  /** The e-mail when non-empty, a bar when both are non-empty, the phone when non-empty. */
  function ContactLine(p: PersonalDetails): (line: seq<ContactPiece>)
    ensures Bar in line <==> p.email != "" && p.contact != ""
    ensures forall x :: x in line && x.FieldText? ==> x.s != "" && (x.s == p.email || x.s == p.contact)
  {
    (if p.email != "" then [FieldText(p.email)] else [])
    + (if p.email != "" && p.contact != "" then [Bar] else [])
    + (if p.contact != "" then [FieldText(p.contact)] else [])
  }

  /** The bar only ever stands between the two fields: whatever is shown, no bar opens
      or closes the line. */
  lemma BarBetweenFields(p: PersonalDetails)
    ensures var line := ContactLine(p);
      line != [] ==> line[0] != Bar && line[|line| - 1] != Bar
    ensures ContactLine(p) == [] <==> p.email == "" && p.contact == ""
  {
  }

  // ---------------------------------------------------------------- coursework

  /** The rows of a coursework entry: its subjects split at line breaks, blank lines kept. */
  function CourseRows(subjects: string): (rows: seq<string>)
    ensures |rows| >= 1
    ensures forall k :: 0 <= k < |rows| ==> '\n' !in rows[k]
  {
    Text.Lines(subjects)
  }

  /** No line is lost: one row per line break plus one, and the rows put back together
      with line breaks give the subjects text. */
  lemma CourseRowsRoundTrip(subjects: string)
    ensures |CourseRows(subjects)| == Text.Count(subjects, '\n') + 1
    ensures Text.Join(CourseRows(subjects), "\n") == subjects
  {
    Text.SplitLength(subjects, '\n');
    Text.JoinSplit(subjects, '\n');
  }

  /** Rows typed one per line come back as typed, empty ones included. */
  lemma CourseRowsOfLines(rows: seq<string>)
    requires |rows| >= 1 && forall k :: 0 <= k < |rows| ==> '\n' !in rows[k]
    ensures CourseRows(Text.Join(rows, "\n")) == rows
  {
    Text.SplitJoin(rows, '\n');
  }

  // ---------------------------------------------------------------- extracurricular

  /** An activity gets its own section when its title includes "EXTRA" and its description
      is not empty (a description of white space only still counts). */
  predicate HasExtraSection(e: Entry) {
    e.Activity? && Text.Contains(e.title, "EXTRA") && e.description != ""
  }

  /** The bullet lines of such a section: the non-blank lines of the description, bold
      tags rewritten, no `<br />` inserted. */
  function ExtraLines(desc: string): (ls: seq<string>)
    ensures |ls| == |Text.NonBlankLines(desc)|
    ensures forall k :: 0 <= k < |ls| ==> ls[k] == Text.BoldToStrong(Text.NonBlankLines(desc)[k]) && '\n' !in ls[k]
  {
    var src := Text.NonBlankLines(desc);
    forall k | 0 <= k < |src| ensures '\n' !in Text.BoldToStrong(src[k]) {
      Text.BoldToStrongNoNewline(src[k]);
    }
    Text.MapBold(src)
  }

  /** A description without markup gives its non-blank lines as they are. */
  lemma ExtraLinesOfPlainText(desc: string)
    requires '<' !in desc
    ensures ExtraLines(desc) == Text.NonBlankLines(desc)
  {
    var src := Text.NonBlankLines(desc);
    Text.NonBlankLinesKeepCharOut(desc, '<');
    forall k | 0 <= k < |src| ensures Text.BoldToStrong(src[k]) == src[k] {
      Text.BoldToStrongOfPlain(src[k]);
    }
  }

  /** The activities that get a section, in order. */
  function ExtraActivities(acts: seq<Entry>): (r: seq<Entry>)
    ensures |r| <= |acts|
    ensures forall k :: 0 <= k < |r| ==> HasExtraSection(r[k])
  {
    Filter(acts, HasExtraSection)
  }

  /** An activity gets a section exactly when it is one of the activities and qualifies. */
  lemma ExtraActivitiesMembers(acts: seq<Entry>)
    ensures forall e :: e in ExtraActivities(acts) <==> e in acts && HasExtraSection(e)
  {
    FilterMembers(acts, HasExtraSection);
  }

  /** The bullet lines of an activity's section. */
  function ExtraLinesOf(e: Entry): (ls: seq<string>)
    ensures forall m :: 0 <= m < |ls| ==> '\n' !in ls[m]
  {
    if e.Activity? then ExtraLines(e.description) else []
  }

  /** One list of bullet lines per activity with a section, in document order. */
  function ExtraSections(acts: seq<Entry>): (r: seq<seq<string>>)
    ensures |r| == |ExtraActivities(acts)|
    ensures forall k :: 0 <= k < |r| ==> forall m :: 0 <= m < |r[k]| ==> '\n' !in r[k][m]
  {
    FilterMapOfFilter(acts, HasExtraSection, ExtraLinesOf);
    FilterMap(acts, HasExtraSection, ExtraLinesOf)
  }

  /** Block k holds the lines of the k-th activity that gets a section. */
  lemma ExtraSectionsOfActivities(acts: seq<Entry>)
    ensures forall k :: 0 <= k < |ExtraSections(acts)| ==> ExtraSections(acts)[k] == ExtraLines(ExtraActivities(acts)[k].description)
  {
    FilterMapOfFilter(acts, HasExtraSection, ExtraLinesOf);
  }

  /** The blocks follow document order. */
  lemma ExtraSectionsAppend(xs: seq<Entry>, ys: seq<Entry>)
    ensures ExtraSections(xs + ys) == ExtraSections(xs) + ExtraSections(ys)
  {
    FilterMapAppend(xs, ys, HasExtraSection, ExtraLinesOf);
  }

  lemma ExtracurricularTitleContainsExtra()
    ensures Text.Contains(CorporateForm.ExtracurricularTitle, "EXTRA")
  {
    assert Text.StartsWith(CorporateForm.ExtracurricularTitle[0..], "EXTRA");
  }

  /** An activity the editor created and filled in gets a section of its own; one whose
      description holds only white space gets a section with a heading and no line. */
  lemma EditorActivitySection(id: string, desc: string)
    requires desc != ""
    ensures ExtraSections([Activity(id, CorporateForm.ExtracurricularTitle, desc)]) == [ExtraLines(desc)]
    ensures Text.AllWhitespace(desc) ==> ExtraLines(desc) == []
  {
    ExtracurricularTitleContainsExtra();
    var e := Activity(id, CorporateForm.ExtracurricularTitle, desc);
    assert [e][1..] == [];
    if Text.AllWhitespace(desc) {
      WhitespaceHasNoLines(desc);
    }
  }

  /** Every line of a text of white space only is blank. */
  lemma WhitespaceHasNoLines(desc: string)
    requires Text.AllWhitespace(desc)
    ensures Text.NonBlankLines(desc) == []
  {
    Text.JoinSplit(desc, '\n');
    var ls := Text.Lines(desc);
    forall k | 0 <= k < |ls|
      ensures Text.IsBlank(ls[k])
    {
      PieceOfWhitespace(ls, ls[k]);
      Text.BlankIffAllWhitespace(ls[k]);
    }
    Text.NonBlankOfBlank(ls);
  }

  /** A piece of a text of white space only holds white space only. */
  lemma {:induction false} PieceOfWhitespace(ls: seq<string>, l: string)
    requires l in ls && Text.AllWhitespace(Text.Join(ls, "\n"))
    ensures Text.AllWhitespace(l)
    decreases |ls|
  {
    var j := Text.Join(ls, "\n");
    if |ls| > 1 {
      var rest := Text.Join(ls[1..], "\n");
      assert j == ls[0] + "\n" + rest;
      assert forall k :: 0 <= k < |ls[0]| ==> ls[0][k] == j[k];
      assert forall k :: 0 <= k < |rest| ==> rest[k] == j[|ls[0]| + 1 + k];
      if l != ls[0] {
        assert l in ls[1..];
        PieceOfWhitespace(ls[1..], l);
      }
    }
  }

  // ---------------------------------------------------------------- sections

  const LeftTitles: seq<string> := ["Education", "Links", "Coursework", "Skills"]
  const RightTitles: seq<string> := ["Internship Experience", "Projects", "Achievements and Interests", "Positions of Responsibility"]

  function LeftFlags(d: ResumeData): seq<bool> {
    [|d.education| > 0, |d.webLinks| > 0, |d.coursework| > 0, |d.skills| > 0]
  }

  function RightFlags(d: ResumeData): seq<bool> {
    [|d.internships| > 0, |d.projects| > 0, |d.achievements| > 0, |d.positions| > 0]
  }

  function LeftColumn(d: ResumeData): seq<string> {
    Keep(LeftTitles, LeftFlags(d))
  }

  /** The right column: the list sections, then one extracurricular section per activity
      that has one. */
  function RightColumn(d: ResumeData): (r: seq<string>)
    ensures |r| == |Keep(RightTitles, RightFlags(d))| + |ExtraSections(d.activities)|
  {
    Keep(RightTitles, RightFlags(d)) + seq(|ExtraSections(d.activities)|, _ => "Extracurricular Activities")
  }

  /** Each left-column section is shown exactly when its list is non-empty. */
  lemma LeftShownIff(d: ResumeData, k: nat)
    requires k < 4
    ensures LeftTitles[k] in LeftColumn(d) <==> LeftFlags(d)[k]
  {
    assert Distinct(LeftTitles);
    KeepIff(LeftTitles, LeftFlags(d), k);
  }

  /** Each list section of the right column is shown exactly when its list is non-empty. */
  lemma RightShownIff(d: ResumeData, k: nat)
    requires k < 4
    ensures RightTitles[k] in RightColumn(d) <==> RightFlags(d)[k]
  {
    assert Distinct(RightTitles);
    KeepIff(RightTitles, RightFlags(d), k);
    var extras := seq(|ExtraSections(d.activities)|, _ => "Extracurricular Activities");
    assert RightTitles[k] !in extras;
  }
}

=== FILE: editing.dfy ===
/** The edit handlers every resume form shares: personal-detail edits, per-entry field
    edits, adding and removing entries, and the two halves of "Enhance with AI". */
module Editing {
  import opened Wrappers
  import opened Resume
  import Text

  // ---------------------------------------------------------------- entry lists

  /** Field f of every entry carrying the id takes the value v; every other entry, and
      every other field, is left as it was. */
  function UpdateById(xs: seq<Entry>, id: string, f: FieldName, v: string): (r: seq<Entry>)
    ensures |r| == |xs|
    ensures forall i :: 0 <= i < |xs| && xs[i].id != id ==> r[i] == xs[i]
    ensures forall i :: 0 <= i < |xs| && xs[i].id == id ==>
              SameKind(r[i], xs[i]) && GetField(r[i], f) == (if GetField(xs[i], f).Some? then Some(v) else None)
              && forall g :: g != f ==> GetField(r[i], g) == GetField(xs[i], g)
  {
    if xs == [] then []
    else [if xs[0].id == id then SetField(xs[0], f, v) else xs[0]] + UpdateById(xs[1..], id, f, v)
  }

  /** The entries that do not carry the id, in their original order. */
  function RemoveById(xs: seq<Entry>, id: string): (r: seq<Entry>)
    ensures |r| <= |xs|
    ensures forall e :: e in r <==> e in xs && e.id != id
  {
    if xs == [] then []
    else (if xs[0].id == id then [] else [xs[0]]) + RemoveById(xs[1..], id)
  }

  predicate HasId(xs: seq<Entry>, id: string) {
    exists i :: 0 <= i < |xs| && xs[i].id == id
  }

  /** Removing an id that no entry carries leaves the list as it was. */
  lemma {:induction false} RemoveAbsent(xs: seq<Entry>, id: string)
    requires !HasId(xs, id)
    ensures RemoveById(xs, id) == xs
  {
    if xs != [] {
      assert xs[0].id != id;
      assert !HasId(xs[1..], id) by {
        forall i | 0 <= i < |xs[1..]| ensures xs[1..][i].id != id {
          assert xs[1..][i] == xs[i + 1];
        }
      }
      RemoveAbsent(xs[1..], id);
      assert xs == [xs[0]] + xs[1..];
    }
  }

  /** The list shrinks exactly when some entry carries the id. */
  lemma {:induction false} RemoveShrinksIff(xs: seq<Entry>, id: string)
    ensures |RemoveById(xs, id)| < |xs| <==> HasId(xs, id)
  {
    if xs != [] {
      RemoveShrinksIff(xs[1..], id);
      if HasId(xs[1..], id) {
        var i :| 0 <= i < |xs[1..]| && xs[1..][i].id == id;
        assert xs[i + 1].id == id;
      }
      if xs[0].id != id && HasId(xs, id) {
        var i :| 0 <= i < |xs| && xs[i].id == id;
        assert xs[1..][i - 1].id == id;
      }
    }
  }

  /** Removal distributes over concatenation, so it keeps the order of the survivors. */
  lemma {:induction false} RemoveAppend(xs: seq<Entry>, ys: seq<Entry>, id: string)
    ensures RemoveById(xs + ys, id) == RemoveById(xs, id) + RemoveById(ys, id)
  {
    if xs == [] {
      assert xs + ys == ys;
    } else {
      assert (xs + ys)[1..] == xs[1..] + ys;
      RemoveAppend(xs[1..], ys, id);
    }
  }

  /** Pressing "Remove" twice has the effect of pressing it once. */
  lemma RemoveIdempotent(xs: seq<Entry>, id: string)
    ensures RemoveById(RemoveById(xs, id), id) == RemoveById(xs, id)
  {
    RemoveAbsent(RemoveById(xs, id), id);
  }

  /** Removing an entry just added under a fresh id restores the list. */
  lemma AddThenRemove(xs: seq<Entry>, e: Entry)
    requires !HasId(xs, e.id)
    ensures RemoveById(xs + [e], e.id) == xs
  {
    RemoveAppend(xs, [e], e.id);
    RemoveAbsent(xs, e.id);
    assert [e][1..] == [];
  }

  /** Editing a field other than the id never changes which ids are present. */
  lemma UpdateKeepsIds(xs: seq<Entry>, id: string, f: FieldName, v: string)
    requires f != Id
    ensures forall i :: 0 <= i < |xs| ==> UpdateById(xs, id, f, v)[i].id == xs[i].id
  {
    var r := UpdateById(xs, id, f, v);
    forall i | 0 <= i < |xs| ensures r[i].id == xs[i].id {
      if xs[i].id == id {
        assert GetField(r[i], Id) == GetField(xs[i], Id);
      }
    }
  }

  // ---------------------------------------------------------------- document edits

  /** `handlePersonalChange`: the named personal field takes the typed value. */
  function ChangePersonal(d: ResumeData, f: PersonalField, v: string): (r: ResumeData)
    ensures GetPersonal(r.personal, f) == v
    ensures forall g :: g != f ==> GetPersonal(r.personal, g) == GetPersonal(d.personal, g)
    ensures r.summary == d.summary && forall k :: Section(r, k) == Section(d, k)
  {
    d.(personal := SetPersonal(d.personal, f, v))
  }

  /** `handleDynamicChange`: field f of the entries of section k whose id is `id` takes v. */
  function ChangeEntry(d: ResumeData, k: SectionKey, id: string, f: FieldName, v: string): (r: ResumeData)
    ensures |Section(r, k)| == |Section(d, k)|
    ensures forall i :: 0 <= i < |Section(d, k)| && Section(d, k)[i].id != id ==> Section(r, k)[i] == Section(d, k)[i]
    ensures forall i :: 0 <= i < |Section(d, k)| && Section(d, k)[i].id == id ==>
              SameKind(Section(r, k)[i], Section(d, k)[i])
              && GetField(Section(r, k)[i], f) == (if GetField(Section(d, k)[i], f).Some? then Some(v) else None)
              && forall g :: g != f ==> GetField(Section(r, k)[i], g) == GetField(Section(d, k)[i], g)
    ensures forall k' :: k' != k ==> Section(r, k') == Section(d, k')
    ensures r.personal == d.personal && r.summary == d.summary
    ensures WellTyped(d) ==> WellTyped(r)
  {
    var r := WithSection(d, k, UpdateById(Section(d, k), id, f, v));
    assert WellTyped(d) ==> WellTyped(r) by {
      if WellTyped(d) {
        forall k', i | 0 <= i < |Section(r, k')| ensures FitsSection(k', Section(r, k')[i]) {
          if k' == k {
            assert SameKind(Section(r, k)[i], Section(d, k)[i]) || Section(r, k)[i] == Section(d, k)[i];
            assert FitsSection(k, Section(d, k)[i]);
          }
        }
      }
    }
    r
  }

  /** `addDynamicItem`: the new entry goes to the end of section k. */
  function AddItem(d: ResumeData, k: SectionKey, e: Entry): (r: ResumeData)
    ensures Section(r, k) == Section(d, k) + [e]
    ensures forall k' :: k' != k ==> Section(r, k') == Section(d, k')
    ensures r.personal == d.personal && r.summary == d.summary
    ensures WellTyped(d) && FitsSection(k, e) ==> WellTyped(r)
  {
    var r := WithSection(d, k, Section(d, k) + [e]);
    assert WellTyped(d) && FitsSection(k, e) ==> WellTyped(r) by {
      if WellTyped(d) && FitsSection(k, e) {
        forall k', i | 0 <= i < |Section(r, k')| ensures FitsSection(k', Section(r, k')[i]) {
          if k' == k && i < |Section(d, k)| {
            assert Section(r, k)[i] == Section(d, k)[i];
          }
        }
      }
    }
    r
  }

  /** An "Add" button: a blank entry of the section's kind under a fresh id. */
  function AddBlank(d: ResumeData, k: SectionKey, id: string): (r: ResumeData)
    ensures |Section(r, k)| == |Section(d, k)| + 1 && Section(r, k)[..|Section(d, k)|] == Section(d, k)
    ensures var e := Section(r, k)[|Section(d, k)|];
      e.id == id && FitsSection(k, e) && forall f :: f != Id && GetField(e, f).Some? ==> GetField(e, f) == Some("")
    ensures forall k' :: k' != k ==> Section(r, k') == Section(d, k')
    ensures r.personal == d.personal && r.summary == d.summary
    ensures WellTyped(d) ==> WellTyped(r)
  {
    AddItem(d, k, BlankEntry(k, id))
  }

  /** `removeDynamicItem`: every entry of section k with that id is dropped. */
  function RemoveItem(d: ResumeData, k: SectionKey, id: string): (r: ResumeData)
    ensures forall e :: e in Section(r, k) <==> e in Section(d, k) && e.id != id
    ensures forall k' :: k' != k ==> Section(r, k') == Section(d, k')
    ensures r.personal == d.personal && r.summary == d.summary
    ensures WellTyped(d) ==> WellTyped(r)
  {
    WithSection(d, k, RemoveById(Section(d, k), id))
  }

  /** Adding an entry under a fresh id and then removing it gives back the document. */
  lemma AddThenRemoveItem(d: ResumeData, k: SectionKey, e: Entry)
    requires !HasId(Section(d, k), e.id)
    ensures RemoveItem(AddItem(d, k, e), k, e.id) == d
  {
    AddThenRemove(Section(d, k), e);
    Extensionality(RemoveItem(AddItem(d, k, e), k, e.id), d);
  }

  // ---------------------------------------------------------------- Enhance with AI

  const BlankDescriptionAlert: string := "Please enter a description to enhance."
  const EnhanceFailedAlert: string := "Failed to enhance the description. Please try again."

  /** The sections that offer the "Enhance with AI" button. */
  predicate Enhanceable(k: SectionKey) {
    k == ProjectsKey || k == PositionsKey || k == InternshipsKey
  }

  /** What a form keeps between renders: the document and the id being enhanced. */
  datatype FormState = FormState(data: ResumeData, enhancingId: Option<string>)

  /** What the language-model call gives back: its text, or an error. */
  datatype AiOutcome = AiText(text: string) | AiError

  /** The synchronous half of `handleEnhanceWithAi`: a blank description raises an alert
      and changes nothing; otherwise the spinner is shown on the entry and a request is
      sent (the returned flag). */
  function EnhanceBegin(s: FormState, k: SectionKey, id: string, description: string)
    : (r: (FormState, Option<string>, bool))
    requires Enhanceable(k)
    ensures Text.IsBlank(description) <==> r.2 == false
    ensures Text.IsBlank(description) ==> r.0 == s && r.1 == Some(BlankDescriptionAlert)
    ensures !Text.IsBlank(description) ==> r.0 == s.(enhancingId := Some(id)) && r.1 == None
  {
    if Text.IsBlank(description) then (s, Some(BlankDescriptionAlert), false)
    else (s.(enhancingId := Some(id)), None, true)
  }

  /** The asynchronous half: on success every entry of section k with that id gets the
      trimmed reply as its description; on failure an alert is raised and the document is
      untouched; either way the spinner is cleared. */
  function EnhanceFinish(s: FormState, k: SectionKey, id: string, outcome: AiOutcome)
    : (r: (FormState, Option<string>))
    requires Enhanceable(k)
    ensures r.0.enhancingId == None
    ensures outcome.AiError? ==> r.0.data == s.data && r.1 == Some(EnhanceFailedAlert)
    ensures outcome.AiText? ==> r.1 == None && r.0.data == ChangeEntry(s.data, k, id, Description, Text.Trim(outcome.text))
  {
    match outcome
    case AiError => (FormState(s.data, None), Some(EnhanceFailedAlert))
    case AiText(t) => (FormState(ChangeEntry(s.data, k, id, Description, Text.Trim(t)), None), None)
  }

  /** A successful enhancement leaves each targeted project, position or internship with a
      description that has no whitespace at either end, and touches nothing else. */
  lemma EnhanceWritesTrimmed(s: FormState, k: SectionKey, id: string, t: string, i: nat)
    requires Enhanceable(k) && WellTyped(s.data)
    requires i < |Section(s.data, k)| && Section(s.data, k)[i].id == id
    ensures var d' := EnhanceFinish(s, k, id, AiText(t)).0.data;
      GetField(Section(d', k)[i], Description) == Some(Text.Trim(t))
      && (|Text.Trim(t)| > 0 ==> !Text.IsWhitespace(Text.Trim(t)[0]) && !Text.IsWhitespace(Text.Trim(t)[|Text.Trim(t)| - 1]))
  {
    assert FitsSection(k, Section(s.data, k)[i]);
  }

  /** A whole round trip from a non-blank description always ends with no spinner, whatever
      the service replies, and leaves the other sections alone. */
  lemma EnhanceRoundTrip(s: FormState, k: SectionKey, id: string, description: string, outcome: AiOutcome)
    requires Enhanceable(k) && !Text.IsBlank(description)
    ensures var (mid, _, sent) := EnhanceBegin(s, k, id, description);
      sent && mid.enhancingId == Some(id)
      && EnhanceFinish(mid, k, id, outcome).0.enhancingId == None
      && forall k' :: k' != k ==> Section(EnhanceFinish(mid, k, id, outcome).0.data, k') == Section(s.data, k')
  {
  }
}

=== FILE: layout.dfy ===
/** The vocabulary both pagination engines share. The off-screen preview's `<main>` is
    seen as a list of blocks (its children) with measured heights; an engine packs them
    into pages of fragments; a fragment stands for the markup the engine emits (a whole
    block, or a slice of a splittable block's list with or without its heading). Reading
    the fragments of all pages in order yields a sequence of atoms, the indivisible
    pieces of the document, and that is what the order theorems compare. */
module Layout {
  import opened Wrappers

  /** The rendered page height in CSS pixels (A4 at 96 dpi). */
  const PageHeightPx: int := 1123

  /** A child of `<main>`:
      - Unsplittable: a section without `data-splittable="true"`;
      - Splittable: a splittable section whose first child is its heading and whose
        second child is the list of items;
      - Malformed: marked splittable but lacking a heading or a list element.
      `height` is the measured outer height (box height plus vertical margins). */
  datatype Block =
    | Unsplittable(height: int)
    | Splittable(height: int, headingHeight: int, itemHeights: seq<int>)
    | Malformed(height: int)

  /** A piece of a page:
      - Whole(i): the outer markup of block i;
      - Part(i, withHeading, lo, hi): block i's wrapper holding its heading (when
        withHeading) and items lo..hi of its list;
      - AllContent: the whole inner markup of `<main>`, the engines' fallback. */
  datatype Fragment =
    | Whole(i: nat)
    | Part(i: nat, withHeading: bool, lo: nat, hi: nat)
    | AllContent

  type Page = seq<Fragment>

  /** An indivisible piece of the document: an unsplittable (or malformed) block, the
      heading of a splittable block, or one item of its list. */
  datatype Atom = BlockAtom(i: nat) | HeadingAtom(i: nat) | ItemAtom(i: nat, j: nat)

  /** Height available to content on the first page and on every later page. */
  datatype Budget = Budget(first: int, next: int)

  /** The height available to the page with index k. */
  function BudgetAt(b: Budget, k: nat): int {
    if k == 0 then b.first else b.next
  }

  /** The measured page furniture. `footerHr` is the optional rule below `<main>`, read
      as height 0 when the preview does not render it. */
  datatype Chrome = Chrome(header: int, mainHr: int, footer: int, footerHr: Option<int>, mainPaddingTop: int)

  /** Which reading of the engines: the code as written, or with its evident slips
      repaired (see the Findings of the README). */
  datatype Mode = AsWritten | Corrected

  /** The loop variables of an engine: the pages pushed so far, the fragments of the page
      being filled, the height accounted to that page, and whether it is the first. */
  datatype State = State(pages: seq<Page>, cur: Page, curH: int, isFirst: bool)

  const Start: State := State([], [], 0, true)

  /** The value `isFirstPage` takes when a section is moved to a new page: as written it
      is cleared even when nothing was pushed, so the page still being filled, which is
      the first page, is then filled against the later pages' budget. Both engines share
      this slip. */
  function AfterMove(mode: Mode, isFirst: bool, pushed: bool): bool {
    match mode
    case AsWritten => false
    case Corrected => isFirst && !pushed
  }

  /** The height available to the page being filled. */
  function Avail(b: Budget, isFirst: bool): int {
    if isFirst then b.first else b.next
  }

  // ---------------------------------------------------------------- heights

  /** xs[lo] + ... + xs[hi - 1] */
  function SumRange(xs: seq<int>, lo: nat, hi: nat): int
    requires hi <= |xs|
    decreases hi
  {
    if hi <= lo then 0 else SumRange(xs, lo, hi - 1) + xs[hi - 1]
  }

  lemma {:induction false} SumRangePositive(xs: seq<int>, lo: nat, hi: nat)
    requires hi <= |xs|
    requires forall k :: 0 <= k < |xs| ==> xs[k] > 0
    ensures SumRange(xs, lo, hi) >= 0
    ensures lo < hi ==> SumRange(xs, lo, hi) > 0
    decreases hi
  {
    if lo < hi {
      SumRangePositive(xs, lo, hi - 1);
    }
  }

  /** The height an engine accounts for a fragment. */
  function FragHeight(bs: seq<Block>, f: Fragment): int {
    match f
    case Whole(i) => if i < |bs| then bs[i].height else 0
    case Part(i, wh, lo, hi) =>
      if i < |bs| && bs[i].Splittable? && hi <= |bs[i].itemHeights| then
        (if wh then bs[i].headingHeight else 0) + SumRange(bs[i].itemHeights, lo, hi)
      else 0
    case AllContent => SumHeights(bs, |bs|)
  }

  /** The heights of the first k blocks added up. */
  function SumHeights(bs: seq<Block>, k: nat): int
    requires k <= |bs|
  {
    if k == 0 then 0 else SumHeights(bs, k - 1) + bs[k - 1].height
  }

  function PageHeight(bs: seq<Block>, p: Page): int {
    if p == [] then 0 else PageHeight(bs, p[..|p| - 1]) + FragHeight(bs, p[|p| - 1])
  }

  lemma PageHeightAppend(bs: seq<Block>, p: Page, f: Fragment)
    ensures PageHeight(bs, p + [f]) == PageHeight(bs, p) + FragHeight(bs, f)
  {
    assert (p + [f])[..|p|] == p;
  }

  // ---------------------------------------------------------------- atoms

  /** The items lo..hi of block i, in order. */
  function ItemAtoms(i: nat, lo: nat, hi: nat): (r: seq<Atom>)
    ensures |r| == if lo <= hi then hi - lo else 0
    decreases hi
  {
    if hi <= lo then [] else ItemAtoms(i, lo, hi - 1) + [ItemAtom(i, hi - 1)]
  }

  /** The atoms of block i: a splittable block is its heading then each item. */
  function BlockAtoms(bs: seq<Block>, i: nat): seq<Atom> {
    if i >= |bs| then []
    else match bs[i]
      case Splittable(_, _, items) => [HeadingAtom(i)] + ItemAtoms(i, 0, |items|)
      case _ => [BlockAtom(i)]
  }

  /** The atoms of the first k blocks in document order: what the reader should meet. */
  function Expected(bs: seq<Block>, k: nat): seq<Atom>
    requires k <= |bs|
  {
    if k == 0 then [] else Expected(bs, k - 1) + BlockAtoms(bs, k - 1)
  }

  function FragAtoms(bs: seq<Block>, f: Fragment): seq<Atom> {
    match f
    case Whole(i) => BlockAtoms(bs, i)
    case Part(i, wh, lo, hi) => (if wh then [HeadingAtom(i)] else []) + ItemAtoms(i, lo, hi)
    case AllContent => Expected(bs, |bs|)
  }

  function PageAtoms(bs: seq<Block>, p: Page): seq<Atom> {
    if p == [] then [] else PageAtoms(bs, p[..|p| - 1]) + FragAtoms(bs, p[|p| - 1])
  }

  /** What a reader meets going through the pages in order. */
  function Flatten(bs: seq<Block>, ps: seq<Page>): seq<Atom> {
    if ps == [] then [] else Flatten(bs, ps[..|ps| - 1]) + PageAtoms(bs, ps[|ps| - 1])
  }

  lemma PageAtomsAppend(bs: seq<Block>, p: Page, f: Fragment)
    ensures PageAtoms(bs, p + [f]) == PageAtoms(bs, p) + FragAtoms(bs, f)
  {
    assert (p + [f])[..|p|] == p;
  }

  lemma FlattenAppend(bs: seq<Block>, ps: seq<Page>, p: Page)
    ensures Flatten(bs, ps + [p]) == Flatten(bs, ps) + PageAtoms(bs, p)
  {
    assert (ps + [p])[..|ps|] == ps;
  }

  /** Everything an engine state has laid out so far, pushed or pending. */
  function Placed(bs: seq<Block>, s: State): seq<Atom> {
    Flatten(bs, s.pages) + PageAtoms(bs, s.cur)
  }

  /** Adding a fragment to the page being filled lays out its atoms next. */
  lemma PlacedAdd(bs: seq<Block>, s: State, f: Fragment, h: int, first: bool)
    ensures Placed(bs, State(s.pages, s.cur + [f], h, first)) == Placed(bs, s) + FragAtoms(bs, f)
  {
    PageAtomsAppend(bs, s.cur, f);
  }

  /** Pushing the page being filled and starting a new one with fragment f. */
  lemma PlacedPushStart(bs: seq<Block>, s: State, f: Fragment, h: int, first: bool)
    ensures Placed(bs, State(s.pages + [s.cur], [f], h, first)) == Placed(bs, s) + FragAtoms(bs, f)
  {
    FlattenAppend(bs, s.pages, s.cur);
    assert [f][..0] == [];
    assert PageAtoms(bs, [f]) == FragAtoms(bs, f);
  }

  /** Pushing the page being filled (extended by f) and starting an empty one. */
  lemma PlacedPushWith(bs: seq<Block>, s: State, f: Fragment, h: int, first: bool)
    ensures Placed(bs, State(s.pages + [s.cur + [f]], [], h, first)) == Placed(bs, s) + FragAtoms(bs, f)
  {
    FlattenAppend(bs, s.pages, s.cur + [f]);
    PageAtomsAppend(bs, s.cur, f);
  }

  /** Pushing the page being filled and starting an empty one lays out nothing new. */
  lemma PlacedPush(bs: seq<Block>, s: State, h: int, first: bool)
    ensures Placed(bs, State(s.pages + [s.cur], [], h, first)) == Placed(bs, s)
  {
    FlattenAppend(bs, s.pages, s.cur);
  }

  /** The off-screen preview as the engine finds it: whether each anchor element exists,
      the chrome's heights and the blocks of `<main>`. */
  datatype SourceDoc = SourceDoc(hasHeader: bool, hasFooter: bool, hasMain: bool, hasMainHr: bool,
                                 chrome: Chrome, blocks: seq<Block>)

  // ---------------------------------------------------------------- the end of a run

  /** After the last block: push the page being filled if it holds anything, and fall
      back to one page holding all of `<main>` when no page was produced although
      `<main>` has content. */
  function Finish(bs: seq<Block>, s: State): (ps: seq<Page>)
    ensures |bs| > 0 ==> ps != []
  {
    var ps := if s.cur != [] then s.pages + [s.cur] else s.pages;
    if ps == [] && |bs| > 0 then [[AllContent]] else ps
  }

  /** Whatever the engine placed is exactly what the pages show; the fallback shows all
      of `<main>`. */
  lemma FinishPlaced(bs: seq<Block>, s: State)
    requires Placed(bs, s) == Expected(bs, |bs|)
    ensures Flatten(bs, Finish(bs, s)) == Expected(bs, |bs|)
  {
    var ps := if s.cur != [] then s.pages + [s.cur] else s.pages;
    if s.cur != [] {
      FlattenAppend(bs, s.pages, s.cur);
    }
  }

  // ---------------------------------------------------------------- hypotheses

  /** No section is marked splittable without a heading and a list. */
  predicate NoMalformed(bs: seq<Block>) {
    forall i :: 0 <= i < |bs| ==> !bs[i].Malformed?
  }

  /** Every splittable section has at least one item in its list. */
  predicate ListsNonEmpty(bs: seq<Block>) {
    forall i :: 0 <= i < |bs| && bs[i].Splittable? ==> |bs[i].itemHeights| > 0
  }

  /** Every measured height is positive: every rendered element takes up room. */
  predicate PositiveHeights(bs: seq<Block>) {
    forall i :: 0 <= i < |bs| ==>
      bs[i].height > 0
      && (bs[i].Splittable? ==>
            bs[i].headingHeight > 0 && forall j :: 0 <= j < |bs[i].itemHeights| ==> bs[i].itemHeights[j] > 0)
  }

  /** The contents a page may hold and still exceed its budget, none of which a page
      break could divide: one atom, or (when `pair` is allowed) a heading followed by
      the first item of its list. */
  predicate Indivisible(atoms: seq<Atom>, pair: bool) {
    |atoms| == 1 || (pair && |atoms| == 2 && atoms[0].HeadingAtom? && atoms[1] == ItemAtom(atoms[0].i, 0))
  }

  /** A page keeps to budget B when its accounted height is at most B or its content is
      indivisible. */
  predicate KeepsBudget(bs: seq<Block>, p: Page, B: int, pair: bool) {
    PageHeight(bs, p) <= B || Indivisible(PageAtoms(bs, p), pair)
  }

  /** Every page keeps to the budget of its position. */
  predicate AllKeepBudget(bs: seq<Block>, ps: seq<Page>, b: Budget, pair: bool) {
    forall k :: 0 <= k < |ps| ==> KeepsBudget(bs, ps[k], BudgetAt(b, k), pair)
  }

  // ---------------------------------------------------------------- the budget invariant

  /** A page made of fragments of positive height: empty exactly when its height is 0. */
  predicate Positive(bs: seq<Block>, p: Page) {
    PageHeight(bs, p) >= 0 && (p != [] ==> PageHeight(bs, p) > 0)
  }

  /** What holds between two steps of an engine in its corrected reading, where v is the
      page being filled together with any fragment still pending: the accounted height is
      v's height, v keeps to the budget the engine is filling it against, that budget is
      the one of v's position, and every page pushed so far keeps to its budget. */
  predicate BudgetInv(bs: seq<Block>, b: Budget, pair: bool, s: State, v: Page) {
    s.curH == PageHeight(bs, v)
    && Positive(bs, v) && Positive(bs, s.cur)
    && (v != [] ==> KeepsBudget(bs, v, Avail(b, s.isFirst), pair))
    && (s.isFirst <==> s.pages == [])
    && AllKeepBudget(bs, s.pages, b, pair)
  }

  /** Pushing the page being filled keeps every pushed page within its budget. */
  lemma PushKeepsBudget(bs: seq<Block>, b: Budget, pair: bool, s: State, v: Page)
    requires BudgetInv(bs, b, pair, s, v) && v != []
    ensures AllKeepBudget(bs, s.pages + [v], b, pair)
  {
    assert Avail(b, s.isFirst) == BudgetAt(b, |s.pages|);
    forall k | 0 <= k < |s.pages + [v]| ensures KeepsBudget(bs, (s.pages + [v])[k], BudgetAt(b, k), pair) {
      if k < |s.pages| {
        assert (s.pages + [v])[k] == s.pages[k];
      }
    }
  }

  /** A page of one fragment has that fragment's height and atoms. */
  lemma SingleFragment(bs: seq<Block>, f: Fragment)
    ensures PageHeight(bs, [f]) == FragHeight(bs, f)
    ensures PageAtoms(bs, [f]) == FragAtoms(bs, f)
  {
    assert [f][..0] == [];
  }

  /** Appending the next item to a pending part adds that item's height. */
  lemma PartGrows(bs: seq<Block>, i: nat, wh: bool, lo: nat, j: nat)
    requires i < |bs| && bs[i].Splittable? && lo <= j < |bs[i].itemHeights|
    ensures FragHeight(bs, Part(i, wh, lo, j + 1)) == FragHeight(bs, Part(i, wh, lo, j)) + bs[i].itemHeights[j]
  {
  }

  /** Every block contributes at least one atom, so a non-empty `<main>` has atoms. */
  lemma {:induction false} ExpectedNonEmpty(bs: seq<Block>, k: nat)
    requires 0 < k <= |bs|
    ensures Expected(bs, k) != []
  {
    assert |BlockAtoms(bs, k - 1)| > 0;
  }

  /** If the engine placed every atom and every pushed page as well as the page being
      filled keep to budget, so do the finished pages. */
  lemma FinishKeepsBudget(bs: seq<Block>, b: Budget, pair: bool, s: State)
    requires BudgetInv(bs, b, pair, s, s.cur)
    requires Placed(bs, s) == Expected(bs, |bs|)
    ensures AllKeepBudget(bs, Finish(bs, s), b, pair)
  {
    if s.cur != [] {
      PushKeepsBudget(bs, b, pair, s, s.cur);
    } else if |bs| > 0 {
      ExpectedNonEmpty(bs, |bs|);
      assert s.pages != [];
    }
  }

  // ---------------------------------------------------------------- item steps

  /** Splitting before item j: the pending part goes out and item j alone is pending. */
  lemma ItemsSplitStep(bs: seq<Block>, i: nat, j: nat, wh: bool, lo: nat, P: seq<Atom>, E: seq<Atom>)
    requires lo <= j
    requires P + FragAtoms(bs, Part(i, wh, lo, j)) == E + ([HeadingAtom(i)] + ItemAtoms(i, 0, j))
    ensures (P + FragAtoms(bs, Part(i, wh, lo, j))) + FragAtoms(bs, Part(i, false, j, j + 1))
            == E + ([HeadingAtom(i)] + ItemAtoms(i, 0, j + 1))
  {
    assert ItemAtoms(i, j, j + 1) == [ItemAtom(i, j)];
    assert FragAtoms(bs, Part(i, false, j, j + 1)) == [ItemAtom(i, j)];
    assert ItemAtoms(i, 0, j + 1) == ItemAtoms(i, 0, j) + [ItemAtom(i, j)];
  }

  /** Item j joins the pending part. */
  lemma ItemsGrowStep(bs: seq<Block>, i: nat, j: nat, wh: bool, lo: nat, P: seq<Atom>, E: seq<Atom>)
    requires lo <= j
    requires P + FragAtoms(bs, Part(i, wh, lo, j)) == E + ([HeadingAtom(i)] + ItemAtoms(i, 0, j))
    ensures P + FragAtoms(bs, Part(i, wh, lo, j + 1)) == E + ([HeadingAtom(i)] + ItemAtoms(i, 0, j + 1))
  {
    assert ItemAtoms(i, lo, j + 1) == ItemAtoms(i, lo, j) + [ItemAtom(i, j)];
    assert ItemAtoms(i, 0, j + 1) == ItemAtoms(i, 0, j) + [ItemAtom(i, j)];
    var F := FragAtoms(bs, Part(i, wh, lo, j));
    assert FragAtoms(bs, Part(i, wh, lo, j + 1)) == F + [ItemAtom(i, j)];
    assert [HeadingAtom(i)] + ItemAtoms(i, 0, j + 1) == ([HeadingAtom(i)] + ItemAtoms(i, 0, j)) + [ItemAtom(i, j)];
    AppendBoth(P, F, E, [HeadingAtom(i)] + ItemAtoms(i, 0, j), ItemAtom(i, j));
  }

  /** Appending the same element to both sides of an equation between concatenations. */
  lemma AppendBoth<T>(P: seq<T>, F: seq<T>, E: seq<T>, H: seq<T>, x: T)
    requires P + F == E + H
    ensures P + (F + [x]) == E + (H + [x])
  {
    assert P + (F + [x]) == (P + F) + [x];
    assert E + (H + [x]) == (E + H) + [x];
  }

  // ---------------------------------------------------------------- orphaned headings

  /** A fragment showing a section's heading and none of its items. */
  predicate HeadingOnly(f: Fragment) {
    f.Part? && f.withHeading && f.lo >= f.hi
  }

  /** A page holding no heading-only fragment. */
  predicate NoHeadingOnly(p: Page) {
    forall m :: 0 <= m < |p| ==> !HeadingOnly(p[m])
  }

  /** No page ends a section after its heading while holding anything else: a heading
      without items stands only on a page of its own. */
  predicate NoOrphans(ps: seq<Page>) {
    forall k :: 0 <= k < |ps| ==> NoHeadingOnly(ps[k]) || |ps[k]| == 1
  }

  lemma NoOrphansPush(ps: seq<Page>, p: Page)
    requires NoOrphans(ps)
    requires NoHeadingOnly(p) || |p| == 1
    ensures NoOrphans(ps + [p])
  {
    forall k | 0 <= k < |ps + [p]| ensures NoHeadingOnly((ps + [p])[k]) || |(ps + [p])[k]| == 1 {
      if k < |ps| {
        assert (ps + [p])[k] == ps[k];
      }
    }
  }

  lemma NoHeadingOnlyAppend(p: Page, f: Fragment)
    requires NoHeadingOnly(p) && !HeadingOnly(f)
    ensures NoHeadingOnly(p + [f])
  {
    forall m | 0 <= m < |p + [f]| ensures !HeadingOnly((p + [f])[m]) {
      if m < |p| {
        assert (p + [f])[m] == p[m];
      }
    }
  }

  /** Closing the run keeps headings with their items. */
  lemma FinishNoOrphans(bs: seq<Block>, s: State)
    requires NoOrphans(s.pages) && NoHeadingOnly(s.cur)
    ensures NoOrphans(Finish(bs, s))
  {
    if s.cur != [] {
      NoOrphansPush(s.pages, s.cur);
    }
    var ps := if s.cur != [] then s.pages + [s.cur] else s.pages;
    if ps == [] && |bs| > 0 {
      assert NoHeadingOnly([AllContent]);
    }
  }
}

=== FILE: modern_form.dfy ===
/** The handlers only the ModernCreative editor has: the summary box, the single
    comma-separated skills box, and saving a cropped photo or logo. */
module ModernForm {
  import opened Wrappers
  import opened Resume
  import Text

  /** Typing in the summary box replaces the summary and nothing else. */
  function ChangeSummary(d: ResumeData, v: string): (r: ResumeData)
    ensures r.summary == v && r.personal == d.personal
    ensures forall k :: Section(r, k) == Section(d, k)
  {
    d.(summary := v)
  }

  /** The id this template always gives its one skills entry. */
  const SkillSetId: string := "skill-set-1"

  /** `handleSkillsChange`: the skills list collapses to one entry holding the whole box. */
  function ChangeSkills(d: ResumeData, v: string): (r: ResumeData)
    ensures |r.skills| == 1 && r.skills[0].Skill? && r.skills[0].id == SkillSetId
    ensures r.skills[0].category == "" && r.skills[0].skills == v
    ensures forall k :: k != SkillsKey ==> Section(r, k) == Section(d, k)
    ensures r.personal == d.personal && r.summary == d.summary
    ensures WellTyped(d) ==> WellTyped(r)
  {
    var r := WithSection(d, SkillsKey, [Skill(SkillSetId, "", v)]);
    assert WellTyped(d) ==> WellTyped(r) by {
      if WellTyped(d) {
        forall k, i | 0 <= i < |Section(r, k)| ensures FitsSection(k, Section(r, k)[i]) {
          if k != SkillsKey {
            assert Section(r, k)[i] == Section(d, k)[i];
          }
        }
      }
    }
    r
  }

  /** The `skills` field of each entry ('' for an entry of another kind). */
  function SkillStrings(xs: seq<Entry>): (r: seq<string>)
    ensures |r| == |xs|
    ensures forall i :: 0 <= i < |xs| && xs[i].Skill? ==> r[i] == xs[i].skills
  {
    if xs == [] then [] else [if xs[0].Skill? then xs[0].skills else ""] + SkillStrings(xs[1..])
  }

  /** What the skills box shows: every entry's skills joined with ", ". */
  function SkillsBox(d: ResumeData): string {
    Text.Join(SkillStrings(d.skills), ", ")
  }

  /** Typing into the box and reading it back gives exactly what was typed. */
  lemma SkillsBoxRoundTrip(d: ResumeData, v: string)
    ensures SkillsBox(ChangeSkills(d, v)) == v
  {
    var r := ChangeSkills(d, v);
    assert SkillStrings(r.skills) == [v] by {
      assert r.skills[1..] == [];
    }
  }

  /** Once the box has been edited, writing back what it shows is a no-op: the editor has
      reached its fixed point. */
  lemma SkillsBoxStable(d: ResumeData, v: string)
    ensures ChangeSkills(ChangeSkills(d, v), SkillsBox(ChangeSkills(d, v))) == ChangeSkills(d, v)
  {
    SkillsBoxRoundTrip(d, v);
    var r := ChangeSkills(d, v);
    Extensionality(ChangeSkills(r, v), r);
  }

  /** A document built by another editor with several skill groups shows them all in the
      box, comma separated, and the first edit folds them into one entry. */
  lemma SkillsBoxOfTwoGroups(d: ResumeData, a: string, b: string)
    requires d.skills == [Skill("s1", "Languages", a), Skill("s2", "Tools", b)]
    ensures SkillsBox(d) == a + ", " + b
    ensures |ChangeSkills(d, SkillsBox(d)).skills| == 1
  {
    assert d.skills[1..][1..] == [];
    assert SkillStrings(d.skills) == [a, b];
    assert [a, b][1..] == [b];
    assert Text.Join([b], ", ") == b;
  }

  /** Which image the crop dialog was opened for (`editingImageFor`). */
  datatype ImageSlot = PhotoSlot | LogoSlot

  /** The field an image slot is stored in. */
  function SlotField(s: ImageSlot): PersonalField {
    match s
    case PhotoSlot => PhotoField
    case LogoSlot => LogoField
  }

  /** `handleCropImage`: with no finished crop selection nothing happens; otherwise the
      encoded image goes into the photo or logo field the dialog was opened for, and
      nowhere when it was opened for neither. */
  function SaveCrop(d: ResumeData, cropReady: bool, editing: Option<ImageSlot>, image: string): (r: ResumeData)
    ensures !cropReady || editing.None? ==> r == d
    ensures cropReady && editing.Some? ==>
      r.personal.photo == (if editing.value == PhotoSlot then image else d.personal.photo)
      && r.personal.logo == (if editing.value == LogoSlot then image else d.personal.logo)
    ensures forall f :: f != PhotoField && f != LogoField ==> GetPersonal(r.personal, f) == GetPersonal(d.personal, f)
    ensures r.summary == d.summary && forall k :: Section(r, k) == Section(d, k)
  {
    if !cropReady then d
    else match editing
      case None => d
      case Some(slot) => d.(personal := SetPersonal(d.personal, SlotField(slot), image))
  }
}

=== FILE: modern_preview.dfy ===
/** The ModernCreative preview (templates/ModernCreative/ResumePreview.tsx): the colour
    palette chosen for the sidebar, the contact rows, the skill tags cut out of the
    comma-separated skills text, and which sidebar and main-column sections are shown. */
module ModernPreview {
  import opened Resume
  import opened Preview
  import Text
  import ModernForm

  // ---------------------------------------------------------------- palette

  /** The colours drawn on a sidebar of the theme colour. */
  datatype Palette = Palette(textPrimary: string, textSecondary: string, border: string, tagBg: string)

  const SlateHex: string := "#0f172a"

  /** The six sidebar colours the theme picker offers, with the text, border and tag colours
      worked out for each. */
  const Palettes: map<string, Palette> := map[
    "#0f172a" := Palette("#E7E8EA", "#9FA2A9", "#3F4554", "#272E3F"),
    "#7f1d1d" := Palette("#F2E8E8", "#CBA4A4", "#984A4A", "#8B3333"),
    "#1e3a8a" := Palette("#E8EBF3", "#A5B0D0", "#4B61A1", "#344D95"),
    "#581c87" := Palette("#EEE8F3", "#BCA4CF", "#79499F", "#683293"),
    "#134e4a" := Palette("#E7EDEC", "#A0B8B6", "#42716E", "#2A5F5C"),
    "#000000" := Palette("#E5E5E5", "#999999", "#333333", "#191919")
  ]

  /** The palette of a theme colour; a colour not in the table gets the slate palette. */
  function PaletteFor(theme: string): (p: Palette)
    ensures p in Palettes.Values
    ensures theme in Palettes ==> p == Palettes[theme]
  {
    if theme in Palettes then Palettes[theme] else Palettes[SlateHex]
  }

  /** Any colour outside the table is drawn exactly as slate is. */
  lemma UnknownThemeIsSlate(theme: string)
    requires theme !in Palettes
    ensures PaletteFor(theme) == PaletteFor(SlateHex)
  {
  }

  /** Different colours of the table never share a palette, so no listed colour is
      mistaken for another or for the fallback. */
  lemma PalettesDistinct(t: string, u: string)
    requires t in Palettes && u in Palettes && t != u
    ensures PaletteFor(t) != PaletteFor(u)
  {
  }

  // ---------------------------------------------------------------- contact rows

  datatype ContactKind = EmailRow | PhoneRow | BirthRow | LinkedinRow | GithubRow

  datatype ContactRow = ContactRow(kind: ContactKind, value: string)

  /** The personal field a contact row shows. */
  function ContactValue(p: PersonalDetails, k: ContactKind): string {
    match k
    case EmailRow => p.email
    case PhoneRow => p.contact
    case BirthRow => p.dob
    case LinkedinRow => p.linkedin
    case GithubRow => p.github
  }

  const ContactOrder: seq<ContactKind> := [EmailRow, PhoneRow, BirthRow, LinkedinRow, GithubRow]

  /** The rows of the Contact block: one per non-empty field, in the order e-mail, phone,
      date of birth, LinkedIn, GitHub. */
  function ContactRows(p: PersonalDetails): seq<ContactRow> {
    Keep(seq(5, k requires 0 <= k < 5 => ContactRow(ContactOrder[k], ContactValue(p, ContactOrder[k]))),
         seq(5, k requires 0 <= k < 5 => ContactValue(p, ContactOrder[k]) != ""))
  }

  /** A contact row is shown exactly when its field is filled in, and shows that field. */
  lemma ContactRowsIff(p: PersonalDetails, k: ContactKind)
    ensures ContactRow(k, ContactValue(p, k)) in ContactRows(p) <==> ContactValue(p, k) != ""
    ensures forall r :: r in ContactRows(p) ==> r.value == ContactValue(p, r.kind) && r.value != ""
  {
    var xs := seq(5, k requires 0 <= k < 5 => ContactRow(ContactOrder[k], ContactValue(p, ContactOrder[k])));
    var fl := seq(5, k requires 0 <= k < 5 => ContactValue(p, ContactOrder[k]) != "");
    assert Distinct(xs);
    var m := match k case EmailRow => 0 case PhoneRow => 1 case BirthRow => 2 case LinkedinRow => 3 case GithubRow => 4;
    assert xs[m] == ContactRow(k, ContactValue(p, k));
    KeepIff(xs, fl, m);
  }

  // ---------------------------------------------------------------- skill tags

  /** A tag as it is drawn: not empty, free of commas and of surrounding white space. */
  predicate IsTag(t: string) {
    t != "" && ',' !in t && !Text.IsWhitespace(t[0]) && !Text.IsWhitespace(t[|t| - 1])
  }

  /** A piece trimmed: a tag, or empty when the piece was blank. */
  function TrimPiece(p: string): (t: string)
    requires ',' !in p
    ensures t == "" || IsTag(t)
  {
    Text.TrimKeepsCharOut(p, ',');
    Text.Trim(p)
  }

  /** The trimmed pieces that are not blank, in order. */
  function TrimmedNonBlank(parts: seq<string>): (ts: seq<string>)
    requires forall k :: 0 <= k < |parts| ==> ',' !in parts[k]
    ensures forall k :: 0 <= k < |ts| ==> IsTag(ts[k])
    ensures |ts| <= |parts|
  {
    if parts == [] then []
    else
      var t := TrimPiece(parts[0]);
      var rest := TrimmedNonBlank(parts[1..]);
      if t == "" then rest
      else
        TagsCons(t, rest);
        [t] + rest
  }

  lemma TagsCons(t: string, ts: seq<string>)
    requires IsTag(t) && forall k :: 0 <= k < |ts| ==> IsTag(ts[k])
    ensures forall k :: 0 <= k < |[t] + ts| ==> IsTag(([t] + ts)[k])
  {
    forall k | 1 <= k < |[t] + ts| ensures IsTag(([t] + ts)[k]) {
      assert ([t] + ts)[k] == ts[k - 1];
    }
  }

  /** The tags of one skills text: `skills.split(',')`, each piece trimmed, blank pieces
      dropped. */
  function Tags(s: string): (ts: seq<string>)
    ensures forall k :: 0 <= k < |ts| ==> IsTag(ts[k])
  {
    TrimmedNonBlank(Text.Split(s, ','))
  }

  /** The tags of every skills entry, group after group. */
  function SkillTags(xs: seq<Entry>): (ts: seq<string>)
    ensures forall k :: 0 <= k < |ts| ==> IsTag(ts[k])
  {
    if xs == [] then [] else Tags(ModernForm.SkillStrings(xs[..1])[0]) + SkillTags(xs[1..])
  }

  lemma TrimmedNonBlankSpace(p: string, rest: seq<string>)
    requires ',' !in p && forall k :: 0 <= k < |rest| ==> ',' !in rest[k]
    ensures TrimmedNonBlank([" " + p] + rest) == TrimmedNonBlank([p] + rest)
  {
    Text.TrimSpacePrefix(p);
    assert ([" " + p] + rest)[1..] == rest;
    assert ([p] + rest)[1..] == rest;
  }

  /** Splitting a comma-joined text, the space after each comma goes with the next piece. */
  lemma SplitAfterSpace(s: string)
    ensures Text.Split(" " + s, ',') == [" " + Text.Split(s, ',')[0]] + Text.Split(s, ',')[1..]
  {
    assert (" " + s)[1..] == s;
    assert [(" " + s)[0]] + Text.Split(s, ',')[0] == " " + Text.Split(s, ',')[0];
  }

  lemma TrimmedNonBlankCons(t: string, rest: seq<string>)
    requires IsTag(t) && forall k :: 0 <= k < |rest| ==> ',' !in rest[k]
    ensures TrimmedNonBlank([t] + rest) == [t] + TrimmedNonBlank(rest)
  {
    Text.TrimOfTrimmed(t);
    assert ([t] + rest)[1..] == rest;
  }

  /** A tag followed by a comma and a space: the tag, then the tags of what follows. */
  lemma TagsOfCons(t: string, rest: string)
    requires IsTag(t)
    ensures Tags(t + ", " + rest) == [t] + Tags(rest)
  {
    assert t + ", " + rest == t + [','] + (" " + rest);
    TagsAfterComma(t, " " + rest);
    TagsOfSpaced(rest);
  }

  lemma TagsAfterComma(t: string, x: string)
    requires IsTag(t)
    ensures Tags(t + [','] + x) == [t] + TrimmedNonBlank(Text.Split(x, ','))
  {
    Text.SplitAtFirst(t, ',', x);
    TrimmedNonBlankCons(t, Text.Split(x, ','));
  }

  lemma TagsOfSpaced(rest: string)
    ensures TrimmedNonBlank(Text.Split(" " + rest, ',')) == Tags(rest)
  {
    var ps := Text.Split(rest, ',');
    SplitAfterSpace(rest);
    TrimmedNonBlankSpace(ps[0], ps[1..]);
    assert [ps[0]] + ps[1..] == ps;
  }

  /** Tags written out the way the editor shows them, comma and space between each, come
      back as the same tags. */
  lemma {:induction false} TagsOfJoin(ts: seq<string>)
    requires forall k :: 0 <= k < |ts| ==> IsTag(ts[k])
    ensures Tags(Text.Join(ts, ", ")) == ts
    decreases |ts|
  {
    if |ts| == 0 {
      TagsOfEmpty();
    } else if |ts| == 1 {
      TagsOfTag(ts[0]);
    } else {
      TagsOfJoin(ts[1..]);
      TagsOfCons(ts[0], Text.Join(ts[1..], ", "));
      assert Text.Join(ts, ", ") == ts[0] + ", " + Text.Join(ts[1..], ", ");
      assert ts == [ts[0]] + ts[1..];
    }
  }

  /** An empty skills text has no tags. */
  lemma TagsOfEmpty()
    ensures Tags("") == []
  {
    assert Text.Split("", ',') == [""];
    assert Text.Trim("") == "";
  }

  /** A single tag reads back as itself. */
  lemma TagsOfTag(t: string)
    requires IsTag(t)
    ensures Tags(t) == [t]
  {
    Text.SplitNoSeparator(t, ',');
    TrimmedNonBlankCons(t, []);
  }

  /** Tags are a normal form: writing them out and reading them back changes nothing. */
  lemma TagsNormalForm(s: string)
    ensures Tags(Text.Join(Tags(s), ", ")) == Tags(s)
  {
    TagsOfJoin(Tags(s));
  }

  /** The tags the preview draws after the skills box was set to tags written out with
      ", " are those tags. */
  lemma TagsAfterSkillsEdit(d: ResumeData, ts: seq<string>)
    requires forall k :: 0 <= k < |ts| ==> IsTag(ts[k])
    ensures SkillTags(ModernForm.ChangeSkills(d, Text.Join(ts, ", ")).skills) == ts
  {
    var v := Text.Join(ts, ", ");
    SkillTagsOfSingleton(ModernForm.ChangeSkills(d, v).skills);
    TagsOfJoin(ts);
  }

  lemma SkillTagsOfSingleton(xs: seq<Entry>)
    requires |xs| == 1 && xs[0].Skill?
    ensures SkillTags(xs) == Tags(xs[0].skills)
  {
    assert xs == [xs[0]];
    SkillTagsOfOne(xs[0]);
  }

  lemma SkillTagsOfOne(e: Entry)
    requires e.Skill?
    ensures SkillTags([e]) == Tags(e.skills)
  {
    assert [e][..1] == [e] && [e][1..] == [];
    assert ModernForm.SkillStrings([e])[0] == e.skills;
  }

  // ---------------------------------------------------------------- sections

  const SidebarTitles: seq<string> := ["Contact", "Education", "Skills", "Languages"]
  const MainTitles: seq<string> := ["Professional Summary", "Experience", "Projects", "Achievements", "Activities"]

  /** Contact is always shown; the other sidebar blocks when their list is non-empty. */
  function SidebarFlags(d: ResumeData): seq<bool> {
    [true, |d.education| > 0, |d.skills| > 0, |d.languages| > 0]
  }

  /** The summary when it is non-empty, the lists when non-empty, the activities when one
      of them has a non-blank description. */
  function MainFlags(d: ResumeData): seq<bool> {
    [d.summary != "", |d.internships| > 0, |d.projects| > 0, |d.achievements| > 0, AnyWithContent(d.activities)]
  }

  function Sidebar(d: ResumeData): seq<string> {
    Keep(SidebarTitles, SidebarFlags(d))
  }

  function MainColumn(d: ResumeData): seq<string> {
    Keep(MainTitles, MainFlags(d))
  }

  /** Each sidebar block is shown exactly when its condition holds. */
  lemma SidebarShownIff(d: ResumeData, k: nat)
    requires k < 4
    ensures SidebarTitles[k] in Sidebar(d) <==> SidebarFlags(d)[k]
  {
    assert Distinct(SidebarTitles);
    KeepIff(SidebarTitles, SidebarFlags(d), k);
  }

  /** Each main-column section is shown exactly when its condition holds. */
  lemma MainShownIff(d: ResumeData, k: nat)
    requires k < 5
    ensures MainTitles[k] in MainColumn(d) <==> MainFlags(d)[k]
  {
    assert Distinct(MainTitles);
    KeepIff(MainTitles, MainFlags(d), k);
  }

  /** The title of an entry ('' for kinds without one). */
  function TitleOf(e: Entry): string {
    match GetField(e, Title)
    case Some(t) => t
    case None => ""
  }

  /** What an activity shows: its title and the `renderHTML` text of its description,
      which is not empty when the description is not blank. */
  function ActivityCard(e: Entry): (c: (string, string))
    ensures HasContent(e) ==> c.1 != ""
    ensures '\n' !in c.1
  {
    (TitleOf(e), Text.RenderHtml(DescriptionOf(e)))
  }

  /** The activities the main column lists: one card per activity whose description is
      not blank, in order. */
  function ActivityCards(acts: seq<Entry>): (r: seq<(string, string)>)
    ensures |r| == |WithContent(acts)|
    ensures forall k :: 0 <= k < |r| ==> r[k].1 != "" && '\n' !in r[k].1
  {
    FilterMapOfFilter(acts, HasContent, ActivityCard);
    FilterMap(acts, HasContent, ActivityCard)
  }

  /** Card k shows the k-th activity with content. */
  lemma ActivityCardsOfShown(acts: seq<Entry>)
    ensures forall k :: 0 <= k < |ActivityCards(acts)| ==> ActivityCards(acts)[k] == ActivityCard(WithContent(acts)[k])
  {
    FilterMapOfFilter(acts, HasContent, ActivityCard);
  }
}

=== FILE: nitt_preview.dfy ===
/** The two institute-style previews (components/ResumePreview.tsx for the generic
    template, templates/OnCampusResume/ResumePreview.tsx for the on-campus one): the
    sections they render into `<main>`, in which order, which of them are marked
    splittable, and how each is shaped for the pagination engine that reads it. The two
    differ, for the engines, only in how the activities section holds its entries: the
    on-campus preview wraps them in one element, the generic preview puts them straight
    under the heading row. */
module NittPreview {
  import opened Resume
  import opened Layout
  import opened Preview
  import Text
  import OnCampus = OnCampusPagination
  import Components = ComponentsPagination

  const EducationTitle: string := "Educational Qualification"
  const AchievementsTitle: string := "Academic Achievements"
  const InternshipsTitle: string := "Internship Experience"
  const ProjectsTitle: string := "Projects"
  const SkillsTitle: string := "Technical Skills and Certifications"
  const PositionsTitle: string := "Positions of Responsibility"
  const ActivitiesTitle: string := "Extracurricular Activities"

  /** The section titles in the order the previews place them. */
  const Canonical: seq<string> :=
    [EducationTitle, AchievementsTitle, InternshipsTitle, ProjectsTitle, SkillsTitle, PositionsTitle, ActivitiesTitle]

  lemma CanonicalDistinct()
    ensures Distinct(Canonical)
  {
  }

  /** Whether the k-th section of `Canonical` is rendered for d: a list section when its
      list is non-empty, the activities when one of them has a non-blank description. */
  predicate Shows(d: ResumeData, k: nat) {
    match k
    case 0 => |d.education| > 0
    case 1 => |d.achievements| > 0
    case 2 => |d.internships| > 0
    case 3 => |d.projects| > 0
    case 4 => |d.skills| > 0
    case 5 => |d.positions| > 0
    case _ => AnyWithContent(d.activities)
  }

  /** The body of the activities section after its heading row: one wrapper holding an
      element per shown activity, or (as the generic preview has it) those elements
      themselves, each of two children, a title and a list of lines. */
  function ActivitiesBody(acts: seq<Entry>, wrapped: bool): (body: seq<nat>)
    ensures wrapped ==> body == [|WithContent(acts)|]
    ensures !wrapped ==> |body| == |WithContent(acts)| && forall k :: 0 <= k < |body| ==> body[k] == 2
  {
    var n := |WithContent(acts)|;
    if wrapped then [n] else seq(n, _ => 2)
  }

  /** Every section the previews know, in order, as it renders when shown. Education and
      skills are never split; the others are. */
  function AllSections(d: ResumeData, wrapped: bool): (ss: seq<SectionDom>)
    ensures |ss| == 7
  {
    [ SectionDom(EducationTitle, false, [1]),
      SectionDom(AchievementsTitle, true, [|d.achievements|]),
      SectionDom(InternshipsTitle, true, [|d.internships|]),
      SectionDom(ProjectsTitle, true, [|d.projects|]),
      SectionDom(SkillsTitle, false, [|d.skills|]),
      SectionDom(PositionsTitle, true, [|d.positions|]),
      SectionDom(ActivitiesTitle, true, ActivitiesBody(d.activities, wrapped)) ]
  }

  function Flags(d: ResumeData): (fl: seq<bool>)
    ensures |fl| == 7 && forall k :: 0 <= k < 7 ==> fl[k] == Shows(d, k)
  {
    seq(7, k requires 0 <= k < 7 => Shows(d, k))
  }

  /** The sections of `<main>`. */
  function Sections(d: ResumeData, wrapped: bool): seq<SectionDom> {
    Keep(AllSections(d, wrapped), Flags(d))
  }

  /** The on-campus preview's sections. */
  function OnCampusSections(d: ResumeData): seq<SectionDom> {
    Sections(d, true)
  }

  /** The generic preview's sections: as written the activities sit directly under the
      heading row; the corrected preview wraps them as the on-campus one does. */
  function GenericSections(d: ResumeData, mode: Mode): seq<SectionDom> {
    Sections(d, mode == Corrected)
  }

  lemma AllSectionsTitles(d: ResumeData, wrapped: bool, k: nat)
    requires k < 7
    ensures AllSections(d, wrapped)[k].title == Canonical[k]
  {
  }

  /** A section is rendered exactly when its data is present; this holds for both
      readings of the generic preview. */
  lemma SectionShownIff(d: ResumeData, wrapped: bool, k: nat)
    requires k < 7
    ensures Canonical[k] in Titles(Sections(d, wrapped)) <==> Shows(d, k)
  {
    var xs := AllSections(d, wrapped);
    var ss := Sections(d, wrapped);
    CanonicalDistinct();
    AllSectionsTitles(d, wrapped, k);
    if Canonical[k] in Titles(ss) {
      var i :| 0 <= i < |ss| && Titles(ss)[i] == Canonical[k];
      assert ss[i] in ss;
      var m :| 0 <= m < 7 && xs[m] == ss[i] && Flags(d)[m];
      AllSectionsTitles(d, wrapped, m);
    }
    if Shows(d, k) {
      KeepHas(xs, Flags(d), k);
      var i :| 0 <= i < |ss| && ss[i] == xs[k];
      assert Titles(ss)[i] == Canonical[k];
    }
  }

  /** Shown sections keep the order of `Canonical`. */
  lemma SectionsInOrder(d: ResumeData, wrapped: bool, a: nat, b: nat)
    requires a < b < 7 && Shows(d, a) && Shows(d, b)
    ensures var ts := Titles(Sections(d, wrapped));
      exists i, j :: 0 <= i < j < |ts| && ts[i] == Canonical[a] && ts[j] == Canonical[b]
  {
    var xs := AllSections(d, wrapped);
    var ss := Sections(d, wrapped);
    KeepOrder(xs, Flags(d), a, b);
    var i, j :| 0 <= i < j < |ss| && ss[i] == xs[a] && ss[j] == xs[b];
    AllSectionsTitles(d, wrapped, a);
    AllSectionsTitles(d, wrapped, b);
    assert Titles(ss)[i] == Canonical[a] && Titles(ss)[j] == Canonical[b];
  }

  // ---------------------------------------------------------------- feeding the engines

  /** Every section is one list under its heading, never losing anything to a split. */
  predicate AllWellShaped(ss: seq<SectionDom>) {
    forall k :: 0 <= k < |ss| ==> WellShaped(ss[k]) && LostWhenSplit(ss[k]) == 0
  }

  /** With the activities wrapped, every shown section is one list under its heading:
      either never split or holding at least one item. */
  lemma WrappedSectionsWellShaped(d: ResumeData)
    ensures AllWellShaped(Sections(d, true))
  {
    AnyWithContentIff(d.activities);
    var xs := AllSections(d, true);
    var ss := Sections(d, true);
    forall i | 0 <= i < |ss| ensures WellShaped(ss[i]) && LostWhenSplit(ss[i]) == 0 {
      assert ss[i] in ss;
      var m :| 0 <= m < 7 && xs[m] == ss[i] && Flags(d)[m];
      WellShapedAt(d, m);
    }
  }

  lemma WellShapedAt(d: ResumeData, k: nat)
    requires k < 7 && Shows(d, k)
    requires AnyWithContent(d.activities) <==> WithContent(d.activities) != []
    ensures WellShaped(AllSections(d, true)[k]) && |AllSections(d, true)[k].body| == 1
  {
  }

  /** The on-campus preview, measured and paginated: every section, heading and item is on
      exactly one page in document order, and (with every measured height positive) no
      heading ends a page without an item of its list. */
  lemma OnCampusPages(d: ResumeData, bs: seq<Block>, b: Budget, mode: Mode)
    requires MeasuresAll(OnCampusSections(d), bs)
    ensures Flatten(bs, OnCampus.Paginate(bs, b, mode)) == Expected(bs, |bs|)
    ensures PositiveHeights(bs) ==> NoOrphans(OnCampus.Paginate(bs, b, mode))
  {
    WrappedSectionsWellShaped(d);
    WellShapedFeedsEngines(OnCampusSections(d), bs);
    OnCampus.PaginateKeepsOrder(bs, b, mode);
    if PositiveHeights(bs) {
      OnCampus.PaginateNoOrphans(bs, b, mode);
    }
  }

  /** The corrected generic preview, measured and paginated by the corrected engine: every
      section, heading and item is on exactly one page in document order, and (with every
      measured height positive) every page keeps to its budget unless it holds one piece,
      or a heading with its first item, that no break could divide. */
  lemma GenericCorrectedPages(d: ResumeData, bs: seq<Block>, b: Budget)
    requires MeasuresAll(GenericSections(d, Corrected), bs)
    ensures Flatten(bs, Components.Paginate(bs, b, Corrected)) == Expected(bs, |bs|)
    ensures PositiveHeights(bs) ==> AllKeepBudget(bs, Components.Paginate(bs, b, Corrected), b, true)
  {
    WrappedSectionsWellShaped(d);
    WellShapedFeedsEngines(GenericSections(d, Corrected), bs);
    Components.PaginateKeepsOrder(bs, b, Corrected);
    if PositiveHeights(bs) {
      Components.CorrectedKeepsBudget(bs, b);
    }
  }

  /** As written, the generic preview's activities section offers the engine only its first
      activity as the list to split: with two or more activities shown, a split leaves
      all but the first on no page. */
  lemma GenericActivitiesAsWritten(d: ResumeData)
    requires |WithContent(d.activities)| >= 2
    ensures var ss := GenericSections(d, AsWritten);
      |ss| > 0 && ss[|ss| - 1].title == ActivitiesTitle
      && LostWhenSplit(ss[|ss| - 1]) == |WithContent(d.activities)| - 1
      && !WellShaped(ss[|ss| - 1])
  {
    AnyWithContentIff(d.activities);
    KeepLast(AllSections(d, false), Flags(d));
  }

  /** A 1200 px activities section with a 40 px heading, against a 900 px first page.
      The generic engine, as written, takes the first activity's element for the list,
      so it measures only that activity's two children of 30 and 200 px: the page holds
      270 px and the second activity is on no page. */
  lemma GenericDropsSecondActivity(mode: Mode)
    ensures var bs := [Splittable(1200, 40, [30, 200])];
      var ps := Components.Paginate(bs, Budget(900, 1000), mode);
      ps == [[Part(0, true, 0, 2)]] && PageHeight(bs, ps[0]) == 270
  {
    var bs := [Splittable(1200, 40, [30, 200])];
    var b := Budget(900, 1000);
    var st := State([], [Part(0, true, 0, 2)], 270, true);
    DroppedActivityPlaced(mode);
    Components.RunStep(bs, b, mode, 0, Start);
    Components.RunDone(bs, b, mode, st);
    assert Components.Run(bs, b, mode, 0, Start) == st;
    DroppedActivityHeight();
  }

  /** The section does not fit whole, so it is walked item by item: both children fit
      below the heading on the first page. */
  lemma DroppedActivityPlaced(mode: Mode)
    ensures Components.Place([Splittable(1200, 40, [30, 200])], Budget(900, 1000), mode, 0, Start)
            == State([], [Part(0, true, 0, 2)], 270, true)
  {
    var bs := [Splittable(1200, 40, [30, 200])];
    var b := Budget(900, 1000);
    var s0 := State([], [], 40, true);
    assert Components.Opening(b, mode, 40, Start) == s0;
    assert Components.Items(bs, b, mode, 0, 0, true, 0, s0) == Components.Items(bs, b, mode, 0, 1, true, 0, s0.(curH := 70));
    assert Components.Items(bs, b, mode, 0, 1, true, 0, s0.(curH := 70)) == Components.Items(bs, b, mode, 0, 2, true, 0, s0.(curH := 270));
    assert [] + [Part(0, true, 0, 2)] == [Part(0, true, 0, 2)];
  }

  lemma DroppedActivityHeight()
    ensures PageHeight([Splittable(1200, 40, [30, 200])], [Part(0, true, 0, 2)]) == 270
  {
    var bs := [Splittable(1200, 40, [30, 200])];
    assert FragHeight(bs, Part(0, true, 0, 2)) == 270;
    SingleFragment(bs, Part(0, true, 0, 2));
  }

  // ---------------------------------------------------------------- activity entries

  /** The lines shown for an activity: the non-blank lines of its description, as they
      are (these templates do not rewrite bold tags here). */
  function ActivityLines(e: Entry): (ls: seq<string>)
    ensures forall k :: 0 <= k < |ls| ==> !Text.IsBlank(ls[k]) && '\n' !in ls[k]
    ensures forall x :: x in ls <==> x in Text.Lines(DescriptionOf(e)) && !Text.IsBlank(x)
  {
    Text.NonBlankMembers(Text.Lines(DescriptionOf(e)));
    Text.NonBlankLines(DescriptionOf(e))
  }

  /** The bullets keep the order of the description's lines: the first line, unless it is
      blank, comes first, followed by the bullets of the rest. */
  lemma ActivityLinesAfterLine(e: Entry, a: string, b: string)
    requires DescriptionOf(e) == a + "\n" + b && '\n' !in a
    ensures ActivityLines(e) == (if Text.IsBlank(a) then [] else [a]) + Text.NonBlankLines(b)
  {
    Text.NonBlankLinesAfterLine(a, b);
  }

  /** A one-line description that is not blank is shown as that one line. */
  lemma OneLineActivity(e: Entry)
    requires '\n' !in DescriptionOf(e) && HasContent(e)
    ensures ActivityLines(e) == [DescriptionOf(e)]
  {
    Text.SplitNoSeparator(DescriptionOf(e), '\n');
    Text.NonBlankOfNonBlank([DescriptionOf(e)]);
  }
}

=== FILE: oncampus_pagination.dfy ===
/** The pagination engine of the on-campus template (templates/OnCampusResume/
    PaginatedResume.tsx): it walks the children of the off-screen `<main>` once,
    greedily filling pages; a section that does not fit is moved whole to a new page,
    unless it is splittable, in which case its list is split item by item. */
module OnCampusPagination {
  import opened Wrappers
  import opened Layout

  /** pt-16 plus pb-2 on the first page, pt-10 plus pb-2 on the others. */
  const FirstPagePaddingY: int := 64 + 8
  const NextPagePaddingY: int := 40 + 8
  /** The cushion subtracted from both budgets. */
  const OffsetBuffer: int := 5

  /** The two budgets derived from the measured chrome. */
  function Budgets(c: Chrome): (b: Budget)
    ensures b.next - b.first == 24 + c.header + c.mainHr + c.mainPaddingTop
  {
    Budget(PageHeightPx - FirstPagePaddingY - (c.header + c.mainHr) - c.footer - c.mainPaddingTop - OffsetBuffer,
           PageHeightPx - NextPagePaddingY - c.footer - OffsetBuffer)
  }

  /** The inner loop over the items of splittable block i; items lo..j are pending in a
      Part fragment (with the heading when wh) that is not yet on the page. */
  function Items(bs: seq<Block>, b: Budget, i: nat, j: nat, wh: bool, lo: nat, s: State): State
    requires i < |bs| && bs[i].Splittable? && lo <= j <= |bs[i].itemHeights|
    decreases |bs[i].itemHeights| - j
  {
    var items := bs[i].itemHeights;
    if j == |items| then
      if j > lo then State(s.pages, s.cur + [Part(i, wh, lo, j)], s.curH, s.isFirst) else s
    else if s.curH + items[j] > Avail(b, s.isFirst) then
      Items(bs, b, i, j + 1, false, j, State(s.pages + [s.cur + [Part(i, wh, lo, j)]], [], items[j], false))
    else
      Items(bs, b, i, j + 1, wh, lo, s.(curH := s.curH + items[j]))
  }

  /** One turn of the outer loop, for block i. */
  function Place(bs: seq<Block>, b: Budget, mode: Mode, i: nat, s: State): State
    requires i < |bs|
  {
    var avail := Avail(b, s.isFirst);
    if s.curH + bs[i].height <= avail then
      State(s.pages, s.cur + [Whole(i)], s.curH + bs[i].height, s.isFirst)
    else match bs[i]
      case Unsplittable(h) =>
        State(if s.cur != [] then s.pages + [s.cur] else s.pages, [Whole(i)], h,
              AfterMove(mode, s.isFirst, s.cur != []))
      case Malformed(h) =>
        State(s.pages, s.cur + [Whole(i)], s.curH + h, s.isFirst)
      case Splittable(_, hh, items) =>
        var firstItem := if |items| > 0 then items[0] else 0;
        var s1 := if s.curH > 0 && s.curH + hh + firstItem > avail then State(s.pages + [s.cur], [], 0, false) else s;
        Items(bs, b, i, 0, true, 0, s1.(curH := s1.curH + hh))
  }

  function Run(bs: seq<Block>, b: Budget, mode: Mode, i: nat, s: State): State
    requires i <= |bs|
    decreases |bs| - i
  {
    if i == |bs| then s else Run(bs, b, mode, i + 1, Place(bs, b, mode, i, s))
  }

  lemma RunStep(bs: seq<Block>, b: Budget, mode: Mode, i: nat, s: State)
    requires i < |bs|
    ensures Run(bs, b, mode, i, s) == Run(bs, b, mode, i + 1, Place(bs, b, mode, i, s))
  {
  }

  lemma RunDone(bs: seq<Block>, b: Budget, mode: Mode, s: State)
    ensures Run(bs, b, mode, |bs|, s) == s
  {
  }

  /** Any property that one turn of the outer loop keeps holds of the state the whole
      loop ends in. */
  lemma {:induction false} RunKeeps(bs: seq<Block>, b: Budget, mode: Mode, i: nat, s: State, inv: (nat, State) -> bool)
    requires i <= |bs| && inv(i, s)
    requires forall k: nat, t: State :: i <= k < |bs| && inv(k, t) ==> inv(k + 1, Place(bs, b, mode, k, t))
    ensures inv(|bs|, Run(bs, b, mode, i, s))
    decreases |bs| - i
  {
    if i < |bs| {
      RunStep(bs, b, mode, i, s);
      RunKeeps(bs, b, mode, i + 1, Place(bs, b, mode, i, s), inv);
    }
  }

  /** `calculatePages` on measured blocks. */
  function Paginate(bs: seq<Block>, b: Budget, mode: Mode): seq<Page> {
    Finish(bs, Run(bs, b, mode, 0, Start))
  }

  /** A recalculation: with no rendered preview, or one missing its header, footer, main
      or the rule after the header, the previous pages stay; otherwise the pages are
      recomputed, and then every section, heading and item appears exactly once and in
      document order. */
  function Recalculate(prev: seq<Page>, src: Option<SourceDoc>, mode: Mode): (r: seq<Page>)
    ensures src.None? ==> r == prev
    ensures src.Some? && !(src.value.hasHeader && src.value.hasFooter && src.value.hasMain && src.value.hasMainHr) ==> r == prev
    ensures src.Some? && src.value.hasHeader && src.value.hasFooter && src.value.hasMain && src.value.hasMainHr
            && ListsNonEmpty(src.value.blocks) ==>
              Flatten(src.value.blocks, r) == Expected(src.value.blocks, |src.value.blocks|)
  {
    match src
    case None => prev
    case Some(d) =>
      if !(d.hasHeader && d.hasFooter && d.hasMain && d.hasMainHr) then prev
      else
        var r := Paginate(d.blocks, Budgets(d.chrome), mode);
        assert ListsNonEmpty(d.blocks) ==> Flatten(d.blocks, r) == Expected(d.blocks, |d.blocks|) by {
          if ListsNonEmpty(d.blocks) {
            PaginateKeepsOrder(d.blocks, Budgets(d.chrome), mode);
          }
        }
        r
  }

  // ---------------------------------------------------------------- order

  lemma ItemsOrder(bs: seq<Block>, b: Budget, i: nat, j: nat, wh: bool, lo: nat, s: State, E: seq<Atom>)
    requires i < |bs| && bs[i].Splittable? && lo <= j <= |bs[i].itemHeights|
    requires lo < j || j < |bs[i].itemHeights|
    requires Placed(bs, s) + FragAtoms(bs, Part(i, wh, lo, j)) == E + ([HeadingAtom(i)] + ItemAtoms(i, 0, j))
    ensures Placed(bs, Items(bs, b, i, j, wh, lo, s)) == E + ([HeadingAtom(i)] + ItemAtoms(i, 0, |bs[i].itemHeights|))
  {
    var k, w, l, t := j, wh, lo, s;
    while k < |bs[i].itemHeights|
      invariant 0 <= l <= k <= |bs[i].itemHeights| && (l < k || k < |bs[i].itemHeights|)
      invariant Items(bs, b, i, j, wh, lo, s) == Items(bs, b, i, k, w, l, t)
      invariant Placed(bs, t) + FragAtoms(bs, Part(i, w, l, k)) == E + ([HeadingAtom(i)] + ItemAtoms(i, 0, k))
      decreases |bs[i].itemHeights| - k
    {
      k, w, l, t := ItemsOrderStep(bs, b, i, k, w, l, t, E);
    }
    assert Items(bs, b, i, k, w, l, t) == State(t.pages, t.cur + [Part(i, w, l, k)], t.curH, t.isFirst);
    PlacedAdd(bs, t, Part(i, w, l, k), t.curH, t.isFirst);
  }

  /** One turn of the inner loop keeps the order invariant. */
  lemma ItemsOrderStep(bs: seq<Block>, b: Budget, i: nat, j: nat, wh: bool, lo: nat, s: State, E: seq<Atom>)
      returns (j': nat, wh': bool, lo': nat, s': State)
    requires i < |bs| && bs[i].Splittable? && lo <= j < |bs[i].itemHeights|
    requires Placed(bs, s) + FragAtoms(bs, Part(i, wh, lo, j)) == E + ([HeadingAtom(i)] + ItemAtoms(i, 0, j))
    ensures j' == j + 1 && lo' < j'
    ensures Items(bs, b, i, j, wh, lo, s) == Items(bs, b, i, j', wh', lo', s')
    ensures Placed(bs, s') + FragAtoms(bs, Part(i, wh', lo', j')) == E + ([HeadingAtom(i)] + ItemAtoms(i, 0, j'))
  {
    var items := bs[i].itemHeights;
    if s.curH + items[j] > Avail(b, s.isFirst) {
      j', wh', lo', s' := j + 1, false, j, State(s.pages + [s.cur + [Part(i, wh, lo, j)]], [], items[j], false);
      SplitTurnOrder(bs, b, i, j, wh, lo, s, E);
    } else {
      j', wh', lo', s' := j + 1, wh, lo, s.(curH := s.curH + items[j]);
      GrowTurnOrder(bs, b, i, j, wh, lo, s, E);
    }
  }

  /** Item j does not fit: the page closes with the pending part, and item j starts a
      part of its own on a new page. */
  lemma SplitTurnOrder(bs: seq<Block>, b: Budget, i: nat, j: nat, wh: bool, lo: nat, s: State, E: seq<Atom>)
    requires i < |bs| && bs[i].Splittable? && lo <= j < |bs[i].itemHeights|
    requires s.curH + bs[i].itemHeights[j] > Avail(b, s.isFirst)
    requires Placed(bs, s) + FragAtoms(bs, Part(i, wh, lo, j)) == E + ([HeadingAtom(i)] + ItemAtoms(i, 0, j))
    ensures var s' := State(s.pages + [s.cur + [Part(i, wh, lo, j)]], [], bs[i].itemHeights[j], false);
      Items(bs, b, i, j, wh, lo, s) == Items(bs, b, i, j + 1, false, j, s')
      && Placed(bs, s') + FragAtoms(bs, Part(i, false, j, j + 1)) == E + ([HeadingAtom(i)] + ItemAtoms(i, 0, j + 1))
  {
    PlacedPushWith(bs, s, Part(i, wh, lo, j), bs[i].itemHeights[j], false);
    ItemsSplitStep(bs, i, j, wh, lo, Placed(bs, s), E);
  }

  /** Item j fits: it joins the pending part. */
  lemma GrowTurnOrder(bs: seq<Block>, b: Budget, i: nat, j: nat, wh: bool, lo: nat, s: State, E: seq<Atom>)
    requires i < |bs| && bs[i].Splittable? && lo <= j < |bs[i].itemHeights|
    requires s.curH + bs[i].itemHeights[j] <= Avail(b, s.isFirst)
    requires Placed(bs, s) + FragAtoms(bs, Part(i, wh, lo, j)) == E + ([HeadingAtom(i)] + ItemAtoms(i, 0, j))
    ensures var s' := s.(curH := s.curH + bs[i].itemHeights[j]);
      Items(bs, b, i, j, wh, lo, s) == Items(bs, b, i, j + 1, wh, lo, s')
      && Placed(bs, s') + FragAtoms(bs, Part(i, wh, lo, j + 1)) == E + ([HeadingAtom(i)] + ItemAtoms(i, 0, j + 1))
  {
    assert Placed(bs, s.(curH := s.curH + bs[i].itemHeights[j])) == Placed(bs, s);
    ItemsGrowStep(bs, i, j, wh, lo, Placed(bs, s), E);
  }

  lemma PlaceOrder(bs: seq<Block>, b: Budget, mode: Mode, i: nat, s: State)
    requires i < |bs| && ListsNonEmpty(bs)
    requires Placed(bs, s) == Expected(bs, i)
    ensures Placed(bs, Place(bs, b, mode, i, s)) == Expected(bs, i + 1)
  {
    if s.curH + bs[i].height > Avail(b, s.isFirst) && bs[i].Splittable? {
      PlaceSplittableOrder(bs, b, mode, i, s);
    } else {
      PlaceWholeOrder(bs, b, mode, i, s);
    }
  }

  /** A block placed whole lays out its single atom next. */
  lemma PlaceWholeOrder(bs: seq<Block>, b: Budget, mode: Mode, i: nat, s: State)
    requires i < |bs| && (s.curH + bs[i].height <= Avail(b, s.isFirst) || !bs[i].Splittable?)
    requires Placed(bs, s) == Expected(bs, i)
    ensures Placed(bs, Place(bs, b, mode, i, s)) == Expected(bs, i + 1)
  {
    assert Expected(bs, i + 1) == Expected(bs, i) + BlockAtoms(bs, i);
    if s.curH + bs[i].height <= Avail(b, s.isFirst) || bs[i].Malformed? {
      PlacedAdd(bs, s, Whole(i), s.curH + bs[i].height, s.isFirst);
    } else {
      var first' := AfterMove(mode, s.isFirst, s.cur != []);
      if s.cur != [] {
        PlacedPushStart(bs, s, Whole(i), bs[i].height, first');
      } else {
        PlacedAdd(bs, s, Whole(i), bs[i].height, first');
        assert s.cur + [Whole(i)] == [Whole(i)];
      }
    }
  }

  lemma PlaceSplittableOrder(bs: seq<Block>, b: Budget, mode: Mode, i: nat, s: State)
    requires i < |bs| && ListsNonEmpty(bs) && bs[i].Splittable?
    requires s.curH + bs[i].height > Avail(b, s.isFirst)
    requires Placed(bs, s) == Expected(bs, i)
    ensures Placed(bs, Place(bs, b, mode, i, s)) == Expected(bs, i + 1)
  {
    var s2 := OpenSplittable(bs, b, mode, i, s);
    var E := Expected(bs, i);
    assert FragAtoms(bs, Part(i, true, 0, 0)) == [HeadingAtom(i)];
    assert Placed(bs, s2) + FragAtoms(bs, Part(i, true, 0, 0)) == E + ([HeadingAtom(i)] + ItemAtoms(i, 0, 0));
    ItemsOrder(bs, b, i, 0, true, 0, s2, E);
    assert Expected(bs, i + 1) == E + BlockAtoms(bs, i);
  }

  /** Before its items, a splittable section that does not fit whole may close the page;
      either way nothing already placed is lost. */
  lemma OpenSplittable(bs: seq<Block>, b: Budget, mode: Mode, i: nat, s: State) returns (s2: State)
    requires i < |bs| && bs[i].Splittable?
    requires s.curH + bs[i].height > Avail(b, s.isFirst)
    ensures Place(bs, b, mode, i, s) == Items(bs, b, i, 0, true, 0, s2)
    ensures Placed(bs, s2) == Placed(bs, s)
  {
    var avail := Avail(b, s.isFirst);
    var hh, items := bs[i].headingHeight, bs[i].itemHeights;
    var firstItem := if |items| > 0 then items[0] else 0;
    var s1 := if s.curH > 0 && s.curH + hh + firstItem > avail then State(s.pages + [s.cur], [], 0, false) else s;
    s2 := s1.(curH := s1.curH + hh);
    if s.curH > 0 && s.curH + hh + firstItem > avail {
      PlacedPush(bs, s, 0, false);
    }
  }

  lemma RunOrder(bs: seq<Block>, b: Budget, mode: Mode, i: nat, s: State)
    requires i <= |bs| && ListsNonEmpty(bs)
    requires Placed(bs, s) == Expected(bs, i)
    ensures Placed(bs, Run(bs, b, mode, i, s)) == Expected(bs, |bs|)
  {
    forall k: nat, t: State | i <= k < |bs| && Placed(bs, t) == Expected(bs, k)
      ensures Placed(bs, Place(bs, b, mode, k, t)) == Expected(bs, k + 1)
    {
      PlaceOrder(bs, b, mode, k, t);
    }
    RunKeeps(bs, b, mode, i, s, (k: nat, t: State) => k <= |bs| && Placed(bs, t) == Expected(bs, k));
  }

  /** Whatever the budgets, and in both readings, the pages show every section, heading
      and list item exactly once and in document order, provided each splittable section
      has at least one item (a splittable section with an empty list loses its heading). */
  lemma PaginateKeepsOrder(bs: seq<Block>, b: Budget, mode: Mode)
    requires ListsNonEmpty(bs)
    ensures Flatten(bs, Paginate(bs, b, mode)) == Expected(bs, |bs|)
  {
    assert Placed(bs, Start) == [];
    RunOrder(bs, b, mode, 0, Start);
    FinishPlaced(bs, Run(bs, b, mode, 0, Start));
  }

  /** The heading of a splittable section with an empty list is accounted for but never
      emitted: here it is missing from the only page. */
  lemma EmptyListLosesHeading()
    ensures var bs := [Splittable(950, 30, []), Unsplittable(100)];
      Paginate(bs, Budget(900, 1000), AsWritten) == [[Whole(1)]]
      && Flatten(bs, [[Whole(1)]]) != Expected(bs, 2)
  {
    EmptyListPages();
    EmptyListAtoms();
  }

  lemma EmptyListPages()
    ensures Paginate([Splittable(950, 30, []), Unsplittable(100)], Budget(900, 1000), AsWritten) == [[Whole(1)]]
  {
    var bs := [Splittable(950, 30, []), Unsplittable(100)];
    var b := Budget(900, 1000);
    var s1 := Place(bs, b, AsWritten, 0, Start);
    assert s1 == State([], [], 30, true);
    var s2 := Place(bs, b, AsWritten, 1, s1);
    assert s2 == State([], [Whole(1)], 130, true);
    RunStep(bs, b, AsWritten, 0, Start);
    RunStep(bs, b, AsWritten, 1, s1);
    RunDone(bs, b, AsWritten, s2);
  }

  lemma EmptyListAtoms()
    ensures var bs := [Splittable(950, 30, []), Unsplittable(100)];
      Flatten(bs, [[Whole(1)]]) != Expected(bs, 2)
  {
    var bs := [Splittable(950, 30, []), Unsplittable(100)];
    assert BlockAtoms(bs, 0) == [HeadingAtom(0)];
    assert |Expected(bs, 2)| == 2;
    assert PageAtoms(bs, [Whole(1)]) == [BlockAtom(1)];
    assert Flatten(bs, [[Whole(1)]]) == [BlockAtom(1)];
  }

  // ---------------------------------------------------------------- budget

  lemma ItemsBudget(bs: seq<Block>, b: Budget, i: nat, j: nat, wh: bool, lo: nat, s: State)
    requires i < |bs| && bs[i].Splittable? && lo <= j <= |bs[i].itemHeights|
    requires (lo < j || j < |bs[i].itemHeights|) && PositiveHeights(bs)
    requires BudgetInv(bs, b, false, s, s.cur + [Part(i, wh, lo, j)])
    ensures BudgetInv(bs, b, false, Items(bs, b, i, j, wh, lo, s), Items(bs, b, i, j, wh, lo, s).cur)
  {
    var items := bs[i].itemHeights;
    var k, w, l, t := j, wh, lo, s;
    while k < |items|
      invariant 0 <= l <= k <= |items| && (l < k || k < |items|)
      invariant Items(bs, b, i, j, wh, lo, s) == Items(bs, b, i, k, w, l, t)
      invariant BudgetInv(bs, b, false, t, t.cur + [Part(i, w, l, k)])
      decreases |items| - k
    {
      k, w, l, t := ItemsBudgetStep(bs, b, i, k, w, l, t);
    }
    assert Items(bs, b, i, k, w, l, t) == State(t.pages, t.cur + [Part(i, w, l, k)], t.curH, t.isFirst);
  }

  /** One turn of the inner loop keeps the budget invariant. */
  lemma ItemsBudgetStep(bs: seq<Block>, b: Budget, i: nat, j: nat, wh: bool, lo: nat, s: State)
      returns (j': nat, wh': bool, lo': nat, s': State)
    requires i < |bs| && bs[i].Splittable? && lo <= j < |bs[i].itemHeights| && PositiveHeights(bs)
    requires BudgetInv(bs, b, false, s, s.cur + [Part(i, wh, lo, j)])
    ensures j' == j + 1 && lo' < j'
    ensures Items(bs, b, i, j, wh, lo, s) == Items(bs, b, i, j', wh', lo', s')
    ensures BudgetInv(bs, b, false, s', s'.cur + [Part(i, wh', lo', j')])
  {
    var items := bs[i].itemHeights;
    if s.curH + items[j] > Avail(b, s.isFirst) {
      j', wh', lo', s' := j + 1, false, j, State(s.pages + [s.cur + [Part(i, wh, lo, j)]], [], items[j], false);
      SplitBudgetStep(bs, b, i, j, wh, lo, s);
    } else {
      j', wh', lo', s' := j + 1, wh, lo, s.(curH := s.curH + items[j]);
      GrowBudgetStep(bs, b, i, j, wh, lo, s);
    }
  }

  /** Closing the page before item j keeps the invariant, item j alone pending. */
  lemma SplitBudgetStep(bs: seq<Block>, b: Budget, i: nat, j: nat, wh: bool, lo: nat, s: State)
    requires i < |bs| && bs[i].Splittable? && lo <= j < |bs[i].itemHeights| && PositiveHeights(bs)
    requires BudgetInv(bs, b, false, s, s.cur + [Part(i, wh, lo, j)])
    ensures var s' := State(s.pages + [s.cur + [Part(i, wh, lo, j)]], [], bs[i].itemHeights[j], false);
      BudgetInv(bs, b, false, s', s'.cur + [Part(i, false, j, j + 1)])
  {
    var items := bs[i].itemHeights;
    var v := s.cur + [Part(i, wh, lo, j)];
    var f := Part(i, false, j, j + 1);
    PushKeepsBudget(bs, b, false, s, v);
    SingleFragment(bs, f);
    assert [] + [f] == [f];
    assert FragAtoms(bs, f) == [ItemAtom(i, j)];
    assert SumRange(items, j, j + 1) == SumRange(items, j, j) + items[j];
  }

  /** Item j joining the pending part keeps the invariant. */
  lemma GrowBudgetStep(bs: seq<Block>, b: Budget, i: nat, j: nat, wh: bool, lo: nat, s: State)
    requires i < |bs| && bs[i].Splittable? && lo <= j < |bs[i].itemHeights| && PositiveHeights(bs)
    requires BudgetInv(bs, b, false, s, s.cur + [Part(i, wh, lo, j)])
    requires s.curH + bs[i].itemHeights[j] <= Avail(b, s.isFirst)
    ensures var s' := s.(curH := s.curH + bs[i].itemHeights[j]);
      BudgetInv(bs, b, false, s', s'.cur + [Part(i, wh, lo, j + 1)])
  {
    PageHeightAppend(bs, s.cur, Part(i, wh, lo, j));
    PageHeightAppend(bs, s.cur, Part(i, wh, lo, j + 1));
    PartGrows(bs, i, wh, lo, j);
  }

  lemma PlaceBudget(bs: seq<Block>, b: Budget, i: nat, s: State)
    requires i < |bs| && ListsNonEmpty(bs) && NoMalformed(bs) && PositiveHeights(bs)
    requires BudgetInv(bs, b, false, s, s.cur)
    ensures BudgetInv(bs, b, false, Place(bs, b, Corrected, i, s), Place(bs, b, Corrected, i, s).cur)
  {
    var avail := Avail(b, s.isFirst);
    if s.curH + bs[i].height <= avail {
      PageHeightAppend(bs, s.cur, Whole(i));
    } else if bs[i].Unsplittable? {
      SingleFragment(bs, Whole(i));
      if s.cur != [] {
        PushKeepsBudget(bs, b, false, s, s.cur);
      }
    } else {
      assert bs[i].Splittable?;
      PlaceSplittableBudget(bs, b, i, s);
    }
  }

  lemma PlaceSplittableBudget(bs: seq<Block>, b: Budget, i: nat, s: State)
    requires i < |bs| && ListsNonEmpty(bs) && PositiveHeights(bs) && bs[i].Splittable?
    requires s.curH + bs[i].height > Avail(b, s.isFirst)
    requires BudgetInv(bs, b, false, s, s.cur)
    ensures BudgetInv(bs, b, false, Place(bs, b, Corrected, i, s), Place(bs, b, Corrected, i, s).cur)
  {
    var avail := Avail(b, s.isFirst);
    var hh, items := bs[i].headingHeight, bs[i].itemHeights;
    var guard := s.curH > 0 && s.curH + hh + items[0] > avail;
    var s1 := if guard then State(s.pages + [s.cur], [], 0, false) else s;
    var s2 := s1.(curH := s1.curH + hh);
    assert Place(bs, b, Corrected, i, s) == Items(bs, b, i, 0, true, 0, s2);
    if guard {
      PushKeepsBudget(bs, b, false, s, s.cur);
    }
    PageHeightAppend(bs, s1.cur, Part(i, true, 0, 0));
    SingleFragment(bs, Part(i, true, 0, 0));
    assert FragAtoms(bs, Part(i, true, 0, 0)) == [HeadingAtom(i)];
    if s1.cur == [] {
      assert s1.cur + [Part(i, true, 0, 0)] == [Part(i, true, 0, 0)];
    }
    assert BudgetInv(bs, b, false, s2, s2.cur + [Part(i, true, 0, 0)]);
    ItemsBudget(bs, b, i, 0, true, 0, s2);
  }

  lemma RunBudget(bs: seq<Block>, b: Budget, i: nat, s: State)
    requires i <= |bs| && ListsNonEmpty(bs) && NoMalformed(bs) && PositiveHeights(bs)
    requires BudgetInv(bs, b, false, s, s.cur)
    ensures BudgetInv(bs, b, false, Run(bs, b, Corrected, i, s), Run(bs, b, Corrected, i, s).cur)
  {
    forall k: nat, t: State | i <= k < |bs| && BudgetInv(bs, b, false, t, t.cur)
      ensures BudgetInv(bs, b, false, Place(bs, b, Corrected, k, t), Place(bs, b, Corrected, k, t).cur)
    {
      PlaceBudget(bs, b, k, t);
    }
    RunKeeps(bs, b, Corrected, i, s, (k: nat, t: State) => BudgetInv(bs, b, false, t, t.cur));
  }

  /** In the corrected reading, every page keeps to the budget of its position (the
      first page's, then the later pages'), except a page that holds a single section,
      heading or item too tall for any page. */
  lemma CorrectedKeepsBudget(bs: seq<Block>, b: Budget)
    requires ListsNonEmpty(bs) && NoMalformed(bs) && PositiveHeights(bs)
    ensures AllKeepBudget(bs, Paginate(bs, b, Corrected), b, false)
  {
    assert BudgetInv(bs, b, false, Start, Start.cur);
    RunBudget(bs, b, 0, Start);
    assert Placed(bs, Start) == [];
    RunOrder(bs, b, Corrected, 0, Start);
    FinishKeepsBudget(bs, b, false, Run(bs, b, Corrected, 0, Start));
  }

  // ---------------------------------------------------------------- orphaned headings

  /** Between two blocks: the accounted height is at least that of the page being filled
      (the heading of an empty list is counted but never shown), the page holds no
      heading-only fragment, and no pushed page strands a heading. */
  predicate OrphanInv(bs: seq<Block>, s: State) {
    PageHeight(bs, s.cur) <= s.curH && Positive(bs, s.cur) && NoHeadingOnly(s.cur) && NoOrphans(s.pages)
  }

  /** Inside the item loop, with items lo..j pending: if only the heading is pending, the
      page is empty or the first item fits after it. */
  predicate PendingInv(bs: seq<Block>, b: Budget, i: nat, j: nat, wh: bool, lo: nat, s: State)
    requires i < |bs| && bs[i].Splittable? && |bs[i].itemHeights| > 0
  {
    (wh ==> lo == 0) && (!wh ==> lo < j)
    && PageHeight(bs, s.cur + [Part(i, wh, lo, j)]) <= s.curH
    && Positive(bs, s.cur) && NoHeadingOnly(s.cur) && NoOrphans(s.pages)
    && (wh && j == 0 ==> s.cur == [] || s.curH + bs[i].itemHeights[0] <= Avail(b, s.isFirst))
  }

  lemma ItemsNoOrphans(bs: seq<Block>, b: Budget, i: nat, j: nat, wh: bool, lo: nat, s: State)
    requires i < |bs| && bs[i].Splittable? && lo <= j <= |bs[i].itemHeights|
    requires |bs[i].itemHeights| > 0 && PositiveHeights(bs)
    requires PendingInv(bs, b, i, j, wh, lo, s)
    ensures OrphanInv(bs, Items(bs, b, i, j, wh, lo, s))
  {
    var k, w, l, t := j, wh, lo, s;
    while k < |bs[i].itemHeights|
      invariant 0 <= l <= k <= |bs[i].itemHeights|
      invariant Items(bs, b, i, j, wh, lo, s) == Items(bs, b, i, k, w, l, t)
      invariant PendingInv(bs, b, i, k, w, l, t)
      decreases |bs[i].itemHeights| - k
    {
      k, w, l, t := ItemsNoOrphansStep(bs, b, i, k, w, l, t);
    }
    ItemsEndNoOrphans(bs, b, i, k, w, l, t);
  }

  /** One turn of the inner loop keeps the pending invariant. */
  lemma ItemsNoOrphansStep(bs: seq<Block>, b: Budget, i: nat, j: nat, wh: bool, lo: nat, s: State)
      returns (j': nat, wh': bool, lo': nat, s': State)
    requires i < |bs| && bs[i].Splittable? && lo <= j < |bs[i].itemHeights|
    requires |bs[i].itemHeights| > 0 && PositiveHeights(bs)
    requires PendingInv(bs, b, i, j, wh, lo, s)
    ensures j' == j + 1 && lo' <= j'
    ensures Items(bs, b, i, j, wh, lo, s) == Items(bs, b, i, j', wh', lo', s')
    ensures PendingInv(bs, b, i, j', wh', lo', s')
  {
    var items := bs[i].itemHeights;
    if s.curH + items[j] > Avail(b, s.isFirst) {
      j', wh', lo', s' := j + 1, false, j, State(s.pages + [s.cur + [Part(i, wh, lo, j)]], [], items[j], false);
      assert Items(bs, b, i, j, wh, lo, s) == Items(bs, b, i, j', wh', lo', s');
      SplitNoOrphans(bs, b, i, j, wh, lo, s);
    } else {
      j', wh', lo', s' := j + 1, wh, lo, s.(curH := s.curH + items[j]);
      assert Items(bs, b, i, j, wh, lo, s) == Items(bs, b, i, j', wh', lo', s');
      PageHeightAppend(bs, s.cur, Part(i, wh, lo, j));
      PageHeightAppend(bs, s.cur, Part(i, wh, lo, j + 1));
      PartGrows(bs, i, wh, lo, j);
    }
  }

  /** At the end of the list the pending part holds at least one item. */
  lemma ItemsEndNoOrphans(bs: seq<Block>, b: Budget, i: nat, j: nat, wh: bool, lo: nat, s: State)
    requires i < |bs| && bs[i].Splittable? && lo <= j == |bs[i].itemHeights|
    requires |bs[i].itemHeights| > 0 && PositiveHeights(bs)
    requires PendingInv(bs, b, i, j, wh, lo, s)
    ensures OrphanInv(bs, Items(bs, b, i, j, wh, lo, s))
  {
    var f := Part(i, wh, lo, j);
    PageHeightAppend(bs, s.cur, f);
    SumRangePositive(bs[i].itemHeights, lo, j);
    NoHeadingOnlyAppend(s.cur, f);
  }

  /** Closing the page before item j strands no heading: a pending heading-only part is
      closed only on an otherwise empty page. */
  lemma SplitNoOrphans(bs: seq<Block>, b: Budget, i: nat, j: nat, wh: bool, lo: nat, s: State)
    requires i < |bs| && bs[i].Splittable? && lo <= j < |bs[i].itemHeights| && PositiveHeights(bs)
    requires PendingInv(bs, b, i, j, wh, lo, s)
    requires s.curH + bs[i].itemHeights[j] > Avail(b, s.isFirst)
    ensures PendingInv(bs, b, i, j + 1, false, j, State(s.pages + [s.cur + [Part(i, wh, lo, j)]], [], bs[i].itemHeights[j], false))
  {
    var items := bs[i].itemHeights;
    var f := Part(i, wh, lo, j);
    if HeadingOnly(f) {
      assert s.cur == [];
      assert s.cur + [f] == [f];
    } else {
      NoHeadingOnlyAppend(s.cur, f);
    }
    NoOrphansPush(s.pages, s.cur + [f]);
    SingleFragment(bs, Part(i, false, j, j + 1));
    assert [] + [Part(i, false, j, j + 1)] == [Part(i, false, j, j + 1)];
    assert SumRange(items, j, j + 1) == SumRange(items, j, j) + items[j];
  }

  lemma PlaceNoOrphans(bs: seq<Block>, b: Budget, mode: Mode, i: nat, s: State)
    requires i < |bs| && PositiveHeights(bs)
    requires OrphanInv(bs, s)
    ensures OrphanInv(bs, Place(bs, b, mode, i, s))
  {
    if s.curH + bs[i].height <= Avail(b, s.isFirst) || bs[i].Malformed? {
      PageHeightAppend(bs, s.cur, Whole(i));
      NoHeadingOnlyAppend(s.cur, Whole(i));
    } else if bs[i].Unsplittable? {
      SingleFragment(bs, Whole(i));
      if s.cur != [] {
        NoOrphansPush(s.pages, s.cur);
      }
      assert NoHeadingOnly([Whole(i)]);
    } else {
      PlaceSplittableNoOrphans(bs, b, mode, i, s);
    }
  }

  /** The look-ahead is what keeps the heading with its first item: when it does not
      close the page, either the page is empty or heading and first item fit on it. */
  lemma PlaceSplittableNoOrphans(bs: seq<Block>, b: Budget, mode: Mode, i: nat, s: State)
    requires i < |bs| && PositiveHeights(bs) && bs[i].Splittable?
    requires s.curH + bs[i].height > Avail(b, s.isFirst)
    requires OrphanInv(bs, s)
    ensures OrphanInv(bs, Place(bs, b, mode, i, s))
  {
    var avail := Avail(b, s.isFirst);
    var hh, items := bs[i].headingHeight, bs[i].itemHeights;
    if |items| == 0 {
      if s.curH > 0 && s.curH + hh > avail {
        NoOrphansPush(s.pages, s.cur);
      }
    } else {
      var guard := s.curH > 0 && s.curH + hh + items[0] > avail;
      var s1 := if guard then State(s.pages + [s.cur], [], 0, false) else s;
      var s2 := s1.(curH := s1.curH + hh);
      assert Place(bs, b, mode, i, s) == Items(bs, b, i, 0, true, 0, s2);
      LookaheadPending(bs, b, i, s, s2);
      ItemsNoOrphans(bs, b, i, 0, true, 0, s2);
    }
  }

  /** After the look-ahead and the heading, only the heading is pending. */
  lemma LookaheadPending(bs: seq<Block>, b: Budget, i: nat, s: State, s2: State)
    requires i < |bs| && bs[i].Splittable? && |bs[i].itemHeights| > 0 && PositiveHeights(bs)
    requires OrphanInv(bs, s)
    requires var hh, avail := bs[i].headingHeight, Avail(b, s.isFirst);
      s2 == (if s.curH > 0 && s.curH + hh + bs[i].itemHeights[0] > avail then State(s.pages + [s.cur], [], hh, false)
             else s.(curH := s.curH + hh))
    ensures PendingInv(bs, b, i, 0, true, 0, s2)
  {
    var avail := Avail(b, s.isFirst);
    var hh, items := bs[i].headingHeight, bs[i].itemHeights;
    var guard := s.curH > 0 && s.curH + hh + items[0] > avail;
    var s1 := if guard then State(s.pages + [s.cur], [], 0, false) else s;
    if guard {
      NoOrphansPush(s.pages, s.cur);
      assert s1.cur == [] && NoOrphans(s1.pages);
    } else {
      assert s1 == s;
      assert s.curH == 0 || s.curH + hh + items[0] <= avail;
    }
    PageHeightAppend(bs, s1.cur, Part(i, true, 0, 0));
    assert PageHeight(bs, s1.cur + [Part(i, true, 0, 0)]) <= s2.curH;
    assert Positive(bs, s2.cur) && NoHeadingOnly(s2.cur) && NoOrphans(s2.pages);
  }

  lemma RunNoOrphans(bs: seq<Block>, b: Budget, mode: Mode, i: nat, s: State)
    requires i <= |bs| && PositiveHeights(bs)
    requires OrphanInv(bs, s)
    ensures OrphanInv(bs, Run(bs, b, mode, i, s))
  {
    forall k: nat, t: State | i <= k < |bs| && OrphanInv(bs, t)
      ensures OrphanInv(bs, Place(bs, b, mode, k, t))
    {
      PlaceNoOrphans(bs, b, mode, k, t);
    }
    RunKeeps(bs, b, mode, i, s, (k: nat, t: State) => OrphanInv(bs, t));
  }

  /** In both readings, a heading is never left at the foot of a page that holds other
      content while its first item goes to the next page: a heading without items only
      ever stands alone on its page (when heading and first item do not fit even on an
      empty one). This holds for empty lists too: their headings are never shown. */
  lemma PaginateNoOrphans(bs: seq<Block>, b: Budget, mode: Mode)
    requires PositiveHeights(bs)
    ensures NoOrphans(Paginate(bs, b, mode))
  {
    RunNoOrphans(bs, b, mode, 0, Start);
    FinishNoOrphans(bs, Run(bs, b, mode, 0, Start));
  }

  /** As written, a first section too tall for the first page clears `isFirstPage`
      although nothing was pushed, so the first page is then filled against the later
      pages' budget: here it holds 950 + 40 = 990 px where 900 px are available. The
      corrected reading moves the second section to page two. */
  lemma AsWrittenFirstPageOverflows()
    ensures var bs := [Unsplittable(950), Unsplittable(40)];
      var ps := Paginate(bs, Budget(900, 1000), AsWritten);
      ps == [[Whole(0), Whole(1)]] && PageHeight(bs, ps[0]) == 990 && !AllKeepBudget(bs, ps, Budget(900, 1000), false)
    ensures Paginate([Unsplittable(950), Unsplittable(40)], Budget(900, 1000), Corrected) == [[Whole(0)], [Whole(1)]]
  {
    var bs := [Unsplittable(950), Unsplittable(40)];
    var b := Budget(900, 1000);
    var w1 := Place(bs, b, AsWritten, 0, Start);
    assert w1 == State([], [Whole(0)], 950, false);
    assert Place(bs, b, AsWritten, 1, w1) == State([], [Whole(0), Whole(1)], 990, false);
    assert Run(bs, b, AsWritten, 0, Start) == State([], [Whole(0), Whole(1)], 990, false);
    var ps := [[Whole(0), Whole(1)]];
    PageHeightAppend(bs, [Whole(0)], Whole(1));
    SingleFragment(bs, Whole(0));
    assert [Whole(0)] + [Whole(1)] == ps[0];
    PageAtomsAppend(bs, [Whole(0)], Whole(1));
    assert !KeepsBudget(bs, ps[0], BudgetAt(b, 0), false);
    var c1 := Place(bs, b, Corrected, 0, Start);
    assert c1 == State([], [Whole(0)], 950, true);
    assert Place(bs, b, Corrected, 1, c1) == State([[Whole(0)]], [Whole(1)], 40, false);
    assert Run(bs, b, Corrected, 0, Start) == State([[Whole(0)]], [Whole(1)], 40, false);
  }
}

=== FILE: pagination_scenarios.dfy ===
/** Worked inputs for the two pagination engines, side by side: the everyday cases where
    they agree, and the three places where they part ways (the look-ahead that keeps a
    heading with its first item, the split guard, and a section marked splittable that
    lacks its heading or list). Budgets are written Budget(first page, later pages). */
module PaginationScenarios {
  import opened Layout
  import OnCampus = OnCampusPagination
  import Components = ComponentsPagination

  /** A single short section fits on the first page. */
  lemma ShortResumeIsOnePage(mode: Mode)
    ensures OnCampus.Paginate([Unsplittable(200)], Budget(900, 1000), mode) == [[Whole(0)]]
    ensures Components.Paginate([Unsplittable(200)], Budget(900, 1000), mode) == [[Whole(0)]]
  {
    var bs := [Unsplittable(200)];
    var b := Budget(900, 1000);
    assert [] + [Whole(0)] == [Whole(0)];
    OnCampus.RunStep(bs, b, mode, 0, Start);
    Components.RunStep(bs, b, mode, 0, Start);
  }

  /** Two sections of 700 px cannot share a 900 px first page: the second moves whole to
      page two. */
  lemma TallSectionsGetAPageEach(mode: Mode)
    ensures OnCampus.Paginate([Unsplittable(700), Unsplittable(700)], Budget(900, 1000), mode) == [[Whole(0)], [Whole(1)]]
    ensures Components.Paginate([Unsplittable(700), Unsplittable(700)], Budget(900, 1000), mode) == [[Whole(0)], [Whole(1)]]
  {
    var bs := [Unsplittable(700), Unsplittable(700)];
    var b := Budget(900, 1000);
    var s1 := State([], [Whole(0)], 700, true);
    var s2 := State([[Whole(0)]], [Whole(1)], 700, false);
    OnCampus.RunStep(bs, b, mode, 0, Start);
    OnCampus.RunStep(bs, b, mode, 1, s1);
    assert OnCampus.Place(bs, b, mode, 0, Start) == s1;
    assert OnCampus.Place(bs, b, mode, 1, s1) == s2;
    Components.RunStep(bs, b, mode, 0, Start);
    Components.RunStep(bs, b, mode, 1, s1);
    assert Components.Place(bs, b, mode, 0, Start) == s1;
    assert Components.Place(bs, b, mode, 1, s1) == s2;
  }

  /** A 50 px heading and five items of 150 px against a 500 px first page: heading and
      three items fill it exactly (500 is not more than 500), the last two go on. */
  lemma ListSplitsAtItemBoundary(mode: Mode)
    ensures var bs := [Splittable(800, 50, [150, 150, 150, 150, 150])];
      OnCampus.Paginate(bs, Budget(500, 1000), mode) == [[Part(0, true, 0, 3)], [Part(0, false, 3, 5)]]
      && Components.Paginate(bs, Budget(500, 1000), mode) == [[Part(0, true, 0, 3)], [Part(0, false, 3, 5)]]
  {
    var bs := [Splittable(800, 50, [150, 150, 150, 150, 150])];
    var b := Budget(500, 1000);
    var s0 := State([], [], 50, true);
    var s3 := State([], [], 500, true);
    var s4 := State([[Part(0, true, 0, 3)]], [], 150, false);
    var s5 := State([[Part(0, true, 0, 3)]], [], 300, false);
    assert [] + [Part(0, true, 0, 3)] == [Part(0, true, 0, 3)];
    assert [] + [Part(0, false, 3, 5)] == [Part(0, false, 3, 5)];
    OnCampus.RunStep(bs, b, mode, 0, Start);
    assert OnCampus.Place(bs, b, mode, 0, Start) == OnCampus.Items(bs, b, 0, 0, true, 0, s0);
    assert OnCampus.Items(bs, b, 0, 0, true, 0, s0) == OnCampus.Items(bs, b, 0, 3, true, 0, s3);
    assert OnCampus.Items(bs, b, 0, 3, true, 0, s3) == OnCampus.Items(bs, b, 0, 5, false, 3, s5);
    Components.RunStep(bs, b, mode, 0, Start);
    assert Components.Place(bs, b, mode, 0, Start) == Components.Items(bs, b, mode, 0, 0, true, 0, s0);
    assert Components.Items(bs, b, mode, 0, 0, true, 0, s0) == Components.Items(bs, b, mode, 0, 3, true, 0, s3);
    assert Components.Items(bs, b, mode, 0, 3, true, 0, s3) == Components.Items(bs, b, mode, 0, 4, false, 3, s4);
    assert Components.Items(bs, b, mode, 0, 4, false, 3, s4) == Components.Items(bs, b, mode, 0, 5, false, 3, s5);
  }

  /** 400 px used of a 500 px first page, then a section with a 60 px heading and a first
      item of 100 px: the on-campus engine looks ahead and moves the heading to page two
      with its item. */
  lemma OnCampusKeepsHeadingWithItem(mode: Mode)
    ensures var bs := [Unsplittable(400), Splittable(160, 60, [100])];
      var oc := OnCampus.Paginate(bs, Budget(500, 1000), mode);
      oc == [[Whole(0)], [Part(1, true, 0, 1)]] && NoOrphans(oc)
  {
    var bs := [Unsplittable(400), Splittable(160, 60, [100])];
    var b := Budget(500, 1000);
    var s1 := State([], [Whole(0)], 400, true);
    assert [] + [Whole(0)] == [Whole(0)];
    OnCampus.RunStep(bs, b, mode, 0, Start);
    OnCampus.RunStep(bs, b, mode, 1, s1);
    assert OnCampus.Place(bs, b, mode, 0, Start) == s1;
    var o1 := State([[Whole(0)]], [], 60, false);
    assert OnCampus.Place(bs, b, mode, 1, s1) == OnCampus.Items(bs, b, 1, 0, true, 0, o1);
    assert OnCampus.Items(bs, b, 1, 0, true, 0, o1) == OnCampus.Items(bs, b, 1, 1, true, 0, o1.(curH := 160));
    assert [] + [Part(1, true, 0, 1)] == [Part(1, true, 0, 1)];
    var oc := [[Whole(0)], [Part(1, true, 0, 1)]];
    assert NoHeadingOnly(oc[0]) && NoHeadingOnly(oc[1]);
  }

  /** The same input in the generic engine, which only checks that the heading fits:
      the heading ends page one and its item opens page two. */
  lemma ComponentsStrandsHeading(mode: Mode)
    ensures var bs := [Unsplittable(400), Splittable(160, 60, [100])];
      var gc := Components.Paginate(bs, Budget(500, 1000), mode);
      gc == [[Whole(0), Part(1, true, 0, 0)], [Part(1, false, 0, 1)]] && !NoOrphans(gc)
  {
    var bs := [Unsplittable(400), Splittable(160, 60, [100])];
    var b := Budget(500, 1000);
    var s1 := State([], [Whole(0)], 400, true);
    assert [] + [Whole(0)] == [Whole(0)];
    Components.RunStep(bs, b, mode, 0, Start);
    Components.RunStep(bs, b, mode, 1, s1);
    assert Components.Place(bs, b, mode, 0, Start) == s1;
    var g1 := s1.(curH := 460);
    var g2 := State([[Whole(0), Part(1, true, 0, 0)]], [], 100, false);
    assert [Whole(0)] + [Part(1, true, 0, 0)] == [Whole(0), Part(1, true, 0, 0)];
    assert Components.SplitsBefore(b, mode, 60, 100, true, g1);
    assert Components.Place(bs, b, mode, 1, s1) == Components.Items(bs, b, mode, 1, 0, true, 0, g1);
    assert Components.Items(bs, b, mode, 1, 0, true, 0, g1) == Components.Items(bs, b, mode, 1, 1, false, 0, g2);
    assert [] + [Part(1, false, 0, 1)] == [Part(1, false, 0, 1)];
    var gc := [[Whole(0), Part(1, true, 0, 0)], [Part(1, false, 0, 1)]];
    assert HeadingOnly(gc[0][1]);
  }

  /** A section marked splittable without a heading or list that does not fit: the
      on-campus engine appends it whole past the budget, the generic engine leaves it
      out, so its content is on no page. */
  lemma MalformedSection(mode: Mode)
    ensures var bs := [Unsplittable(100), Malformed(2000)];
      var oc := OnCampus.Paginate(bs, Budget(900, 1000), mode);
      var gc := Components.Paginate(bs, Budget(900, 1000), mode);
      oc == [[Whole(0), Whole(1)]] && Flatten(bs, oc) == Expected(bs, 2)
      && gc == [[Whole(0)]] && Flatten(bs, gc) != Expected(bs, 2)
  {
    MalformedKeptOnCampus(mode);
    MalformedDroppedComponents(mode);
    MalformedAtoms();
  }

  lemma MalformedKeptOnCampus(mode: Mode)
    ensures OnCampus.Paginate([Unsplittable(100), Malformed(2000)], Budget(900, 1000), mode) == [[Whole(0), Whole(1)]]
  {
    var bs := [Unsplittable(100), Malformed(2000)];
    var b := Budget(900, 1000);
    var s1 := State([], [Whole(0)], 100, true);
    OnCampus.RunStep(bs, b, mode, 0, Start);
    OnCampus.RunStep(bs, b, mode, 1, s1);
    assert OnCampus.Place(bs, b, mode, 0, Start) == s1;
    assert OnCampus.Place(bs, b, mode, 1, s1) == State([], [Whole(0), Whole(1)], 2100, true);
  }

  lemma MalformedDroppedComponents(mode: Mode)
    ensures Components.Paginate([Unsplittable(100), Malformed(2000)], Budget(900, 1000), mode) == [[Whole(0)]]
  {
    var bs := [Unsplittable(100), Malformed(2000)];
    var b := Budget(900, 1000);
    var s1 := State([], [Whole(0)], 100, true);
    Components.RunStep(bs, b, mode, 0, Start);
    Components.RunStep(bs, b, mode, 1, s1);
    assert Components.Place(bs, b, mode, 0, Start) == s1;
    assert Components.Place(bs, b, mode, 1, s1) == s1;
  }

  /** Both atoms of the two blocks are on the page that holds both blocks, and the
      page holding only the first misses the second. */
  lemma MalformedAtoms()
    ensures var bs := [Unsplittable(100), Malformed(2000)];
      Flatten(bs, [[Whole(0), Whole(1)]]) == Expected(bs, 2) && Flatten(bs, [[Whole(0)]]) != Expected(bs, 2)
  {
    var bs := [Unsplittable(100), Malformed(2000)];
    assert Expected(bs, 2) == [BlockAtom(0), BlockAtom(1)];
    SingleFragment(bs, Whole(0));
    assert [Whole(0)] + [Whole(1)] == [Whole(0), Whole(1)];
    PageAtomsAppend(bs, [Whole(0)], Whole(1));
    assert Flatten(bs, [[Whole(0)]]) == [BlockAtom(0)];
  }

  /** When every height is zero everything fits on the first page. */
  lemma ZeroHeightsOnePage(mode: Mode)
    ensures var bs := [Unsplittable(0), Splittable(0, 0, [0, 0])];
      OnCampus.Paginate(bs, Budget(0, 0), mode) == [[Whole(0), Whole(1)]]
      && Components.Paginate(bs, Budget(0, 0), mode) == [[Whole(0), Whole(1)]]
  {
    var bs := [Unsplittable(0), Splittable(0, 0, [0, 0])];
    var b := Budget(0, 0);
    var s1 := State([], [Whole(0)], 0, true);
    assert [] + [Whole(0)] == [Whole(0)];
    OnCampus.RunStep(bs, b, mode, 0, Start);
    OnCampus.RunStep(bs, b, mode, 1, s1);
    Components.RunStep(bs, b, mode, 0, Start);
    Components.RunStep(bs, b, mode, 1, s1);
    assert [Whole(0)] + [Whole(1)] == [Whole(0), Whole(1)];
  }

  /** When the walk produces no page although `<main>` has content, one page showing all
      of `<main>` is the result: in the on-campus engine when the only section has an
      empty list, in the generic engine when the only section is dropped. */
  lemma FallbackPage(mode: Mode)
    ensures OnCampus.Paginate([Splittable(950, 30, [])], Budget(900, 1000), mode) == [[AllContent]]
    ensures Components.Paginate([Malformed(2000)], Budget(900, 1000), mode) == [[AllContent]]
  {
    var b := Budget(900, 1000);
    OnCampus.RunStep([Splittable(950, 30, [])], b, mode, 0, Start);
    assert OnCampus.Place([Splittable(950, 30, [])], b, mode, 0, Start) == State([], [], 30, true);
    Components.RunStep([Malformed(2000)], b, mode, 0, Start);
  }

  /** The fallback for every input: when `<main>` has sections but the walk ends with no
      page pushed and nothing on the page being filled, both engines show exactly one
      page holding all of `<main>`. */
  lemma FallbackWhenNothingEmitted(bs: seq<Block>, b: Budget, mode: Mode)
    ensures var s := OnCampus.Run(bs, b, mode, 0, Start);
      |bs| > 0 && s.pages == [] && s.cur == [] ==>
        OnCampus.Paginate(bs, b, mode) == [[AllContent]]
    ensures var s := Components.Run(bs, b, mode, 0, Start);
      |bs| > 0 && s.pages == [] && s.cur == [] ==>
        Components.Paginate(bs, b, mode) == [[AllContent]]
  {
  }

  // ---------------------------------------------------------------- why the budget theorems assume what they do

  /** The on-campus engine appends a malformed section without looking at its height, so
      even the corrected engine overfills the first page: 2100 px where 900 are
      available, on a page of two blocks that a break could have divided. */
  lemma OnCampusMalformedOverfills()
    ensures var bs := [Unsplittable(100), Malformed(2000)];
      PositiveHeights(bs) && ListsNonEmpty(bs)
      && !AllKeepBudget(bs, OnCampus.Paginate(bs, Budget(900, 1000), Corrected), Budget(900, 1000), false)
  {
    var bs := [Unsplittable(100), Malformed(2000)];
    var p := [Whole(0), Whole(1)];
    MalformedKeptOnCampus(Corrected);
    MalformedAtoms();
    assert Flatten(bs, [p]) == PageAtoms(bs, p);
    assert p[..1] == [Whole(0)];
    assert PageHeight(bs, p) == 2100;
    assert !KeepsBudget(bs, p, BudgetAt(Budget(900, 1000), 0), false);
  }

  /** Headings of empty lists are counted but never shown; when nothing else is shown the
      fallback page holds all of `<main>`, here 1900 px of two headings against 900. */
  lemma OnCampusEmptyListsOverfill()
    ensures var bs := [Splittable(950, 30, []), Splittable(950, 30, [])];
      PositiveHeights(bs) && NoMalformed(bs)
      && !AllKeepBudget(bs, OnCampus.Paginate(bs, Budget(900, 1000), Corrected), Budget(900, 1000), false)
  {
    var bs := [Splittable(950, 30, []), Splittable(950, 30, [])];
    var b := Budget(900, 1000);
    var s1 := State([], [], 30, true);
    OnCampus.RunStep(bs, b, Corrected, 0, Start);
    assert OnCampus.Place(bs, b, Corrected, 0, Start) == s1;
    OnCampus.RunStep(bs, b, Corrected, 1, s1);
    assert OnCampus.Place(bs, b, Corrected, 1, s1) == State([], [], 60, true);
    assert OnCampus.Paginate(bs, b, Corrected) == [[AllContent]];
    assert PageHeight(bs, [AllContent]) == 1900;
    assert Expected(bs, 2) == [HeadingAtom(0), HeadingAtom(1)];
    assert !KeepsBudget(bs, [AllContent], BudgetAt(b, 0), false);
  }

  /** The generic engine skips a malformed section that does not fit; when it skips
      everything the fallback page holds all of `<main>`, here 2000 px against 900. */
  lemma ComponentsMalformedOverfill()
    ensures var bs := [Malformed(1000), Malformed(1000)];
      PositiveHeights(bs)
      && !AllKeepBudget(bs, Components.Paginate(bs, Budget(900, 1000), Corrected), Budget(900, 1000), true)
  {
    var bs := [Malformed(1000), Malformed(1000)];
    var b := Budget(900, 1000);
    Components.RunStep(bs, b, Corrected, 0, Start);
    Components.RunStep(bs, b, Corrected, 1, Start);
    assert Components.Paginate(bs, b, Corrected) == [[AllContent]];
    assert PageHeight(bs, [AllContent]) == 2000;
    assert Expected(bs, 2) == [BlockAtom(0), BlockAtom(1)];
    assert !KeepsBudget(bs, [AllContent], BudgetAt(b, 0), true);
  }
}

=== FILE: preview_common.dfy ===
/** What the preview templates have in common: which activities are shown, how a
    project description is laid out, and the shape of a rendered section as the
    pagination engines read it (a heading row followed by the section's body, whose
    first element is taken as the list to split). */
module Preview {
  import opened Wrappers
  import opened Resume
  import opened Layout
  import Text

  /** The description of an entry ('' for kinds without one). */
  function DescriptionOf(e: Entry): string {
    match GetField(e, Description)
    case Some(s) => s
    case None => ""
  }

  /** An activity is shown when its description is not blank. */
  predicate HasContent(e: Entry) {
    !Text.IsBlank(DescriptionOf(e))
  }

  // ---------------------------------------------------------------- rendering some of a list

  /** The elements that pass the test, in order: what `xs.map(x => keep(x) && ...)`
      leaves on the page. */
  function Filter<T>(xs: seq<T>, keep: T -> bool): (r: seq<T>)
    ensures |r| <= |xs|
    ensures forall k :: 0 <= k < |r| ==> keep(r[k])
  {
    if xs == [] then []
    else (if keep(xs[0]) then [xs[0]] else []) + Filter(xs[1..], keep)
  }

  /** What `xs.map(x => keep(x) && f(x))` renders: f of each element that passes. */
  function FilterMap<T, U>(xs: seq<T>, keep: T -> bool, f: T -> U): (r: seq<U>)
    ensures |r| == |Filter(xs, keep)|
  {
    if xs == [] then []
    else (if keep(xs[0]) then [f(xs[0])] else []) + FilterMap(xs[1..], keep, f)
  }

  /** An element passes exactly when it is in the list and passes the test. */
  lemma {:induction false} FilterMembers<T>(xs: seq<T>, keep: T -> bool)
    ensures forall e :: e in Filter(xs, keep) <==> e in xs && keep(e)
  {
    if xs != [] {
      FilterMembers(xs[1..], keep);
      assert xs == [xs[0]] + xs[1..];
    }
  }

  /** Filtering distributes over concatenation: what passes keeps its order. */
  lemma {:induction false} FilterAppend<T>(xs: seq<T>, ys: seq<T>, keep: T -> bool)
    ensures Filter(xs + ys, keep) == Filter(xs, keep) + Filter(ys, keep)
  {
    if xs == [] {
      assert xs + ys == ys;
    } else {
      assert (xs + ys)[1..] == xs[1..] + ys;
      FilterAppend(xs[1..], ys, keep);
    }
  }

  /** The k-th rendered item is f of the k-th element that passes. */
  lemma {:induction false} FilterMapOfFilter<T, U>(xs: seq<T>, keep: T -> bool, f: T -> U)
    ensures forall k :: 0 <= k < |FilterMap(xs, keep, f)| ==> FilterMap(xs, keep, f)[k] == f(Filter(xs, keep)[k])
  {
    if xs != [] {
      FilterMapOfFilter(xs[1..], keep, f);
    }
  }

  lemma {:induction false} FilterMapAppend<T, U>(xs: seq<T>, ys: seq<T>, keep: T -> bool, f: T -> U)
    ensures FilterMap(xs + ys, keep, f) == FilterMap(xs, keep, f) + FilterMap(ys, keep, f)
  {
    if xs == [] {
      assert xs + ys == ys;
    } else {
      var head := if keep(xs[0]) then [f(xs[0])] else [];
      assert (xs + ys)[0] == xs[0] && (xs + ys)[1..] == xs[1..] + ys;
      FilterMapAppend(xs[1..], ys, keep, f);
      AppendAssoc(head, FilterMap(xs[1..], keep, f), FilterMap(ys, keep, f));
    }
  }

  lemma AppendAssoc<U>(a: seq<U>, b: seq<U>, c: seq<U>)
    ensures a + (b + c) == (a + b) + c
  {
  }

  // ---------------------------------------------------------------- activities

  /** The activities that are rendered, in order; the others render as nothing. */
  function WithContent(xs: seq<Entry>): (r: seq<Entry>)
    ensures |r| <= |xs|
    ensures forall k :: 0 <= k < |r| ==> HasContent(r[k])
  {
    Filter(xs, HasContent)
  }

  /** An activity is shown exactly when it is one of the activities and has content. */
  lemma WithContentMembers(xs: seq<Entry>)
    ensures forall e :: e in WithContent(xs) <==> e in xs && HasContent(e)
  {
    FilterMembers(xs, HasContent);
  }

  /** The shown activities keep their document order. */
  lemma WithContentAppend(xs: seq<Entry>, ys: seq<Entry>)
    ensures WithContent(xs + ys) == WithContent(xs) + WithContent(ys)
  {
    FilterAppend(xs, ys, HasContent);
  }

  /** Some activity is shown. */
  predicate AnyWithContent(xs: seq<Entry>) {
    exists k :: 0 <= k < |xs| && HasContent(xs[k])
  }

  /** The activities section is shown exactly when it has something to show. */
  lemma AnyWithContentIff(xs: seq<Entry>)
    ensures AnyWithContent(xs) <==> WithContent(xs) != []
  {
    WithContentMembers(xs);
    if AnyWithContent(xs) {
      var k :| 0 <= k < |xs| && HasContent(xs[k]);
      assert xs[k] in WithContent(xs);
    }
    if WithContent(xs) != [] {
      var e := WithContent(xs)[0];
      assert e in xs;
      var k :| 0 <= k < |xs| && xs[k] == e;
    }
  }

  // ---------------------------------------------------------------- conditional sections

  /** The elements of xs whose flag is set, in order: the sections a template renders out
      of the ones it knows, each behind its own condition. */
  function Keep<T>(xs: seq<T>, shown: seq<bool>): (r: seq<T>)
    requires |shown| == |xs|
    ensures |r| <= |xs|
    ensures forall x :: x in r ==> exists k :: 0 <= k < |xs| && xs[k] == x && shown[k]
    decreases |xs|
  {
    if xs == [] then []
    else
      var n := |xs| - 1;
      Keep(xs[..n], shown[..n]) + (if shown[n] then [xs[n]] else [])
  }

  predicate Distinct<T(==)>(xs: seq<T>) {
    forall a, b :: 0 <= a < b < |xs| ==> xs[a] != xs[b]
  }

  /** Of elements that are all different, one is kept exactly when its flag is set. */
  lemma {:induction false} KeepIff<T>(xs: seq<T>, shown: seq<bool>, k: nat)
    requires |shown| == |xs| && Distinct(xs) && k < |xs|
    ensures xs[k] in Keep(xs, shown) <==> shown[k]
    decreases |xs|
  {
    var n := |xs| - 1;
    if k < n {
      KeepIff(xs[..n], shown[..n], k);
      assert xs[..n][k] == xs[k];
    }
  }

  /** A kept element is kept after every kept element that precedes it. */
  lemma {:induction false} KeepOrder<T>(xs: seq<T>, shown: seq<bool>, a: nat, b: nat)
    requires |shown| == |xs| && a < b < |xs| && shown[a] && shown[b]
    ensures exists i, j :: 0 <= i < j < |Keep(xs, shown)| && Keep(xs, shown)[i] == xs[a] && Keep(xs, shown)[j] == xs[b]
    decreases |xs|
  {
    var n := |xs| - 1;
    var front := Keep(xs[..n], shown[..n]);
    var r := Keep(xs, shown);
    assert r == front + (if shown[n] then [xs[n]] else []);
    if b < n {
      KeepOrder(xs[..n], shown[..n], a, b);
      var i, j :| 0 <= i < j < |front| && front[i] == xs[..n][a] && front[j] == xs[..n][b];
      assert r[i] == front[i] && r[j] == front[j];
      assert xs[..n][a] == xs[a] && xs[..n][b] == xs[b];
    } else {
      KeepHas(xs[..n], shown[..n], a);
      var i :| 0 <= i < |front| && front[i] == xs[..n][a];
      assert r[i] == front[i] && r[|front|] == xs[b];
    }
  }

  /** An element whose flag is set is kept. */
  lemma {:induction false} KeepHas<T>(xs: seq<T>, shown: seq<bool>, k: nat)
    requires |shown| == |xs| && k < |xs| && shown[k]
    ensures exists i :: 0 <= i < |Keep(xs, shown)| && Keep(xs, shown)[i] == xs[k]
    decreases |xs|
  {
    var n := |xs| - 1;
    var front := Keep(xs[..n], shown[..n]);
    var r := Keep(xs, shown);
    assert r == front + (if shown[n] then [xs[n]] else []);
    if k < n {
      KeepHas(xs[..n], shown[..n], k);
      var i :| 0 <= i < |front| && front[i] == xs[..n][k];
      assert r[i] == front[i] && xs[..n][k] == xs[k];
      assert 0 <= i < |r| && r[i] == xs[k];
    } else {
      assert r[|front|] == xs[k];
    }
  }

  /** A kept last element closes the result. */
  lemma KeepLast<T>(xs: seq<T>, shown: seq<bool>)
    requires |shown| == |xs| && |xs| > 0 && shown[|xs| - 1]
    ensures var r := Keep(xs, shown); |r| > 0 && r[|r| - 1] == xs[|xs| - 1]
  {
  }

  // ---------------------------------------------------------------- project bodies

  /** A project description as rendered: a paragraph, or a list of lines. */
  datatype Body = Paragraph(html: string) | LineList(lines: seq<string>)

  /** A description holding a line break becomes a list of its non-blank lines, each
      with the bold tags rewritten; any other becomes a `renderHTML` paragraph. */
  function ProjectBody(desc: string): (r: Body)
    ensures r.LineList? <==> '\n' in desc
    ensures r.LineList? ==> |r.lines| == |Text.NonBlankLines(desc)|
    ensures r.LineList? ==> forall k :: 0 <= k < |r.lines| ==> r.lines[k] == Text.BoldToStrong(Text.NonBlankLines(desc)[k])
    ensures r.Paragraph? ==> r.html == Text.BoldToStrong(desc)
    ensures r.Paragraph? ==> (r.html == "" <==> desc == "")
    ensures NoLineBreak(r)
  {
    if '\n' in desc then LineList(BoldLines(Text.NonBlankLines(desc)))
    else
      Text.RenderHtmlOfLine(desc);
      Paragraph(Text.RenderHtml(desc))
  }

  /** A description without markup is shown as written: as its non-blank lines when it
      has a line break, as itself otherwise. */
  lemma ProjectBodyOfPlainText(desc: string)
    requires '<' !in desc
    ensures ProjectBody(desc) == if '\n' in desc then LineList(Text.NonBlankLines(desc)) else Paragraph(desc)
  {
    if '\n' in desc {
      Text.NonBlankLinesKeepCharOut(desc, '<');
      var ls := Text.NonBlankLines(desc);
      forall k | 0 <= k < |ls| ensures Text.BoldToStrong(ls[k]) == ls[k] {
        Text.BoldToStrongOfPlain(ls[k]);
      }
    } else {
      Text.BoldToStrongOfPlain(desc);
    }
  }

  /** Each line with the bold tags rewritten. */
  function BoldLines(ls: seq<string>): (r: seq<string>)
    requires forall k :: 0 <= k < |ls| ==> '\n' !in ls[k]
    ensures |r| == |ls| && forall k :: 0 <= k < |ls| ==> r[k] == Text.BoldToStrong(ls[k]) && '\n' !in r[k]
  {
    if ls == [] then []
    else
      Text.BoldToStrongNoNewline(ls[0]);
      [Text.BoldToStrong(ls[0])] + BoldLines(ls[1..])
  }

  /** No raw line break survives in a rendered body. */
  predicate NoLineBreak(b: Body) {
    match b
    case Paragraph(h) => '\n' !in h
    case LineList(ls) => forall k :: 0 <= k < |ls| ==> '\n' !in ls[k]
  }

  /** Two plain lines separated by a blank one: the blank line is dropped and the others
      are shown as they are. */
  lemma ProjectBodyDropsBlankLine(a: string, b: string)
    requires '\n' !in a && '\n' !in b && '<' !in a && '<' !in b
    requires !Text.IsBlank(a) && !Text.IsBlank(b)
    ensures ProjectBody(a + "\n\n" + b) == LineList([a, b])
  {
    var desc := a + "\n\n" + b;
    assert '\n' in desc by { assert desc[|a|] == '\n'; }
    BlankLineBetween(a, b);
    Text.BoldToStrongOfPlain(a);
    Text.BoldToStrongOfPlain(b);
    var ls := BoldLines([a, b]);
    assert ls[0] == a && ls[1] == b;
    assert ls == [a, b];
  }

  lemma BlankLineBetween(a: string, b: string)
    requires '\n' !in a && '\n' !in b
    requires !Text.IsBlank(a) && !Text.IsBlank(b)
    ensures Text.NonBlankLines(a + "\n\n" + b) == [a, b]
  {
    LinesOfTwo(a, b);
    DropBlankSecond(a, b);
  }

  lemma DropBlankSecond(a: string, b: string)
    requires !Text.IsBlank(a) && !Text.IsBlank(b)
    ensures Text.NonBlank([a, "", b]) == [a, b]
  {
    var xs := [a, "", b];
    assert xs[1..] == ["", b];
    assert Text.IsBlank("");
    assert Text.NonBlank(["", b]) == Text.NonBlank([b]) by { assert ["", b][1..] == [b]; }
    assert Text.NonBlank([b]) == [b] by { Text.NonBlankOfNonBlank([b]); }
  }

  lemma LinesOfTwo(a: string, b: string)
    requires '\n' !in a && '\n' !in b
    ensures Text.Lines(a + "\n\n" + b) == [a, "", b]
  {
    assert a + "\n\n" + b == a + ['\n'] + ("\n" + b);
    Text.SplitAtFirst(a, '\n', "\n" + b);
    assert "\n" + b == "" + ['\n'] + b;
    Text.SplitAtFirst("", '\n', b);
    Text.SplitNoSeparator(b, '\n');
  }

  // ---------------------------------------------------------------- sections as the engines see them

  /** A rendered section: its title, its `data-splittable` flag, and its body after the
      heading row, each element given by the number of its own children. The engines
      read the heading as child 0 and the list to split as child 1 (body[0]). */
  datatype SectionDom = SectionDom(title: string, splittable: bool, body: seq<nat>)

  function Titles(ss: seq<SectionDom>): (r: seq<string>)
    ensures |r| == |ss|
    ensures forall k :: 0 <= k < |ss| ==> r[k] == ss[k].title
  {
    if ss == [] then [] else [ss[0].title] + Titles(ss[1..])
  }

  /** The section is one list under its heading, with at least one item: splitting it
      item by item shows all of it. */
  predicate WellShaped(s: SectionDom) {
    s.splittable ==> |s.body| == 1 && s.body[0] > 0
  }

  /** What an engine meets when it measures a rendered section. */
  predicate Measures(s: SectionDom, blk: Block) {
    if !s.splittable then blk.Unsplittable?
    else if |s.body| == 0 then blk.Malformed?
    else blk.Splittable? && |blk.itemHeights| == s.body[0]
  }

  predicate MeasuresAll(ss: seq<SectionDom>, bs: seq<Block>) {
    |bs| == |ss| && forall k :: 0 <= k < |ss| ==> Measures(ss[k], bs[k])
  }

  /** Well-shaped sections give the engines the input their guarantees assume. */
  lemma WellShapedFeedsEngines(ss: seq<SectionDom>, bs: seq<Block>)
    requires forall k :: 0 <= k < |ss| ==> WellShaped(ss[k])
    requires MeasuresAll(ss, bs)
    ensures NoMalformed(bs) && ListsNonEmpty(bs)
  {
    forall i | 0 <= i < |bs| ensures !bs[i].Malformed? {
      assert Measures(ss[i], bs[i]);
    }
    forall i | 0 <= i < |bs| && bs[i].Splittable? ensures |bs[i].itemHeights| > 0 {
      assert Measures(ss[i], bs[i]);
    }
  }

  /** How many body elements a split of the section shows on no page: the engines emit
      the heading and the items of body[0] only. */
  function LostWhenSplit(s: SectionDom): (n: nat)
    ensures n == 0 <==> !s.splittable || |s.body| <= 1
  {
    if s.splittable && |s.body| > 1 then |s.body| - 1 else 0
  }
}

=== FILE: resume.dfy ===
/** The document model every form edits and every template renders (`ResumeData` in
    types.ts, together with the fields the templates use beyond it: summary,
    languages, web links, coursework, LinkedIn and GitHub). */
module Resume {
  import opened Wrappers

  /** The header fields of a resume. LinkedIn and GitHub are optional in the source
      and read as '' when absent. */
  datatype PersonalDetails = PersonalDetails(
    name: string, photo: string, degree: string, gender: string, dob: string,
    email: string, contact: string, logo: string, linkedin: string, github: string)

  /** The `name` attribute of a personal-details input. */
  datatype PersonalField = NameField | PhotoField | DegreeField | GenderField | DobField
                         | EmailField | ContactField | LogoField | LinkedinField | GithubField

  function GetPersonal(p: PersonalDetails, f: PersonalField): string {
    match f
    case NameField => p.name
    case PhotoField => p.photo
    case DegreeField => p.degree
    case GenderField => p.gender
    case DobField => p.dob
    case EmailField => p.email
    case ContactField => p.contact
    case LogoField => p.logo
    case LinkedinField => p.linkedin
    case GithubField => p.github
  }

  /** The personal details with field f set to v and every other field kept. */
  function SetPersonal(p: PersonalDetails, f: PersonalField, v: string): (r: PersonalDetails)
    ensures GetPersonal(r, f) == v
    ensures forall g :: g != f ==> GetPersonal(r, g) == GetPersonal(p, g)
  {
    match f
    case NameField => p.(name := v)
    case PhotoField => p.(photo := v)
    case DegreeField => p.(degree := v)
    case GenderField => p.(gender := v)
    case DobField => p.(dob := v)
    case EmailField => p.(email := v)
    case ContactField => p.(contact := v)
    case LogoField => p.(logo := v)
    case LinkedinField => p.(linkedin := v)
    case GithubField => p.(github := v)
  }

  /** One entry of a list section; each constructor is one interface of types.ts
      (languages, web links and coursework are the template extensions). */
  datatype Entry =
    | Education(id: string, year: string, degree: string, institution: string, grade: string)
    | Internship(id: string, title: string, date: string, description: string)
    | Project(id: string, name: string, date: string, description: string)
    | Achievement(id: string, description: string)
    | Skill(id: string, category: string, skills: string)
    | Position(id: string, title: string, date: string, description: string)
    | Activity(id: string, title: string, description: string)
    | Language(id: string, language: string, proficiency: string)
    | WebLink(id: string, name: string, url: string)
    | Coursework(id: string, category: string, subjects: string)

  /** The `name` attribute of an entry input. */
  datatype FieldName = Id | Year | Degree | Institution | Grade | Title | Date | Description
                     | Name | Category | Skills | LanguageName | Proficiency | Url | Subjects

  /** The value of a field of an entry, or None when the entry's kind has no such field. */
  function GetField(e: Entry, f: FieldName): Option<string> {
    if f == Id then Some(e.id) else
    match e
    case Education(_, y, d, i, g) =>
      (match f case Year => Some(y) case Degree => Some(d) case Institution => Some(i)
               case Grade => Some(g) case _ => None)
    case Internship(_, t, d, s) =>
      (match f case Title => Some(t) case Date => Some(d) case Description => Some(s) case _ => None)
    case Project(_, n, d, s) =>
      (match f case Name => Some(n) case Date => Some(d) case Description => Some(s) case _ => None)
    case Achievement(_, s) =>
      (match f case Description => Some(s) case _ => None)
    case Skill(_, c, s) =>
      (match f case Category => Some(c) case Skills => Some(s) case _ => None)
    case Position(_, t, d, s) =>
      (match f case Title => Some(t) case Date => Some(d) case Description => Some(s) case _ => None)
    case Activity(_, t, s) =>
      (match f case Title => Some(t) case Description => Some(s) case _ => None)
    case Language(_, l, p) =>
      (match f case LanguageName => Some(l) case Proficiency => Some(p) case _ => None)
    case WebLink(_, n, u) =>
      (match f case Name => Some(n) case Url => Some(u) case _ => None)
    case Coursework(_, c, s) =>
      (match f case Category => Some(c) case Subjects => Some(s) case _ => None)
  }

  /** `{ ...e, [f]: v }` restricted to the fields the entry's interface declares. */
  function SetField(e: Entry, f: FieldName, v: string): (r: Entry)
    ensures SameKind(r, e)
    ensures GetField(r, f) == (if GetField(e, f).Some? then Some(v) else None)
    ensures forall g :: g != f ==> GetField(r, g) == GetField(e, g)
  {
    if f == Id then e.(id := v) else
    match e
    case Education(i, y, d, n, g) =>
      (match f case Year => Education(i, v, d, n, g) case Degree => Education(i, y, v, n, g)
               case Institution => Education(i, y, d, v, g) case Grade => Education(i, y, d, n, v)
               case _ => e)
    case Internship(i, t, d, s) =>
      (match f case Title => Internship(i, v, d, s) case Date => Internship(i, t, v, s)
               case Description => Internship(i, t, d, v) case _ => e)
    case Project(i, n, d, s) =>
      (match f case Name => Project(i, v, d, s) case Date => Project(i, n, v, s)
               case Description => Project(i, n, d, v) case _ => e)
    case Achievement(i, s) =>
      (match f case Description => Achievement(i, v) case _ => e)
    case Skill(i, c, s) =>
      (match f case Category => Skill(i, v, s) case Skills => Skill(i, c, v) case _ => e)
    case Position(i, t, d, s) =>
      (match f case Title => Position(i, v, d, s) case Date => Position(i, t, v, s)
               case Description => Position(i, t, d, v) case _ => e)
    case Activity(i, t, s) =>
      (match f case Title => Activity(i, v, s) case Description => Activity(i, t, v) case _ => e)
    case Language(i, l, p) =>
      (match f case LanguageName => Language(i, v, p) case Proficiency => Language(i, l, v) case _ => e)
    case WebLink(i, n, u) =>
      (match f case Name => WebLink(i, v, u) case Url => WebLink(i, n, v) case _ => e)
    case Coursework(i, c, s) =>
      (match f case Category => Coursework(i, v, s) case Subjects => Coursework(i, c, v) case _ => e)
  }

  /** Two entries are of the same interface. */
  predicate SameKind(a: Entry, b: Entry) {
    (a.Education? && b.Education?) || (a.Internship? && b.Internship?) || (a.Project? && b.Project?)
    || (a.Achievement? && b.Achievement?) || (a.Skill? && b.Skill?) || (a.Position? && b.Position?)
    || (a.Activity? && b.Activity?) || (a.Language? && b.Language?) || (a.WebLink? && b.WebLink?)
    || (a.Coursework? && b.Coursework?)
  }

  /** The list-valued keys of `ResumeData` (`DynamicSectionKey` in the forms). */
  datatype SectionKey = EducationKey | InternshipsKey | AchievementsKey | ProjectsKey | SkillsKey
                      | PositionsKey | ActivitiesKey | LanguagesKey | WebLinksKey | CourseworkKey

  datatype ResumeData = ResumeData(
    personal: PersonalDetails, summary: string,
    education: seq<Entry>, internships: seq<Entry>, achievements: seq<Entry>, projects: seq<Entry>,
    skills: seq<Entry>, positions: seq<Entry>, activities: seq<Entry>,
    languages: seq<Entry>, webLinks: seq<Entry>, coursework: seq<Entry>)

  /** The entries of list section k. */
  function Section(d: ResumeData, k: SectionKey): seq<Entry> {
    match k
    case EducationKey => d.education
    case InternshipsKey => d.internships
    case AchievementsKey => d.achievements
    case ProjectsKey => d.projects
    case SkillsKey => d.skills
    case PositionsKey => d.positions
    case ActivitiesKey => d.activities
    case LanguagesKey => d.languages
    case WebLinksKey => d.webLinks
    case CourseworkKey => d.coursework
  }

  /** `{ ...data, [k]: xs }`: section k becomes xs; personal details, the summary and the
      other sections are untouched. */
  function WithSection(d: ResumeData, k: SectionKey, xs: seq<Entry>): (r: ResumeData)
    ensures Section(r, k) == xs
    ensures forall k' :: k' != k ==> Section(r, k') == Section(d, k')
    ensures r.personal == d.personal && r.summary == d.summary
  {
    match k
    case EducationKey => d.(education := xs)
    case InternshipsKey => d.(internships := xs)
    case AchievementsKey => d.(achievements := xs)
    case ProjectsKey => d.(projects := xs)
    case SkillsKey => d.(skills := xs)
    case PositionsKey => d.(positions := xs)
    case ActivitiesKey => d.(activities := xs)
    case LanguagesKey => d.(languages := xs)
    case WebLinksKey => d.(webLinks := xs)
    case CourseworkKey => d.(coursework := xs)
  }

  /** Two documents that agree on personal details, summary and every section are equal. */
  lemma Extensionality(a: ResumeData, b: ResumeData)
    requires a.personal == b.personal && a.summary == b.summary
    requires forall k :: Section(a, k) == Section(b, k)
    ensures a == b
  {
    assert Section(a, EducationKey) == Section(b, EducationKey);
    assert Section(a, InternshipsKey) == Section(b, InternshipsKey);
    assert Section(a, AchievementsKey) == Section(b, AchievementsKey);
    assert Section(a, ProjectsKey) == Section(b, ProjectsKey);
    assert Section(a, SkillsKey) == Section(b, SkillsKey);
    assert Section(a, PositionsKey) == Section(b, PositionsKey);
    assert Section(a, ActivitiesKey) == Section(b, ActivitiesKey);
    assert Section(a, LanguagesKey) == Section(b, LanguagesKey);
    assert Section(a, WebLinksKey) == Section(b, WebLinksKey);
    assert Section(a, CourseworkKey) == Section(b, CourseworkKey);
  }

  /** The kind of entry each section holds. */
  predicate FitsSection(k: SectionKey, e: Entry) {
    match k
    case EducationKey => e.Education?
    case InternshipsKey => e.Internship?
    case AchievementsKey => e.Achievement?
    case ProjectsKey => e.Project?
    case SkillsKey => e.Skill?
    case PositionsKey => e.Position?
    case ActivitiesKey => e.Activity?
    case LanguagesKey => e.Language?
    case WebLinksKey => e.WebLink?
    case CourseworkKey => e.Coursework?
  }

  /** Every section holds only entries of its own interface (what the TypeScript types promise). */
  predicate WellTyped(d: ResumeData) {
    forall k, i :: 0 <= i < |Section(d, k)| ==> FitsSection(k, Section(d, k)[i])
  }

  /** The entry an "Add" button creates: the fresh id and '' in every other field. */
  function BlankEntry(k: SectionKey, id: string): (e: Entry)
    ensures e.id == id && FitsSection(k, e)
    ensures forall f :: f != Id && GetField(e, f).Some? ==> GetField(e, f) == Some("")
  {
    match k
    case EducationKey => Education(id, "", "", "", "")
    case InternshipsKey => Internship(id, "", "", "")
    case AchievementsKey => Achievement(id, "")
    case ProjectsKey => Project(id, "", "", "")
    case SkillsKey => Skill(id, "", "")
    case PositionsKey => Position(id, "", "", "")
    case ActivitiesKey => Activity(id, "", "")
    case LanguagesKey => Language(id, "", "")
    case WebLinksKey => WebLink(id, "", "")
    case CourseworkKey => Coursework(id, "", "")
  }
}

=== FILE: text.dfy ===
/** String helpers shared by the preview templates, the forms and the pages:
    JavaScript's `trim`, `split` on one character, `join`, `includes`, global
    `replace` of a literal pattern, and the `renderHTML` normalisation. */
module Text {

  /** The characters JavaScript's `trim()` and the `\s` class treat as white space
      (the ASCII ones plus no-break space and the byte-order mark). */
  predicate IsWhitespace(c: char) {
    c == ' ' || c == '\t' || c == '\n' || c == '\r' || c == '\U{B}' || c == '\U{C}'
    || c == '\U{A0}' || c == '\U{FEFF}'
  }

  predicate AllWhitespace(s: string) {
    forall k :: 0 <= k < |s| ==> IsWhitespace(s[k])
  }

  /** `s` starts with `p`. */
  predicate StartsWith(s: string, p: string) {
    |p| <= |s| && s[..|p|] == p
  }

  /** p occurs somewhere in s. */
  predicate Contains(s: string, p: string) {
    exists k :: 0 <= k <= |s| && StartsWith(s[k..], p)
  }

  /** A text contains every one of its infixes. */
  lemma ContainsInfix(a: string, p: string, b: string)
    ensures Contains(a + p + b, p)
  {
    assert (a + p + b)[|a|..][..|p|] == p;
  }

  // ---------------------------------------------------------------- trim

  function TrimStart(s: string): (r: string)
    ensures |r| <= |s| && r == s[|s| - |r|..]
    ensures AllWhitespace(s[..|s| - |r|])
    ensures |r| > 0 ==> !IsWhitespace(r[0])
  {
    if |s| > 0 && IsWhitespace(s[0]) then TrimStart(s[1..]) else s
  }

  function TrimEnd(s: string): (r: string)
    ensures |r| <= |s| && r == s[..|r|]
    ensures AllWhitespace(s[|r|..])
    ensures |r| > 0 ==> !IsWhitespace(r[|r| - 1])
  {
    if |s| > 0 && IsWhitespace(s[|s| - 1]) then TrimEnd(s[..|s| - 1]) else s
  }

  /** JavaScript's `s.trim()`: the infix left once the white space at both ends is
      dropped; it neither starts nor ends with white space. */
  function Trim(s: string): (r: string)
    ensures |r| <= |s|
    ensures |r| > 0 ==> !IsWhitespace(r[0]) && !IsWhitespace(r[|r| - 1])
  {
    TrimEnd(TrimStart(s))
  }

  /** The trimmed text sits inside the original with only white space around it. */
  lemma TrimIsInfix(s: string)
    ensures exists a :: 0 <= a <= |s| - |Trim(s)| && Trim(s) == s[a..a + |Trim(s)|]
                        && AllWhitespace(s[..a]) && AllWhitespace(s[a + |Trim(s)|..])
  {
    InfixAfterTrims(s, TrimStart(s), Trim(s));
  }

  /** A prefix of a suffix, each cut off white space, is an infix with white space around it. */
  lemma InfixAfterTrims(s: string, t: string, r: string)
    requires |t| <= |s| && t == s[|s| - |t|..] && AllWhitespace(s[..|s| - |t|])
    requires |r| <= |t| && r == t[..|r|] && AllWhitespace(t[|r|..])
    ensures exists a :: 0 <= a <= |s| - |r| && r == s[a..a + |r|]
                        && AllWhitespace(s[..a]) && AllWhitespace(s[a + |r|..])
  {
    var a := |s| - |t|;
    SliceOfSuffix(s, a, |r|);
    assert r == s[a..a + |r|] && AllWhitespace(s[a + |r|..]);
  }

  lemma SliceOfSuffix(s: string, a: nat, n: nat)
    requires a + n <= |s|
    ensures s[a..][..n] == s[a..a + n] && s[a..][n..] == s[a + n..]
  {
  }

  /** A string is blank when trimming leaves nothing (`!s.trim()` in the source). */
  predicate IsBlank(s: string) {
    Trim(s) == ""
  }

  /** Trimming the front leaves nothing exactly when the text is all white space. */
  lemma TrimStartEmptyIff(s: string)
    ensures TrimStart(s) == "" <==> AllWhitespace(s)
  {
    var r := TrimStart(s);
    if r == "" {
      assert s[..|s| - |r|] == s;
    } else {
      assert r[0] == s[|s| - |r|];
    }
  }

  lemma TrimEndOfWhitespaceFree(s: string)
    requires |s| == 0 || !IsWhitespace(s[|s| - 1])
    ensures TrimEnd(s) == s
  {
  }

  /** Blank means "white space only", in both directions. */
  lemma BlankIffAllWhitespace(s: string)
    ensures IsBlank(s) <==> AllWhitespace(s)
  {
    TrimStartEmptyIff(s);
    var t := TrimStart(s);
    if t != "" {
      var r := TrimEnd(t);
      assert forall k :: |r| <= k < |t| ==> t[k] == t[|r|..][k - |r|];
      assert |r| > 0;
    }
  }

  /** Trimming a string that neither starts nor ends with white space changes nothing. */
  lemma TrimOfTrimmed(s: string)
    requires |s| > 0 ==> !IsWhitespace(s[0]) && !IsWhitespace(s[|s| - 1])
    ensures Trim(s) == s
  {
  }

  /** Leading white space is dropped by `trim`. */
  lemma {:induction false} TrimLeadingSpace(s: string)
    requires |s| > 0 ==> !IsWhitespace(s[0]) && !IsWhitespace(s[|s| - 1])
    ensures Trim(" " + s) == s
  {
    assert (" " + s)[1..] == s;
    assert TrimStart(" " + s) == TrimStart(s);
  }

  /** A leading space makes no difference to `trim`. */
  lemma TrimSpacePrefix(s: string)
    ensures Trim(" " + s) == Trim(s)
  {
    assert (" " + s)[1..] == s;
    assert TrimStart(" " + s) == TrimStart(s);
  }

  /** `trim` only removes characters, so a character absent from s is absent from its
      trimmed form. */
  lemma TrimKeepsCharOut(s: string, c: char)
    requires c !in s
    ensures c !in Trim(s)
  {
    var t := TrimStart(s);
    NotInSlice(s, |s| - |t|, |s|, c);
    NotInSlice(t, 0, |TrimEnd(t)|, c);
  }

  lemma NotInSlice(s: string, lo: nat, hi: nat, c: char)
    requires lo <= hi <= |s| && c !in s
    ensures c !in s[lo..hi]
  {
    assert forall k :: 0 <= k < hi - lo ==> s[lo..hi][k] == s[lo + k];
  }

  // ---------------------------------------------------------------- split / join

  /** `s.split(sep)` for a one-character separator: the maximal runs between separators,
      always at least one (the empty string splits into `[""]`). */
  function Split(s: string, sep: char): (parts: seq<string>)
    ensures |parts| >= 1
    ensures forall k :: 0 <= k < |parts| ==> sep !in parts[k]
    decreases |s|
  {
    if |s| == 0 then [""]
    else
      var rest := Split(s[1..], sep);
      if s[0] == sep then [""] + rest
      else [[s[0]] + rest[0]] + rest[1..]
  }

  /** The parts with the separator between each two neighbours. */
  function Join(parts: seq<string>, sep: string): (r: string)
    decreases |parts|
  {
    if |parts| == 0 then ""
    else if |parts| == 1 then parts[0]
    else parts[0] + sep + Join(parts[1..], sep)
  }

  /** Joining the pieces of a split with the separator gives back the original text. */
  lemma {:induction false} JoinSplit(s: string, sep: char)
    ensures Join(Split(s, sep), [sep]) == s
    decreases |s|
  {
    if |s| > 0 {
      JoinSplit(s[1..], sep);
      var rest := Split(s[1..], sep);
      if s[0] == sep {
        assert s == [sep] + s[1..];
      } else {
        var parts := Split(s, sep);
        assert parts[1..] == rest[1..];
        if |rest| == 1 {
          assert s == [s[0]] + s[1..];
        } else {
          assert Join(rest, [sep]) == rest[0] + [sep] + Join(rest[1..], [sep]);
          assert s == [s[0]] + s[1..];
        }
      }
    }
  }

  /** Splitting text that has no separator up to a first separator peels that piece off. */
  lemma {:induction false} SplitAtFirst(a: string, sep: char, b: string)
    requires sep !in a
    ensures Split(a + [sep] + b, sep) == [a] + Split(b, sep)
    decreases |a|
  {
    if |a| == 0 {
      assert a + [sep] + b == [sep] + b;
      assert ([sep] + b)[1..] == b;
    } else {
      SplitAtFirst(a[1..], sep, b);
      assert (a + [sep] + b)[1..] == a[1..] + [sep] + b;
      assert a == [a[0]] + a[1..];
    }
  }

  lemma {:induction false} SplitNoSeparator(a: string, sep: char)
    requires sep !in a
    ensures Split(a, sep) == [a]
    decreases |a|
  {
    if |a| > 0 {
      SplitNoSeparator(a[1..], sep);
      assert a == [a[0]] + a[1..];
    }
  }

  /** Splitting a join recovers the pieces when none of them contains the separator. */
  lemma {:induction false} SplitJoin(parts: seq<string>, sep: char)
    requires |parts| >= 1
    requires forall k :: 0 <= k < |parts| ==> sep !in parts[k]
    ensures Split(Join(parts, [sep]), sep) == parts
    decreases |parts|
  {
    if |parts| == 1 {
      SplitNoSeparator(parts[0], sep);
    } else {
      SplitJoin(parts[1..], sep);
      SplitAtFirst(parts[0], sep, Join(parts[1..], [sep]));
      assert parts == [parts[0]] + parts[1..];
    }
  }

  /** The number of occurrences of c in s. */
  function Count(s: string, c: char): nat
    decreases |s|
  {
    if |s| == 0 then 0 else (if s[0] == c then 1 else 0) + Count(s[1..], c)
  }

  /** A split has one piece more than the text has separators: empty pieces are kept. */
  lemma {:induction false} SplitLength(s: string, sep: char)
    ensures |Split(s, sep)| == Count(s, sep) + 1
    decreases |s|
  {
    if |s| > 0 {
      SplitLength(s[1..], sep);
    }
  }

  /** A character absent from a text is absent from every piece of its split. */
  lemma {:induction false} SplitKeepsCharOut(s: string, sep: char, c: char)
    requires c !in s
    ensures forall k :: 0 <= k < |Split(s, sep)| ==> c !in Split(s, sep)[k]
    decreases |s|
  {
    if |s| > 0 {
      SplitKeepsCharOut(s[1..], sep, c);
      assert s[0] != c;
    }
  }

  /** The lines of a text, as `s.split('\n')`. */
  function Lines(s: string): (ls: seq<string>)
    ensures |ls| >= 1
    ensures forall k :: 0 <= k < |ls| ==> '\n' !in ls[k]
  {
    Split(s, '\n')
  }

  /** The strings that are not blank, in their original order. */
  function NonBlank(xs: seq<string>): (r: seq<string>)
    ensures |r| <= |xs|
    ensures forall k :: 0 <= k < |r| ==> !IsBlank(r[k])
    decreases |xs|
  {
    if |xs| == 0 then []
    else if IsBlank(xs[0]) then NonBlank(xs[1..])
    else [xs[0]] + NonBlank(xs[1..])
  }

  /** The filter keeps exactly the non-blank entries: every kept entry comes from the
      input, and every non-blank input entry is kept. */
  lemma {:induction false} NonBlankMembers(xs: seq<string>)
    ensures forall x :: x in NonBlank(xs) <==> x in xs && !IsBlank(x)
    decreases |xs|
  {
    if |xs| > 0 {
      NonBlankMembers(xs[1..]);
      assert xs == [xs[0]] + xs[1..];
    }
  }

  /** The filter distributes over concatenation: the kept entries keep their order, and a
      repeated entry is kept as often as it occurs. */
  lemma {:induction false} NonBlankAppend(xs: seq<string>, ys: seq<string>)
    ensures NonBlank(xs + ys) == NonBlank(xs) + NonBlank(ys)
    decreases |xs|
  {
    if |xs| == 0 {
      assert xs + ys == ys;
    } else {
      assert (xs + ys)[0] == xs[0] && (xs + ys)[1..] == xs[1..] + ys;
      NonBlankAppend(xs[1..], ys);
    }
  }

  /** Filtering a list with no blank entry keeps it as it is. */
  lemma {:induction false} NonBlankOfNonBlank(xs: seq<string>)
    requires forall k :: 0 <= k < |xs| ==> !IsBlank(xs[k])
    ensures NonBlank(xs) == xs
    decreases |xs|
  {
    if |xs| > 0 {
      NonBlankOfNonBlank(xs[1..]);
    }
  }

  /** Filtering a list of blank entries leaves nothing. */
  lemma {:induction false} NonBlankOfBlank(xs: seq<string>)
    requires forall k :: 0 <= k < |xs| ==> IsBlank(xs[k])
    ensures NonBlank(xs) == []
    decreases |xs|
  {
    if |xs| > 0 {
      NonBlankOfBlank(xs[1..]);
    }
  }

  /** The non-blank lines of a text. */
  function NonBlankLines(s: string): (ls: seq<string>)
    ensures forall k :: 0 <= k < |ls| ==> !IsBlank(ls[k]) && '\n' !in ls[k]
    ensures forall k :: 0 <= k < |Lines(s)| && !IsBlank(Lines(s)[k]) ==> Lines(s)[k] in ls
  {
    NonBlankMembers(Lines(s));
    NonBlank(Lines(s))
  }

  /** The first line of a text comes first among its non-blank lines, unless it is blank. */
  lemma NonBlankLinesAfterLine(a: string, b: string)
    requires '\n' !in a
    ensures NonBlankLines(a + "\n" + b) == (if IsBlank(a) then [] else [a]) + NonBlankLines(b)
  {
    SplitAtFirst(a, '\n', b);
    NonBlankAppend([a], Lines(b));
    assert NonBlank([a]) == if IsBlank(a) then [] else [a];
  }

  /** A character absent from a text is absent from each of its non-blank lines. */
  lemma NonBlankLinesKeepCharOut(s: string, c: char)
    requires c !in s
    ensures forall k :: 0 <= k < |NonBlankLines(s)| ==> c !in NonBlankLines(s)[k]
  {
    SplitKeepsCharOut(s, '\n', c);
    NonBlankMembers(Lines(s));
    forall k | 0 <= k < |NonBlankLines(s)|
      ensures c !in NonBlankLines(s)[k]
    {
      assert NonBlankLines(s)[k] in Lines(s);
    }
  }

  // ---------------------------------------------------------------- replace

  /** `s.replace(/pat/g, rep)` for a literal pattern: scan left to right and replace every
      non-overlapping occurrence. */
  function ReplaceAll(s: string, pat: string, rep: string): (r: string)
    requires |pat| > 0
    ensures |s| > 0 && |rep| > 0 ==> |r| > 0
    decreases |s|
  {
    if |s| < |pat| then s
    else if s[..|pat|] == pat then rep + ReplaceAll(s[|pat|..], pat, rep)
    else [s[0]] + ReplaceAll(s[1..], pat, rep)
  }

  /** A replacement cannot introduce a character that neither the text nor the replacement has. */
  lemma {:induction false} ReplaceAllKeepsCharOut(s: string, pat: string, rep: string, c: char)
    requires |pat| > 0 && c !in s && c !in rep
    ensures c !in ReplaceAll(s, pat, rep)
    decreases |s|
  {
    if |s| >= |pat| {
      if s[..|pat|] == pat {
        ReplaceAllKeepsCharOut(s[|pat|..], pat, rep, c);
      } else {
        ReplaceAllKeepsCharOut(s[1..], pat, rep, c);
      }
    }
  }

  /** Replacing every occurrence of a one-character pattern removes that character. */
  lemma {:induction false} ReplaceAllRemovesChar(s: string, c: char, rep: string)
    requires c !in rep
    ensures c !in ReplaceAll(s, [c], rep)
    decreases |s|
  {
    if |s| >= 1 {
      if s[..1] == [c] {
        ReplaceAllRemovesChar(s[1..], c, rep);
      } else {
        assert s[0] != c by { assert s[..1] == [s[0]]; }
        ReplaceAllRemovesChar(s[1..], c, rep);
      }
    }
  }

  /** Text that does not contain the first character of the pattern passes through unchanged,
      and so does any prefix made of such text. */
  lemma {:induction false} ReplaceAllSkipsPrefix(x: string, y: string, pat: string, rep: string)
    requires |pat| > 0 && pat[0] !in x
    ensures ReplaceAll(x + y, pat, rep) == x + ReplaceAll(y, pat, rep)
    decreases |x|
  {
    if |x| == 0 {
      assert x + y == y;
    } else {
      var s := x + y;
      if |s| < |pat| {
        assert ReplaceAll(y, pat, rep) == y;
      } else {
        assert s[0] == x[0];
        assert s[..|pat|] != pat by { assert s[..|pat|][0] == x[0]; }
        assert s[1..] == x[1..] + y;
        ReplaceAllSkipsPrefix(x[1..], y, pat, rep);
        assert x == [x[0]] + x[1..];
      }
    }
  }

  lemma ReplaceAllOfPatternFree(x: string, pat: string, rep: string)
    requires |pat| > 0 && pat[0] !in x
    ensures ReplaceAll(x, pat, rep) == x
  {
    ReplaceAllSkipsPrefix(x, "", pat, rep);
    assert x + "" == x;
  }

  lemma ReplaceAllAtPattern(y: string, pat: string, rep: string)
    requires |pat| > 0
    ensures ReplaceAll(pat + y, pat, rep) == rep + ReplaceAll(y, pat, rep)
  {
    assert (pat + y)[..|pat|] == pat;
    assert (pat + y)[|pat|..] == y;
  }

  // ---------------------------------------------------------------- renderHTML

  /** The two bold-tag rewrites: `<b>` becomes `<strong>`, `</b>` becomes `</strong>`. */
  function BoldToStrong(s: string): string {
    ReplaceAll(ReplaceAll(s, "<b>", "<strong>"), "</b>", "</strong>")
  }

  /** The bold rewrites leave text without markup as it is. */
  lemma BoldToStrongOfPlain(s: string)
    requires '<' !in s
    ensures BoldToStrong(s) == s
  {
    ReplaceAllOfPatternFree(s, "<b>", "<strong>");
    ReplaceAllOfPatternFree(s, "</b>", "</strong>");
  }

  /** The bold rewrites introduce no line break. */
  lemma BoldToStrongNoNewline(s: string)
    requires '\n' !in s
    ensures '\n' !in BoldToStrong(s)
  {
    ReplaceAllKeepsCharOut(s, "<b>", "<strong>", '\n');
    ReplaceAllKeepsCharOut(ReplaceAll(s, "<b>", "<strong>"), "</b>", "</strong>", '\n');
  }

  /** `renderHTML` of the preview templates: '' for '', otherwise the bold rewrites followed
      by every newline becoming `<br />`. */
  function RenderHtml(s: string): (r: string)
    ensures r == "" <==> s == ""
    ensures '\n' !in r
  {
    if s == "" then ""
    else
      var r := ReplaceAll(BoldToStrong(s), "\n", "<br />");
      ReplaceAllRemovesChar(BoldToStrong(s), '\n', "<br />");
      r
  }

  /** A single line is rendered with the bold rewrites only. */
  lemma RenderHtmlOfLine(s: string)
    requires '\n' !in s
    ensures RenderHtml(s) == BoldToStrong(s)
  {
    if s != "" {
      BoldToStrongNoNewline(s);
      ReplaceAllOfPatternFree(BoldToStrong(s), "\n", "<br />");
    }
  }

  /** Text without markup or line breaks is rendered verbatim. */
  lemma RenderHtmlOfPlainText(s: string)
    requires '<' !in s && '\n' !in s
    ensures RenderHtml(s) == s
  {
    ReplaceAllOfPatternFree(s, "<b>", "<strong>");
    ReplaceAllOfPatternFree(s, "</b>", "</strong>");
    ReplaceAllOfPatternFree(s, "\n", "<br />");
  }

  /** One scanning step past a position where the pattern does not start. */
  lemma ReplaceAllStep(s: string, pat: string, rep: string)
    requires |pat| > 0 && |s| > 0 && !StartsWith(s, pat)
    ensures ReplaceAll(s, pat, rep) == [s[0]] + ReplaceAll(s[1..], pat, rep)
  {
  }

  lemma BoldOpenPass(t: string)
    requires '<' !in t
    ensures ReplaceAll("<b>" + t + "</b>", "<b>", "<strong>") == "<strong>" + t + "</b>"
  {
    var open, close := "<b>", "</b>";
    assert open + t + close == open + (t + close);
    ReplaceAllAtPattern(t + close, open, "<strong>");
    ReplaceAllSkipsPrefix(t, close, open, "<strong>");
    assert !StartsWith(close, open) by { assert close[1] != open[1]; }
    ReplaceAllStep(close, open, "<strong>");
    assert close[1..] == "/b>";
    ReplaceAllOfPatternFree("/b>", open, "<strong>");
  }

  lemma BoldClosePass(t: string)
    requires '<' !in t
    ensures ReplaceAll("<strong>" + t + "</b>", "</b>", "</strong>") == "<strong>" + t + "</strong>"
  {
    var strong, close := "<strong>", "</b>";
    var s := strong + t + close;
    assert !StartsWith(s, close) by { assert s[1] != close[1]; }
    ReplaceAllStep(s, close, "</strong>");
    assert s[1..] == (strong[1..] + t) + close;
    ReplaceAllSkipsPrefix(strong[1..] + t, close, close, "</strong>");
    ReplaceAllAtPattern("", close, "</strong>");
    assert close + "" == close;
    assert [s[0]] + strong[1..] == strong;
  }

  /** A bold run of plain text is rendered as a `<strong>` run of the same text. */
  lemma RenderHtmlOfBold(t: string)
    requires '<' !in t && '\n' !in t
    ensures RenderHtml("<b>" + t + "</b>") == "<strong>" + t + "</strong>"
  {
    BoldOpenPass(t);
    BoldClosePass(t);
    ReplaceAllOfPatternFree("<strong>" + t + "</strong>", "\n", "<br />");
  }

  /** A replacement whose pattern lacks the character c never reaches across c: the text
      on each side of it is rewritten on its own. */
  lemma {:induction false} ReplaceAllAround(x: string, c: char, y: string, pat: string, rep: string)
    requires |pat| > 0 && c !in pat
    ensures ReplaceAll(x + [c] + y, pat, rep) == ReplaceAll(x, pat, rep) + [c] + ReplaceAll(y, pat, rep)
    decreases |x|, 1
  {
    if |x| == 0 {
      ReplaceAllAtChar(c, y, pat, rep);
      assert x + [c] + y == [c] + y;
    } else if |x + [c] + y| < |pat| {
      assert ReplaceAll(x, pat, rep) == x;
      assert ReplaceAll(y, pat, rep) == y;
    } else if (x + [c] + y)[..|pat|] == pat {
      AroundAtMatch(x, c, y, pat, rep);
    } else {
      AroundPastChar(x, c, y, pat, rep);
    }
  }

  /** The scan passes over a character the pattern lacks. */
  lemma ReplaceAllAtChar(c: char, y: string, pat: string, rep: string)
    requires |pat| > 0 && c !in pat
    ensures ReplaceAll([c] + y, pat, rep) == [c] + ReplaceAll(y, pat, rep)
  {
    var s := [c] + y;
    if |s| >= |pat| {
      assert s[..|pat|] != pat by { assert s[..|pat|][0] == c; assert pat[0] in pat; }
      assert s[1..] == y;
    }
  }

  lemma {:induction false} AroundAtMatch(x: string, c: char, y: string, pat: string, rep: string)
    requires |pat| > 0 && c !in pat && |x| > 0
    requires |x + [c] + y| >= |pat| && (x + [c] + y)[..|pat|] == pat
    ensures ReplaceAll(x + [c] + y, pat, rep) == ReplaceAll(x, pat, rep) + [c] + ReplaceAll(y, pat, rep)
    decreases |x|, 0
  {
    var s := x + [c] + y;
    assert s[|x|] == c;
    assert |pat| <= |x|;
    assert x[..|pat|] == pat;
    var x' := x[|pat|..];
    assert s[|pat|..] == x' + [c] + y;
    ReplaceAllAround(x', c, y, pat, rep);
    assert ReplaceAll(x, pat, rep) == rep + ReplaceAll(x', pat, rep);
  }

  lemma {:induction false} AroundPastChar(x: string, c: char, y: string, pat: string, rep: string)
    requires |pat| > 0 && c !in pat && |x| > 0
    requires |x + [c] + y| >= |pat| && (x + [c] + y)[..|pat|] != pat
    ensures ReplaceAll(x + [c] + y, pat, rep) == ReplaceAll(x, pat, rep) + [c] + ReplaceAll(y, pat, rep)
    decreases |x|, 0
  {
    var s := x + [c] + y;
    var x' := x[1..];
    ReplaceAllStep(s, pat, rep);
    PastFirst(x, c, y);
    NotStartsWithPrefix(x, [c] + y, pat);
    ReplaceAllStep(x, pat, rep);
    ReplaceAllAround(x', c, y, pat, rep);
    Regroup(x[0], ReplaceAll(x', pat, rep), c, ReplaceAll(y, pat, rep));
  }

  /** Dropping the first character of `x + [c] + y` drops it from `x`. */
  lemma PastFirst(x: string, c: char, y: string)
    requires |x| > 0
    ensures x + [c] + y == x + ([c] + y)
    ensures (x + [c] + y)[0] == x[0] && (x + [c] + y)[1..] == x[1..] + [c] + y
  {
    assert (x + [c] + y)[1..] == x[1..] + [c] + y;
  }

  lemma Regroup(a: char, u: string, c: char, w: string)
    ensures [a] + (u + [c] + w) == ([a] + u) + [c] + w
  {
  }

  /** A text that does not start with p has no prefix that does. */
  lemma NotStartsWithPrefix(x: string, t: string, p: string)
    requires !StartsWith(x + t, p)
    ensures !StartsWith(x, p)
  {
    if |p| <= |x| {
      assert (x + t)[..|p|] == x[..|p|];
    }
  }

  /** The bold rewrites act on each side of a line break separately. */
  lemma BoldToStrongAround(x: string, y: string)
    ensures BoldToStrong(x + "\n" + y) == BoldToStrong(x) + "\n" + BoldToStrong(y)
  {
    ReplaceAllAround(x, '\n', y, "<b>", "<strong>");
    ReplaceAllAround(ReplaceAll(x, "<b>", "<strong>"), '\n', ReplaceAll(y, "<b>", "<strong>"), "</b>", "</strong>");
  }

  /** Every string of a list with its bold tags rewritten. */
  function MapBold(ls: seq<string>): (r: seq<string>)
    ensures |r| == |ls|
    ensures forall k :: 0 <= k < |ls| ==> r[k] == BoldToStrong(ls[k])
  {
    if |ls| == 0 then [] else [BoldToStrong(ls[0])] + MapBold(ls[1..])
  }

  /** Lines joined by newlines render as the same lines, each with its bold rewrites,
      joined by `<br />`. */
  lemma {:induction false} RenderJoin(parts: seq<string>)
    requires |parts| >= 1
    requires forall k :: 0 <= k < |parts| ==> '\n' !in parts[k]
    ensures ReplaceAll(BoldToStrong(Join(parts, "\n")), "\n", "<br />") == Join(MapBold(parts), "<br />")
    decreases |parts|
  {
    if |parts| == 1 {
      BoldToStrongNoNewline(parts[0]);
      ReplaceAllOfPatternFree(BoldToStrong(parts[0]), "\n", "<br />");
    } else {
      var rest := parts[1..];
      RenderFirstLine(parts[0], Join(rest, "\n"));
      RenderJoin(rest);
      assert MapBold(parts) == [BoldToStrong(parts[0])] + MapBold(rest);
    }
  }

  /** The first line of a text is rendered on its own, followed by `<br />`. */
  lemma RenderFirstLine(p: string, j: string)
    requires '\n' !in p
    ensures ReplaceAll(BoldToStrong(p + "\n" + j), "\n", "<br />")
            == BoldToStrong(p) + "<br />" + ReplaceAll(BoldToStrong(j), "\n", "<br />")
  {
    BoldToStrongNoNewline(p);
    BoldToStrongAround(p, j);
    BreakAfterLine(BoldToStrong(p), BoldToStrong(j));
  }

  /** A line break after a line without breaks becomes `<br />`. */
  lemma BreakAfterLine(b: string, t: string)
    requires '\n' !in b
    ensures ReplaceAll(b + "\n" + t, "\n", "<br />") == b + "<br />" + ReplaceAll(t, "\n", "<br />")
  {
    assert b + "\n" + t == b + ("\n" + t);
    ReplaceAllSkipsPrefix(b, "\n" + t, "\n", "<br />");
    ReplaceAllAtPattern(t, "\n", "<br />");
  }

  /** `renderHTML` of a non-empty text: its lines, each with the bold rewrites, joined by
      `<br />`. */
  lemma RenderHtmlAsLines(s: string)
    requires s != ""
    ensures RenderHtml(s) == Join(MapBold(Lines(s)), "<br />")
  {
    JoinSplit(s, '\n');
    RenderJoin(Lines(s));
  }

  // ---------------------------------------------------------------- mapping characters

  /** Every white-space character replaced by an underscore. */
  function UnderscoreWhitespace(s: string): (r: string)
    ensures |r| == |s|
    ensures forall k :: 0 <= k < |s| ==> r[k] == (if IsWhitespace(s[k]) then '_' else s[k])
  {
    if |s| == 0 then "" else [if IsWhitespace(s[0]) then '_' else s[0]] + UnderscoreWhitespace(s[1..])
  }
}

=== FILE: upload.dfy ===
/** The upload page (pages/UploadResumePage.tsx): the file-type guard, the text handed to
    the extraction service, the clean-up of its answer, and the merge of the extracted
    fields into the default resume. The PDF reader, the language model and `JSON.parse`
    are parameters. */
module Upload {
  import opened Wrappers
  import opened Resume
  import Text
  import Builder

  const PdfType: string := "application/pdf"
  const NotPdfAlert: string := "Please upload a valid PDF file."
  const FailedAlert: string := "Failed to process the resume. Please try again or create from scratch."

  // ---------------------------------------------------------------- extracted text

  /** The text of one page: its text items joined by single spaces. */
  function PageText(items: seq<string>): string {
    Text.Join(items, " ")
  }

  /** The text of the document: each page's text followed by a line break, in page order. */
  function FullText(pages: seq<seq<string>>): string
    decreases |pages|
  {
    if pages == [] then "" else PageText(pages[0]) + "\n" + FullText(pages[1..])
  }

  lemma {:induction false} FullTextAppend(pages: seq<seq<string>>, p: seq<string>)
    ensures FullText(pages + [p]) == FullText(pages) + PageText(p) + "\n"
    decreases |pages|
  {
    if pages == [] {
      assert [] + [p] == [p];
      assert [p][1..] == [];
    } else {
      assert (pages + [p])[1..] == pages[1..] + [p];
      FullTextAppend(pages[1..], p);
    }
  }

  /** The page loop: the text grows by one page and one line break per page. */
  method AssembleText(pages: seq<seq<string>>) returns (text: string)
    ensures text == FullText(pages)
  {
    text := "";
    var i := 0;
    while i < |pages|
      invariant 0 <= i <= |pages|
      invariant text == FullText(pages[..i])
    {
      assert pages[..i + 1] == pages[..i] + [pages[i]];
      FullTextAppend(pages[..i], pages[i]);
      text := text + PageText(pages[i]) + "\n";
      i := i + 1;
    }
    assert pages[..|pages|] == pages;
  }

  function PageTexts(pages: seq<seq<string>>): (r: seq<string>)
    ensures |r| == |pages| && forall k :: 0 <= k < |pages| ==> r[k] == PageText(pages[k])
  {
    seq(|pages|, k requires 0 <= k < |pages| => PageText(pages[k]))
  }

  lemma {:induction false} FullTextAsJoin(pages: seq<seq<string>>)
    ensures FullText(pages) == Text.Join(PageTexts(pages) + [""], "\n")
    decreases |pages|
  {
    if pages != [] {
      FullTextAsJoin(pages[1..]);
      assert PageTexts(pages) + [""] == [PageText(pages[0])] + (PageTexts(pages[1..]) + [""]);
    }
  }

  /** Joining pieces free of a character with a separator free of it gives a text free of it. */
  lemma {:induction false} JoinKeepsCharOut(parts: seq<string>, sep: string, c: char)
    requires c !in sep && forall k :: 0 <= k < |parts| ==> c !in parts[k]
    ensures c !in Text.Join(parts, sep)
    decreases |parts|
  {
    if |parts| > 1 {
      JoinKeepsCharOut(parts[1..], sep, c);
    }
  }

  /** Nothing of the pages is lost or reordered: when no text item holds a line break,
      splitting the document text at line breaks gives back each page's text in page
      order, followed by the empty piece after the last line break. */
  lemma LinesOfFullText(pages: seq<seq<string>>)
    requires forall p, k :: 0 <= p < |pages| && 0 <= k < |pages[p]| ==> '\n' !in pages[p][k]
    ensures Text.Lines(FullText(pages)) == PageTexts(pages) + [""]
  {
    var parts := PageTexts(pages) + [""];
    forall k | 0 <= k < |parts| ensures '\n' !in parts[k] {
      if k < |pages| {
        JoinKeepsCharOut(pages[k], " ", '\n');
      }
    }
    FullTextAsJoin(pages);
    Text.SplitJoin(parts, '\n');
  }

  // ---------------------------------------------------------------- the answer

  /** The answer of the model, trimmed, with every "```json" and then every "```" removed. */
  function StripFences(answer: string): string {
    Text.ReplaceAll(Text.ReplaceAll(Text.Trim(answer), "```json", ""), "```", "")
  }

  /** An answer without back-ticks is only trimmed. */
  lemma StripFencesOfPlain(answer: string)
    requires '`' !in answer
    ensures StripFences(answer) == Text.Trim(answer)
  {
    Text.TrimKeepsCharOut(answer, '`');
    Text.ReplaceAllOfPatternFree(Text.Trim(answer), "```json", "");
    Text.ReplaceAllOfPatternFree(Text.Trim(answer), "```", "");
  }

  /** An answer wrapped in a json code fence gives back exactly what the fence encloses. */
  lemma StripFencesOfFenced(body: string)
    requires '`' !in body
    ensures StripFences("```json" + body + "```") == body
  {
    var s := "```json" + body + "```";
    assert s[0] == '`' && s[|s| - 1] == '`';
    Text.TrimOfTrimmed(s);
    OpeningFenceRemoved(body);
    ClosingFenceRemoved(body);
  }

  lemma OpeningFenceRemoved(body: string)
    requires '`' !in body
    ensures Text.ReplaceAll("```json" + body + "```", "```json", "") == body + "```"
  {
    assert "```json" + body + "```" == "```json" + (body + "```");
    Text.ReplaceAllAtPattern(body + "```", "```json", "");
    Text.ReplaceAllSkipsPrefix(body, "```", "```json", "");
    assert Text.ReplaceAll("```", "```json", "") == "```";
  }

  lemma ClosingFenceRemoved(body: string)
    requires '`' !in body
    ensures Text.ReplaceAll(body + "```", "```", "") == body
  {
    Text.ReplaceAllSkipsPrefix(body, "```", "```", "");
    assert "```" == "```" + "";
    Text.ReplaceAllAtPattern("", "```", "");
    assert body + "" == body;
  }

  // ---------------------------------------------------------------- merge

  /** What `JSON.parse` made of the answer, as far as the merge reads it: the header
      fields present (None when `personalDetails` is missing), the summary when present,
      and the list sections present. */
  datatype Parsed = Parsed(personal: Option<PersonalField -> Option<string>>, summary: Option<string>,
                           sections: SectionKey -> Option<seq<Entry>>)

  /** The header of the merged resume: a parsed field replaces the default; photo and logo
      keep the default when the parsed value is missing or empty. */
  function MergePersonal(def: PersonalDetails, patch: Option<PersonalField -> Option<string>>): (r: PersonalDetails)
    ensures forall f :: f != PhotoField && f != LogoField ==>
      GetPersonal(r, f) == (if patch.Some? && patch.value(f).Some? then patch.value(f).value else GetPersonal(def, f))
    ensures forall f :: (f == PhotoField || f == LogoField) ==>
      GetPersonal(r, f) == (if patch.Some? && patch.value(f).Some? && patch.value(f).value != "" then patch.value(f).value else GetPersonal(def, f))
  {
    PersonalDetails(
      Pick(def, patch, NameField), Pick(def, patch, PhotoField), Pick(def, patch, DegreeField),
      Pick(def, patch, GenderField), Pick(def, patch, DobField), Pick(def, patch, EmailField),
      Pick(def, patch, ContactField), Pick(def, patch, LogoField), Pick(def, patch, LinkedinField),
      Pick(def, patch, GithubField))
  }

  function Pick(def: PersonalDetails, patch: Option<PersonalField -> Option<string>>, f: PersonalField): string {
    if patch.Some? && patch.value(f).Some? && (patch.value(f).value != "" || (f != PhotoField && f != LogoField))
    then patch.value(f).value else GetPersonal(def, f)
  }

  function PickSection(def: ResumeData, p: Parsed, k: SectionKey): seq<Entry> {
    if p.sections(k).Some? then p.sections(k).value else Section(def, k)
  }

  /** The merged resume: every section and the summary present in the answer replace the
      default's, the others are the default's; the header is merged field by field. */
  function Merge(def: ResumeData, p: Parsed): (r: ResumeData)
    ensures r.personal == MergePersonal(def.personal, p.personal)
    ensures r.summary == (if p.summary.Some? then p.summary.value else def.summary)
    ensures forall k :: p.sections(k).Some? ==> Section(r, k) == p.sections(k).value
    ensures forall k :: p.sections(k).None? ==> Section(r, k) == Section(def, k)
  {
    MergedSections(def, p);
    Merged(def, p)
  }

  function Merged(def: ResumeData, p: Parsed): ResumeData {
    ResumeData(
      MergePersonal(def.personal, p.personal),
      if p.summary.Some? then p.summary.value else def.summary,
      PickSection(def, p, EducationKey), PickSection(def, p, InternshipsKey),
      PickSection(def, p, AchievementsKey), PickSection(def, p, ProjectsKey),
      PickSection(def, p, SkillsKey), PickSection(def, p, PositionsKey),
      PickSection(def, p, ActivitiesKey), PickSection(def, p, LanguagesKey),
      PickSection(def, p, WebLinksKey), PickSection(def, p, CourseworkKey))
  }

  lemma MergedSections(def: ResumeData, p: Parsed)
    ensures forall k :: Section(Merged(def, p), k) == PickSection(def, p, k)
  {
    forall k ensures Section(Merged(def, p), k) == PickSection(def, p, k) {
      MergedSection(def, p, k);
    }
  }

  lemma MergedSection(def: ResumeData, p: Parsed, k: SectionKey)
    ensures Section(Merged(def, p), k) == PickSection(def, p, k)
  {
    match k {
      case EducationKey =>
      case InternshipsKey =>
      case AchievementsKey =>
      case ProjectsKey =>
      case SkillsKey =>
      case PositionsKey =>
      case ActivitiesKey =>
      case LanguagesKey =>
      case WebLinksKey =>
      case CourseworkKey =>
    }
  }

  /** An answer with nothing in it gives the default resume. */
  lemma MergeOfNothing(def: ResumeData)
    ensures Merge(def, Parsed(None, None, _ => None)) == def
  {
    var r := Merge(def, Parsed(None, None, _ => None));
    PersonalExtensionality(r.personal, def.personal);
    Extensionality(r, def);
  }

  /** The answer that spells out every field of d. */
  function ParsedOf(d: ResumeData): (p: Parsed)
    ensures p.personal.Some? && forall f :: p.personal.value(f) == Some(GetPersonal(d.personal, f))
    ensures p.summary == Some(d.summary)
    ensures forall k :: p.sections(k) == Some(Section(d, k))
  {
    Parsed(Some(f => Some(GetPersonal(d.personal, f))), Some(d.summary), k => Some(Section(d, k)))
  }

  /** An answer that spells out a whole resume, with a photo and a logo, is taken as it is. */
  lemma MergeOfComplete(def: ResumeData, d: ResumeData)
    requires d.personal.photo != "" && d.personal.logo != ""
    ensures Merge(def, ParsedOf(d)) == d
  {
    var r := Merge(def, ParsedOf(d));
    assert GetPersonal(d.personal, PhotoField) != "" && GetPersonal(d.personal, LogoField) != "";
    PersonalExtensionality(r.personal, d.personal);
    Extensionality(r, d);
  }

  lemma PersonalExtensionality(a: PersonalDetails, b: PersonalDetails)
    requires forall f :: GetPersonal(a, f) == GetPersonal(b, f)
    ensures a == b
  {
    assert GetPersonal(a, NameField) == GetPersonal(b, NameField);
    assert GetPersonal(a, PhotoField) == GetPersonal(b, PhotoField);
    assert GetPersonal(a, DegreeField) == GetPersonal(b, DegreeField);
    assert GetPersonal(a, GenderField) == GetPersonal(b, GenderField);
    assert GetPersonal(a, DobField) == GetPersonal(b, DobField);
    assert GetPersonal(a, EmailField) == GetPersonal(b, EmailField);
    assert GetPersonal(a, ContactField) == GetPersonal(b, ContactField);
    assert GetPersonal(a, LogoField) == GetPersonal(b, LogoField);
    assert GetPersonal(a, LinkedinField) == GetPersonal(b, LinkedinField);
    assert GetPersonal(a, GithubField) == GetPersonal(b, GithubField);
  }

  /** An answer without a photo leaves the default's placeholder in place, so an
      on-campus download still asks for the photo. */
  lemma UploadWithoutPhotoAsksForIt(def: ResumeData, p: Parsed)
    requires Builder.IsPlaceholder(def.personal.photo)
    requires p.personal.None? || p.personal.value(PhotoField).None? || p.personal.value(PhotoField) == Some("")
    ensures Builder.ValidateImages(Builder.OnCampus, Merge(def, p).personal).Some?
  {
    assert GetPersonal(Merge(def, p).personal, PhotoField) == def.personal.photo;
  }

  // ---------------------------------------------------------------- handling a file

  /** What handling a file leaves behind: the resume handed on (None when nothing was
      handed on), the alert shown, and whether the page still shows its spinner. */
  datatype UploadResult = UploadResult(completed: Option<ResumeData>, alert: Option<string>, processing: bool)

  /** `handleFile`. `extracted` is what the PDF reader gives (the items of each page, None
      when reading fails), `ask` is the model's answer to the prompt built from the text,
      `parse` is `JSON.parse` (None when it throws), `def` is the on-campus default. */
  function HandleFile(mime: string, extracted: Option<seq<seq<string>>>, ask: string -> Option<string>,
                      parse: string -> Option<Parsed>, def: ResumeData): (r: UploadResult)
    ensures !r.processing
    ensures r.completed.Some? <==> r.alert.None?
    ensures mime != PdfType ==> r.alert == Some(NotPdfAlert)
    ensures r.completed.Some? <==>
      mime == PdfType && extracted.Some? && ask(FullText(extracted.value)).Some?
      && parse(StripFences(ask(FullText(extracted.value)).value)).Some?
    ensures r.completed.Some? ==>
      r.completed.value == Merge(def, parse(StripFences(ask(FullText(extracted.value)).value)).value)
    ensures mime == PdfType && r.completed.None? ==> r.alert == Some(FailedAlert)
  {
    if mime != PdfType then UploadResult(None, Some(NotPdfAlert), false)
    else
      match extracted
      case None => UploadResult(None, Some(FailedAlert), false)
      case Some(pages) =>
        match ask(FullText(pages))
        case None => UploadResult(None, Some(FailedAlert), false)
        case Some(answer) =>
          match parse(StripFences(answer))
          case None => UploadResult(None, Some(FailedAlert), false)
          case Some(p) => UploadResult(Some(Merge(def, p)), None, false)
  }

  /** A file of another type never reaches the reader or the model: the outcome does not
      depend on them. */
  lemma NotPdfNeverProcessed(mime: string, e1: Option<seq<seq<string>>>, e2: Option<seq<seq<string>>>,
                             a1: string -> Option<string>, a2: string -> Option<string>,
                             p1: string -> Option<Parsed>, p2: string -> Option<Parsed>, def: ResumeData)
    requires mime != PdfType
    ensures HandleFile(mime, e1, a1, p1, def) == HandleFile(mime, e2, a2, p2, def)
  {
  }
}

=== FILE: wrappers.dfy ===
/** The optional value used wherever the source has `T | null` or an absent key. */
module Wrappers {
  datatype Option<T> = None | Some(value: T)
}
